=== FILE: README.md ===
# Financial domain of the econ-insight-board dashboard, in Dafny

The dashboard is a small React application for a business's finances:
revenues (clients), fixed costs, variable costs filed under categories,
payroll, and recurring monthly expenses generated from templates. The pages
fold these lists into totals, ratios, per-category groupings, rankings and
status labels, and a date-range filter offers presets built on JavaScript's
`Date`.

This project models that financial logic as immutable datatypes over
sequences and pure functions, and proves what the pages promise about it.
There is one module per page or hook, and four shared modules:

- `Common`: filter, map, sum, de-duplication and slicing, as JavaScript's
  array methods behave.
- `Text`: lower-casing, `includes`, string order, `split`/`join`, `String(n)`,
  `padStart` and `parseInt`.
- `Calendar`: the proleptic Gregorian calendar of `Date` on whole days. It
  covers MakeDay normalisation and TimeClip from section 21.4.1 of ECMA-262,
  `new Date(y, m, d)`, `setDate`, `setMonth`, and the `YYYY-MM-DD` prefix of
  `toISOString()`.
- `Sorting`, `Grouping`:
  - the stable sort that section 23.1.3 of ECMA-262 requires of
    `Array.prototype.sort`;
  - the `Record` fold with the key order of OrdinaryOwnPropertyKeys
    (section 10.1.11.1 of ECMA-262: array-index keys first, ascending, then
    insertion order);
  - the `Map` fold with insertion order.

Amounts are `real`. "Today" is a calendar date passed in. On the payroll
page the due dates and the current moment are millisecond timestamps passed
in. Ids the database or `Date.now()` would produce are parameters. The
amounts `parseFloat` reads from the forms are parameters; `parseInt` on due
days and reference months is modelled.

## Model

| member | source | states |
|---|---|---|
| FinancialData.AddCliente | src/hooks/useFinancialData.ts:76-79 | appends exactly one client with the given fields and id; the other four lists are unchanged |
| FinancialData.AddCustoFixo | src/hooks/useFinancialData.ts:81-84 | appends exactly one fixed cost; the other lists are unchanged |
| FinancialData.AddCustoVariavel | src/hooks/useFinancialData.ts:86-89 | appends exactly one variable cost; the other lists are unchanged |
| FinancialData.AddCategoria | src/hooks/useFinancialData.ts:91-94 | appends exactly one category; the other lists are unchanged |
| FinancialData.AddFuncionario | src/hooks/useFinancialData.ts:96-99 | appends exactly one employee; the other lists are unchanged |
| FinancialData.CalculateSummary | src/hooks/useFinancialData.ts:101-120 | the four totals are the sums of `valor`/`salario` over their lists, and profit is revenue minus fixed and variable costs |
| FinancialData.AddClienteSummary | src/hooks/useFinancialData.ts:76-110 | a new client raises revenue and profit by its amount and leaves both cost totals and payroll |
| FinancialData.AddCustoFixoSummary | src/hooks/useFinancialData.ts:81-110 | a new fixed cost raises the fixed total and lowers profit by its amount; revenue, variable costs, margin and payroll stay |
| FinancialData.AddCustoVariavelSummary | src/hooks/useFinancialData.ts:86-110 | a new variable cost raises the variable total and lowers profit by its amount; revenue, fixed costs and payroll stay |
| FinancialData.AddCategoriaSummary | src/hooks/useFinancialData.ts:91-110 | adding a category changes no figure of the summary |
| FinancialData.AddFuncionarioSummary | src/hooks/useFinancialData.ts:96-110 | a new employee changes only the payroll figure, by the salary |
| FinancialData.SeededSummary | src/hooks/useFinancialData.ts:46-110 | on the seeded data: revenue 15700, fixed 10500, variable 2600, payroll 9300, profit 2600 |
| Summary.Margin | src/hooks/useFinancialData.ts:107 | with revenue, margin times revenue is 100 times (revenue minus variable costs), and the margin is not clamped; without revenue it is 0 |
| Summary.BreakEven | src/hooks/useFinancialData.ts:108 | with a positive margin, break-even times margin/100 gives back the fixed costs; otherwise 0 |
| Summary.Summarize | src/hooks/useFinancialData.ts:101-120 | the seven figures: the four totals as given, profit plus both cost totals equals revenue, margin and break-even as above |
| Summary.MarginSign | src/hooks/useFinancialData.ts:107 | with revenue, the margin is positive iff variable costs are below revenue, negative iff above, and at most 100 for non-negative costs |
| Summary.BreakEvenCoversFixedCosts | src/hooks/useFinancialData.ts:107-108 | at the break-even revenue, with variable costs in the same proportion, the contribution exactly covers the fixed costs |
| Summary.BreakEvenNonNegative | src/hooks/useFinancialData.ts:108 | non-negative fixed costs give a non-negative break-even |
| Summary.PayrollIndependent | src/hooks/useFinancialData.ts:105-109 | changing payroll changes only `folhaPagamentoTotal`: profit, margin and break-even ignore it |
| Summary.NoRevenue | src/hooks/useFinancialData.ts:107-109 | with no revenue, margin and break-even are 0 and profit is minus the costs |
| Summary.LossMakingMargin | src/hooks/useSupabaseFinancialData.ts:230-231 | when variable costs exceed positive revenue the margin is negative and break-even is 0 |
| Summary.WorkedExample | src/hooks/useFinancialData.ts:101-120 | R 3000, F 500, V 300, P 800 give a 90% margin, break-even 5000/9 and profit 2200 |
| SupabaseData.Loaded | src/hooks/useSupabaseFinancialData.ts:219-222 | a collection not yet loaded reads as the empty list, a loaded one as itself |
| SupabaseData.FinancialSummary | src/hooks/useSupabaseFinancialData.ts:224-243 | the four totals are sums over the loaded lists and profit excludes payroll |
| SupabaseData.SameAsInMemory | src/hooks/useSupabaseFinancialData.ts:224-243 | on lists with the same amounts in the same order, the database hook's summary equals the in-memory hook's |
| SupabaseData.NothingLoaded | src/hooks/useSupabaseFinancialData.ts:219-232 | nothing loaded, or all lists empty, gives all seven figures 0 |
| SupabaseData.AppendCustoVariavel | src/hooks/useSupabaseFinancialData.ts:225-232 | one more variable cost raises only the variable total, by its amount, and lowers profit by it |
| SupabaseData.AppendCliente | src/hooks/useSupabaseFinancialData.ts:225-232 | one more client raises revenue and profit by its amount; costs and payroll stay |
| SupabaseData.AppendFuncionario | src/hooks/useSupabaseFinancialData.ts:228-232 | one more employee raises only payroll, by the salary |
| Resumo.Status | src/pages/ResumoFinanceiro.tsx:210-211 | "LUCRO" iff the profit is positive, and "PREJUÍZO" iff it is zero or negative |
| Resumo.CustosTotais | src/pages/ResumoFinanceiro.tsx:74-78 | "Custos Totais" is revenue minus net profit whenever the summary's profit is revenue minus both costs |
| Resumo.CostsAndProfit | src/pages/ResumoFinanceiro.tsx:74-84 | "Custos Totais" plus profit equals revenue; payroll changes neither total costs nor the status |
| Resumo.NetMarginMeaning | src/pages/ResumoFinanceiro.tsx:198 | with revenue, net margin times revenue is 100 times profit, and the net margin is positive iff the status is "LUCRO" |
| Resumo.NetMargin | src/pages/ResumoFinanceiro.tsx:198 | with revenue, the net margin times revenue is 100 times profit; without revenue it is 0 |
| Resumo.FixedShare | src/pages/ResumoFinanceiro.tsx:204 | with revenue, the fixed-cost share times revenue is 100 times the fixed costs; without revenue it is 0 |
| Resumo.SharesAddUp | src/pages/ResumoFinanceiro.tsx:192-204 | with revenue, the fixed-cost share plus the net margin equals the contribution margin |
| Resumo.NoRevenueRatios | src/pages/ResumoFinanceiro.tsx:132-211 | without revenue both ratios show 0 and, with non-negative costs, the status is a loss |
| Resumo.ChartData | src/pages/ResumoFinanceiro.tsx:29-50 | exactly four bars in this order: "Receitas" with the revenue, "Custos Fixos" with the fixed costs, "Custos Variáveis" with the variable costs and "Folha de Pagamento" with the payroll; the two cost bars add up to "Custos Totais", and all four to revenue plus costs plus payroll |
| Resumo.SeededPage | src/pages/ResumoFinanceiro.tsx:74-211 | on the seeded data: costs 13100, "LUCRO", net margin 2600/157 percent and fixed-cost share 10500/157 percent |
| Listing.Search | src/pages/Receitas.tsx:106-108 | the records shown are an order-preserving subsequence, and a record is shown iff its lower-cased field contains the lower-cased term |
| Listing.Replace | src/pages/Receitas.tsx:72-76 | an update by id: same length, the record with the edited id becomes the new record, every other record stays |
| Listing.EmptySearchKeepsAll | src/pages/Receitas.tsx:106-110 | an empty search shows every record, so the total is the total of all records |
| Listing.SearchIgnoresTermCase | src/pages/Receitas.tsx:106-108 | the term and its lower-case form select the same records |
| Listing.SearchTotalBounds | src/pages/Receitas.tsx:110 | with non-negative amounts the total shown lies between 0 and the total of all records |
| Listing.SearchAppend | src/pages/Receitas.tsx:106-110 | a record added to the store is shown iff it matches, and adds its amount to the total shown only then |
| Listing.SearchReorder | src/pages/Receitas.tsx:106-110 | two stores holding the same records in any order show the same records as often, the same count and the same totals |
| Listing.ReplaceTotal | src/pages/Receitas.tsx:72-76 | with unique ids, an update replaces exactly one position, changes the total by the difference and keeps ids unique |
| Listing.ReplaceSame | src/pages/Receitas.tsx:72-76 | updating a record with its own fields changes nothing |
| Listing.ReplaceMissing | src/pages/Receitas.tsx:72-76 | an id no record carries leaves the store as it was |
| Receitas.NumeroClientes | src/pages/Receitas.tsx:224 | the number of stored clients whose name contains the search term (case-insensitive), so at most the number of clients; Receitas.SubmitNew gives its step |
| Receitas.TotalReceitas | src/pages/Receitas.tsx:105-109 | with an empty search, the sum of every client's amount; with non-negative amounts it lies between 0 and that sum |
| Receitas.Submit | src/pages/Receitas.tsx:62-97 | an incomplete form changes nothing; a complete one resets the form and ends the edit, adding a row only when nothing was being edited |
| Receitas.EmptySearchShowsAll | src/pages/Receitas.tsx:106-110 | no search: every client is counted and the total is the revenue total |
| Receitas.SubmitNew | src/pages/Receitas.tsx:62-88 | the store gains exactly the new client; it adds its amount to the total shown, and one to the client count, iff its name matches the search |
| Receitas.SubmitEdit | src/pages/Receitas.tsx:62-88 | an edit keeps the row in place under its id with the form's fields; revenue changes by the difference; ids stay unique |
| Receitas.EditRoundTrip | src/pages/Receitas.tsx:34-88 | opening a client for edit and saving unchanged leaves the store as it was |
| CustosFixos.Quantidade | src/pages/CustosFixos.tsx:171 | the number of stored fixed costs whose name contains the search term, so at most the number of costs; CustosFixos.SubmitAdds gives its step |
| CustosFixos.TotalCustos | src/pages/CustosFixos.tsx:56-60 | with an empty search, the sum of every fixed cost; with non-negative amounts it lies between 0 and that sum |
| CustosFixos.Submit | src/pages/CustosFixos.tsx:24-47 | a complete form adds exactly one row and clears the form; an incomplete one changes nothing |
| CustosFixos.EmptySearchShowsAll | src/pages/CustosFixos.tsx:56-60 | no search: every cost is counted and the total is the fixed-cost total |
| CustosFixos.TotalBounds | src/pages/CustosFixos.tsx:56-60 | with non-negative amounts the total shown lies between 0 and the fixed-cost total |
| CustosFixos.SubmitAdds | src/pages/CustosFixos.tsx:24-60 | a submitted cost raises the fixed total by its amount; it raises the total shown by its amount, and the item count by one, iff its name matches the search |
| CustosVariaveis.Quantidade | src/pages/CustosVariaveis.tsx:161 | the number of variable costs whose category contains the search term, so at most the number of costs; CustosVariaveis.SubmitShows gives its step |
| CustosVariaveis.TotalCustos | src/pages/CustosVariaveis.tsx:42-46 | with an empty search, the sum of every variable cost; with non-negative amounts it lies between 0 and that sum |
| CustosVariaveis.SubmitShows | src/pages/CustosVariaveis.tsx:22-46 | a submitted cost raises the total shown by its amount, and the item count by one, iff its category matches the search; otherwise both stay |
| CustosVariaveis.PorCategoria | src/pages/CustosVariaveis.tsx:53-56 | one entry per distinct category, and the entries add up to the sum of all variable costs |
| CustosVariaveis.Submit | src/pages/CustosVariaveis.tsx:22-33 | a complete form appends one cost and clears the form; nothing else in the data changes; an incomplete form changes nothing |
| CustosVariaveis.EmptySearchShowsAll | src/pages/CustosVariaveis.tsx:42-46 | no search: every cost is counted and the total is the summary's variable total |
| CustosVariaveis.PorCategoriaConserves | src/pages/CustosVariaveis.tsx:53-56 | the per-category amounts, taken over all costs whatever the search, add up to the variable-cost total |
| CustosVariaveis.PorCategoriaLookup | src/pages/CustosVariaveis.tsx:53-56 | each category's amount is the total of the costs in that category |
| CustosVariaveis.SubmitAdds | src/pages/CustosVariaveis.tsx:22-56 | a submitted cost raises its category's amount and the variable total by its amount and leaves every other category's amount |
| Categorias.UsageKey | src/pages/Categorias.tsx:51 | a cost is filed under its category's name, or under "Sem categoria" when it has none or an empty one; the key is never empty |
| Categorias.CardStatus | src/pages/Categorias.tsx:184-188 | "Em uso" iff the card's total is positive, and "Não utilizada" iff it is zero or negative |
| Categorias.SearchCategorias | src/pages/Categorias.tsx:45-47 | an order-preserving subsequence: each category appears as often as stored when its name matches the search, and not at all otherwise |
| Categorias.TotalDeCategorias | src/pages/Categorias.tsx:139 | the number of categories whose name contains the search term, so at most the number of categories; Categorias.SubmitShows gives its step |
| Categorias.Submit | src/pages/Categorias.tsx:22-43 | an empty name adds nothing; otherwise the store gains exactly one category with that name |
| Categorias.Usage | src/pages/Categorias.tsx:50-54 | no key appears twice in `categoriaUso`, and its amounts add up to the total of all variable costs |
| Categorias.TotalGasto | src/pages/Categorias.tsx:153 | a card's total is the sum over the costs filed under its name, and 0 when none is |
| Categorias.QuantidadeUsos | src/pages/Categorias.tsx:154 | the number of costs whose category is exactly the card's name, so at most the number of costs, and positive iff some cost carries that name |
| Categorias.UsosSnoc | src/pages/Categorias.tsx:154 | one more cost raises the card's usage count by one iff its category is the card's name, and leaves it otherwise |
| Categorias.NamedCardAgrees | src/pages/Categorias.tsx:153-154 | for an ordinary name the costs behind the total are exactly the costs counted as uses |
| Categorias.UncategorisedNeverCounted | src/pages/Categorias.tsx:51-154 | a cost without a category adds no use to any card and is filed under "Sem categoria" |
| Categorias.CardInUseIff | src/pages/Categorias.tsx:153-188 | with non-negative amounts a card is "Em uso" iff some cost filed under its name has a positive amount |
| Categorias.NoCategoryCardExample | src/pages/Categorias.tsx:51-154 | a "Sem categoria" card shows the uncategorised total but 0 uses |
| Categorias.EmUso | src/pages/Categorias.tsx:144 | "Categorias em Uso" is the number of distinct keys, "Sem categoria" included |
| Categorias.NoCategoryListed | src/pages/Categorias.tsx:50-54 | "Sem categoria" is a key iff some cost is uncategorised |
| Categorias.UsageOrder | src/pages/Categorias.tsx:50-54 | when no key looks like an array index, the object lists keys in order of first appearance |
| Categorias.RankingIsTopFive | src/pages/Categorias.tsx:202-204 | at most five entries, non-increasing by total, taken from the usage; no entry left out beats one kept |
| Categorias.Ranking | src/pages/Categorias.tsx:202-204 | min(5, number of keys) entries, totals non-increasing, each entry taken from the usage at most as often as it occurs there |
| Categorias.RankingTies | src/pages/Categorias.tsx:202-204 | among entries with equal totals the kept ones are the first in object order |
| Categorias.RankingShownIff | src/pages/Categorias.tsx:198 | the ranking card is drawn iff there are variable costs |
| Categorias.EmptySearchKeepsAll | src/pages/Categorias.tsx:45-47 | an empty search lists and counts every category |
| Categorias.SubmitShows | src/pages/Categorias.tsx:22-47 | a new category is listed, and raises "Total de Categorias" by one, iff its name matches the search |
| Grouping.FindKey | src/components/despesas/DespesaChart.tsx:19-23 | the position of the group with the key, or -1 exactly when no group has it |
| Grouping.GroupBy | src/components/despesas/DespesaChart.tsx:13-29 | the groups' keys are the distinct keys in order of first appearance |
| Grouping.GroupByPartitions | src/components/despesas/DespesaChart.tsx:13-29 | the groups' keys are the distinct keys in first-appearance order, and each group holds exactly the records with its key, in input order |
| Grouping.GroupByConserves | src/components/despesas/DespesaChart.tsx:13-29 | grouping neither loses nor duplicates an amount |
| Grouping.GroupCount | src/components/despesas/DespesaChart.tsx:13-31 | there are as many groups as distinct keys |
| Grouping.RecordOrder | src/pages/Categorias.tsx:202 | reordering the object's keys is a permutation of the entries |
| Grouping.RecordOrderShape | src/pages/Categorias.tsx:202 | array-index keys come first, ascending, then the other keys in assignment order |
| Grouping.RecordOrderPlainKeys | src/pages/Categorias.tsx:202 | with no array-index key the entries keep assignment order |
| Grouping.Lookup | src/pages/Categorias.tsx:153 | `acc[k] \|\| 0`: 0 when no entry has the key, else the first such entry's amount |
| Grouping.SumByKeyConserves | src/pages/CustosVariaveis.tsx:53-56 | summing per key neither loses nor duplicates an amount |
| Grouping.SumByKey | src/pages/CustosVariaveis.tsx:53-56 | one entry per group, that is per distinct key |
| Grouping.SumByKeyCount | src/pages/Categorias.tsx:144 | there are as many entries as distinct keys |
| Grouping.SumByKeyTotal | src/pages/CustosVariaveis.tsx:53-56 | each entry holds the total of exactly the records with its key |
| Grouping.SumByKeyDistinct | src/pages/CustosVariaveis.tsx:53-56 | no key appears in two entries |
| Grouping.SumByKeyKeys | src/pages/CustosVariaveis.tsx:53-56 | a key has an entry iff some record has that key |
| Grouping.LookupTotal | src/pages/Categorias.tsx:153 | reading a key back gives the total of the records with that key, and 0 for an absent key |
| Grouping.SumByKeyPlainOrder | src/pages/CustosVariaveis.tsx:53-56 | with no array-index key the entries come in order of first appearance |
| Grouping.LookupSnoc | src/pages/CustosVariaveis.tsx:53-56 | an appended record adds its amount to its own key's entry and changes no other key's |
| Sorting.SortBySorted | src/pages/FolhaPagamento.tsx:345-346 | the sort result is ordered by the comparator on keys |
| Sorting.SortBy | src/pages/FolhaPagamento.tsx:345-346 | the sort result is a permutation of its input, of the same length |
| Sorting.SortByMembers | src/pages/FolhaPagamento.tsx:345-346 | the sort result holds exactly the input's elements |
| Sorting.SortByStable | src/pages/Categorias.tsx:203 | within each class of equal keys the input order survives |
| Sorting.SortByTwo | src/components/despesas/DespesasMensais.tsx:39 | two elements are swapped exactly when the first may not precede the second |
| Sorting.Top | src/pages/Categorias.tsx:202-204 | `slice(0, n)` after the sort keeps min(n, length) elements, and they are the leading elements of the sorted list |
| Sorting.TopOrdered | src/pages/Categorias.tsx:202-204 | the kept elements are in order and come from the input |
| Sorting.TopDominates | src/pages/Categorias.tsx:202-204 | nothing left out may precede anything kept |
| Sorting.TopStable | src/pages/Categorias.tsx:202-204 | among equal keys the kept elements are the first in input order |
| Folha.CeilDiv | src/pages/FolhaPagamento.tsx:121 | `Math.ceil(a / b)`: the least q with a <= q*b |
| Folha.DiasRestantes | src/pages/FolhaPagamento.tsx:121 | the days left d is the least whole number of days covering the time to the due date: (d-1) days fall short of it, d days do not |
| Folha.TableStatusOf | src/pages/FolhaPagamento.tsx:296-320 | exactly one status: "N dias" iff 0 <= dias <= 7 (carrying dias), "Vencido" iff negative, "Em dia" iff above 7 |
| Folha.TableLabel | src/pages/FolhaPagamento.tsx:309-320 | "Vencido" iff the status is overdue, "Em dia" iff it is on time, and for the near-due status a text ending in " dias" whose leading number reads back through parseInt as the day count |
| Folha.UpcomingLabel | src/pages/FolhaPagamento.tsx:383 | "Vencido" iff no day is left (dias <= 0), and otherwise a text ending in " dias" whose leading number reads back through parseInt as the day count |
| Folha.TotalFolha | src/pages/FolhaPagamento.tsx:106-110 | with an empty search, the sum of every salary; with non-negative salaries it lies between 0 and that sum |
| Folha.MediaSalarial | src/pages/FolhaPagamento.tsx:110-111 | 0 with nobody listed; otherwise the average times the number listed is the payroll total shown |
| Folha.Submit | src/pages/FolhaPagamento.tsx:62-97 | an incomplete form changes nothing; a complete one resets the form and ends the edit, adding a row only when nothing was being edited |
| Folha.EmptySearchShowsAll | src/pages/FolhaPagamento.tsx:106-110 | no search: everybody is listed and the total is the payroll total |
| Folha.MediaMeaning | src/pages/FolhaPagamento.tsx:110-111 | the average is 0 with nobody listed, and otherwise lies between the lowest and highest salary listed |
| Folha.AverageOf | src/pages/FolhaPagamento.tsx:110-111 | the average times the head count is the total, and it lies between the bounds of the salaries |
| Folha.NearDueWindow | src/pages/FolhaPagamento.tsx:119-122 | near-due iff the due time is later than one day before now and no later than seven days after now |
| Folha.DiasMonotone | src/pages/FolhaPagamento.tsx:121 | a later due time never has fewer days left |
| Folha.Alerts | src/pages/FolhaPagamento.tsx:119-172 | the alerts are an order-preserving subsequence of the listed employees, exactly those whose table status is "N dias", and the banner's count is the number of listed positions whose due date is within the week |
| Folha.LabelsAgreeExceptDayZero | src/pages/FolhaPagamento.tsx:315-383 | for dias <= 7 the table label and the upcoming-list label agree iff dias is not 0 |
| Folha.UpcomingIsSoonest | src/pages/FolhaPagamento.tsx:366-368 | at most five listed employees, by due time ascending, and none left out is due earlier than one kept |
| Folha.Upcoming | src/pages/FolhaPagamento.tsx:366-368 | min(5, listed) employees, each from the listed ones, by due time ascending |
| Folha.DistributionOrdered | src/pages/FolhaPagamento.tsx:345-346 | the same employees, by salary non-increasing, equal salaries in list order |
| Folha.Distribution | src/pages/FolhaPagamento.tsx:345-346 | the listed employees, each as often as listed, by salary non-increasing |
| Folha.SubmitNew | src/pages/FolhaPagamento.tsx:62-88 | the store gains exactly the new employee, whose salary is added to the payroll total |
| Folha.SubmitEdit | src/pages/FolhaPagamento.tsx:62-88 | an edit keeps the row in place under its id; payroll changes by the difference; ids stay unique |
| Folha.EditRoundTrip | src/pages/FolhaPagamento.tsx:34-88 | opening an employee for edit and saving unchanged leaves the store as it was |
| Despesas.StampAll | src/hooks/useDespesas.ts:197-208 | the map succeeds iff every template's due date is valid; then one draft per template, each copying the template's fields and the reference |
| Despesas.RunGeneration | src/hooks/useDespesas.ts:187-220 | generating fails iff some active template's due date is invalid; otherwise the stored rows stay first and one unpaid row per active template follows, with the reference, the template's fields and its due date |
| Despesas.GenerateMonth | src/hooks/useDespesas.ts:187-220 | no active template: nothing to insert; an invalid due date: failure; otherwise one draft per active template, in fetch order |
| Despesas.Stored | src/hooks/useDespesas.ts:201-207 | a stored draft is unpaid |
| Despesas.Apply | src/hooks/useDespesas.ts:210-220 | the insert fails iff generation failed; otherwise the old rows stay and the batch follows them |
| Despesas.InactiveIgnored | src/hooks/useDespesas.ts:189-192 | an inactive template does not change the outcome |
| Despesas.UnparsableReferenceFails | src/hooks/useDespesas.ts:198-205 | with an active template, a reference whose month or year does not parse fails before the insert |
| Despesas.ReferenceArgsOf | src/hooks/useDespesas.ts:198-199 | "MM/YYYY" reads back as the year and the 0-based month index |
| Despesas.ReferenceArgs | src/hooks/useDespesas.ts:198-199 | a reference without "/" yields no year |
| Despesas.DueDateOf | src/hooks/useDespesas.ts:199-205 | the due date is the ISO text of MakeDay(year, month - 1, day) |
| Despesas.DueDate | src/hooks/useDespesas.ts:198-205 | a reference whose month or year does not parse gives no date; any date given is the ISO text of a valid date inside the TimeClip range |
| Despesas.DueDateInMonth | src/hooks/useDespesas.ts:199-205 | a due day that exists in the month gives that day of that month |
| Despesas.DueDateOverflow | src/hooks/useDespesas.ts:199-205 | a due day past the month's end rolls into the next month |
| Despesas.OverflowExample | src/hooks/useDespesas.ts:199-205 | day 31 with "04/2024" gives "2024-05-01" |
| Despesas.InMonthExample | src/hooks/useDespesas.ts:199-205 | day 5 with "07/2024" gives "2024-07-05" |
| Despesas.GenerateTwice | src/hooks/useDespesas.ts:187-218 | generation never reads the monthly table: running it twice stores two full batches |
| Despesas.BatchCount | src/hooks/useDespesas.ts:210-217 | an applied batch raises its month's row count by the batch size |
| Despesas.MarkPaid | src/hooks/useDespesas.ts:232-238 | the row becomes paid with today's ISO date, and no other field changes |
| Despesas.MarkPaidOverwrites | src/hooks/useDespesas.ts:232-238 | marking twice is marking once with the second date: there is no paid check |
| Despesas.MarkPaidById | src/hooks/useDespesas.ts:232-240 | succeeds iff exactly one row has the id; then only that row is marked |
| Despesas.FetchMonthly | src/hooks/useDespesas.ts:28-47 | every stored row whose due text lies between the bounds (or every row, without both bounds) is returned as often as stored, nothing else, ordered by due text descending |
| Despesas.FetchRangeIsDateRange | src/hooks/useDespesas.ts:36-39 | for dates with four-digit years, the text bounds select exactly the rows due on or after the start date and on or before the end date |
| Chart.ChartData | src/components/despesas/DespesaChart.tsx:13-31 | one row per distinct category, in order of first appearance |
| Chart.ChartRowTotals | src/components/despesas/DespesaChart.tsx:15-35 | a row's planned figure is its category's total, the paid figure the total of its paid expenses, pending their difference |
| Chart.ChartConserves | src/components/despesas/DespesaChart.tsx:22-24 | the planned figures add up to the total of all expenses |
| Chart.ChartBounds | src/components/despesas/DespesaChart.tsx:24-35 | with non-negative amounts, 0 <= paid <= planned and pending >= 0 in every row |
| Chart.ChartEmptyIff | src/components/despesas/DespesaChart.tsx:46-48 | there are no rows, and no chart, iff there are no expenses |
| Mensais.FilterExpenses | src/components/despesas/DespesasMensais.tsx:42-53 | an order-preserving subsequence holding each row as often as stored iff month, status and search all pass, and not at all otherwise |
| Mensais.StatusLabel | src/components/despesas/DespesasMensais.tsx:182-187 | "Pago" iff the payment date is set, "Pendente" iff not |
| Mensais.Submission | src/components/despesas/DespesasMensais.tsx:116-126 | sends fields iff all five are non-empty, and then sends them as typed |
| Mensais.AvailableMonths | src/components/despesas/DespesasMensais.tsx:37-40 | the month list holds exactly the months that occur, each once, in strictly increasing UTF-16 code-unit order, as `sort()` compares strings |
| Mensais.AvailableMonthsUnitOrder | src/components/despesas/DespesasMensais.tsx:37-40 | "\u{1F600}" is listed before "\u{FF01}": the order is by code units, not code points |
| Mensais.AvailableMonthsExample | src/components/despesas/DespesasMensais.tsx:37-40 | "01/2025" is listed before "12/2024": the order is not chronological |
| Mensais.FilterDefaults | src/components/despesas/DespesasMensais.tsx:42-53 | no month, "todos" and no search leave the list unchanged |
| Mensais.UnknownStatusEmpties | src/components/despesas/DespesasMensais.tsx:45-47 | a status outside the three options lets nothing through |
| Mensais.StatusFiltersSplit | src/components/despesas/DespesasMensais.tsx:45-47 | a row shown under "todos" is shown under exactly one of "pago" and "pendente" |
| Mensais.UnpaidSplit | src/components/despesas/DespesasMensais.tsx:56-58 | the planned total minus the paid total is the total of the unpaid rows |
| Mensais.ComputeTotals | src/components/despesas/DespesasMensais.tsx:56-61 | planned is the total of all rows, paid of the paid rows, pending of the unpaid rows; paid plus pending is planned; the share times planned is 100 times paid, and 0 without a planned total |
| Mensais.TotalsBounds | src/components/despesas/DespesasMensais.tsx:56-59 | with non-negative amounts, 0 <= paid <= planned, pending >= 0, and the share lies in [0, 100] |
| Mensais.NoPlannedExpenses | src/components/despesas/DespesasMensais.tsx:59 | with nothing planned every figure, the share included, is 0 |
| Mensais.MarkPaidRow | src/components/despesas/DespesasMensais.tsx:405-411 | the mark-paid button appears iff the row shows "Pendente"; after marking it shows "Pago" and no button |
| Mensais.EmptyFormBlocked | src/components/despesas/DespesasMensais.tsx:64-118 | a freshly reset form never submits |
| Mensais.EditRoundTrip | src/components/despesas/DespesasMensais.tsx:70-126 | saving a pre-filled form unchanged sends back the row's own fields |
| Mensais.NextMonthReference | src/components/despesas/DespesasMensais.tsx:155-158 | the corrected next-month reference parses back, through the generation's split and parseInt, as the year and 0-based month index of the month after today's |
| Mensais.NextMonthReferenceAsWritten | src/components/despesas/DespesasMensais.tsx:155-158 | the reference as written parses back as the year and month of setMonth(month + 1) on today, and as two unparsable fields when that date is invalid |
| Mensais.MonthReferenceReadsBack | src/components/despesas/DespesasMensais.tsx:155-158 | a "MM/YYYY" reference built from a month and a year reads back, through the generation's split and parseInt, as that year and the 0-based month index |
| Mensais.Percent | src/components/despesas/DespesasMensais.tsx:59 | the result times the whole is 100 times the part when the whole is positive, and 0 otherwise |
| Mensais.DecemberRollsOver | src/components/despesas/DespesasMensais.tsx:155-158 | in December the reference is "01/" and the next year |
| Mensais.SetMonthLanding | src/components/despesas/DespesasMensais.tsx:156-157 | setMonth lands in the next month when today's day exists there, and in the month after otherwise |
| Mensais.AsWrittenCorrectIff | src/components/despesas/DespesasMensais.tsx:155-158 | the code as written gives the month after today's iff today's day exists in that month |
| Mensais.JanuaryEndSkipsFebruary | src/components/despesas/DespesasMensais.tsx:155-158 | on 31 January 2025 the code as written gives "03/2025", the corrected computation "02/2025" |
| Modelo.SearchTemplates | src/components/despesas/DespesasModelo.tsx:32-35 | an order-preserving subsequence: each template appears as often as stored when its description or category matches, and not at all otherwise |
| Modelo.ActiveCount | src/components/despesas/DespesasModelo.tsx:164 | the number of templates that are active and match the search, so at most the number of templates shown |
| Modelo.ActiveTotal | src/components/despesas/DespesasModelo.tsx:119-121 | the sum of the amounts of the templates that match the search and are active |
| Modelo.TemplateAdds | src/components/despesas/DespesasModelo.tsx:119-164 | one more template raises the active estimate by its amount, and the active count by one, iff it is active and matches the search; otherwise both stay |
| Modelo.Submission | src/components/despesas/DespesasModelo.tsx:73-83 | sends fields iff the four text fields are non-empty, with the due day read by parseInt |
| Modelo.EmptySearchKeepsAll | src/components/despesas/DespesasModelo.tsx:32-35 | an empty search shows every template |
| Modelo.InactiveAddsNothing | src/components/despesas/DespesasModelo.tsx:119-164 | an inactive template changes neither the estimate nor the active count |
| Modelo.ActiveTotalNonNegative | src/components/despesas/DespesasModelo.tsx:119-121 | with non-negative amounts the estimate is non-negative |
| Modelo.EstimateIsGeneratedTotal | src/components/despesas/DespesasModelo.tsx:119-121 | without a search the estimate equals the total that generating a month stores |
| Modelo.ResetFormBlocked | src/components/despesas/DespesasModelo.tsx:37-41 | a reset form is active and never submits |
| Modelo.EditRoundTrip | src/components/despesas/DespesasModelo.tsx:43-83 | saving a pre-filled form unchanged sends back the template's own fields |
| DateFilter.Preset | src/components/ui/DateFilter.tsx:33-38 | both dates shown in ISO form, complete, and passed on as shown |
| DateFilter.Init | src/components/ui/DateFilter.tsx:17-26 | the inputs start with the initial values, which are passed on iff both are non-empty |
| DateFilter.PropsChanged | src/components/ui/DateFilter.tsx:20-26 | new initial values replace and emit the range iff both are non-empty; otherwise nothing changes |
| DateFilter.QuickFilterStart | src/components/ui/DateFilter.tsx:29-31 | the start exists iff it is inside the TimeClip range, and it then lies exactly `days` days before today |
| DateFilter.CurrentMonthDates | src/components/ui/DateFilter.tsx:42-44 | both dates, when they exist, are valid calendar dates |
| DateFilter.PreviousMonthDates | src/components/ui/DateFilter.tsx:55-57 | both dates, when they exist, are valid calendar dates |
| DateFilter.EditStart | src/components/ui/DateFilter.tsx:87-90 | the new start is shown, and passed on iff the end is non-empty |
| DateFilter.EditEnd | src/components/ui/DateFilter.tsx:99-102 | the new end is shown, and passed on iff the start is non-empty |
| DateFilter.Clear | src/components/ui/DateFilter.tsx:67-71 | both inputs emptied and ("", "") passed on |
| DateFilter.Handle | src/components/ui/DateFilter.tsx:28-102 | whatever is passed on is what the inputs show, and a complete range that passes nothing on is unchanged |
| DateFilter.Session | src/components/ui/DateFilter.tsx:17-102 | at most one emission per event plus one at mount |
| DateFilter.PageKnowsCompleteRange | src/components/ui/DateFilter.tsx:17-102 | whenever both inputs show a date, the page was last handed exactly that range |
| DateFilter.QuickFilterDistance | src/components/ui/DateFilter.tsx:28-39 | for four-digit years and 0..365 days the start exists, lies `days` days back and is not after today |
| DateFilter.QuickFilterSameMonth | src/components/ui/DateFilter.tsx:30-31 | fewer days back than today's day of month stays in this month |
| DateFilter.QuickFilterPreviousMonth | src/components/ui/DateFilter.tsx:30-31 | at least today's day of month, but less than a month, lands in the previous month, across the year end |
| DateFilter.FirstOfMonth | src/components/ui/DateFilter.tsx:43 | `new Date(y, m - 1, 1)` is the first of month m |
| DateFilter.LastOfMonth | src/components/ui/DateFilter.tsx:44 | `new Date(y, m, 0)` is the last day of month m |
| DateFilter.FirstOfPreviousMonth | src/components/ui/DateFilter.tsx:56 | `new Date(y, m - 2, 1)` is the first of the month before, December of last year in January |
| DateFilter.LastOfPreviousMonth | src/components/ui/DateFilter.tsx:57 | `new Date(y, m - 1, 0)` is the last day of the month before |
| DateFilter.CurrentMonthSpan | src/components/ui/DateFilter.tsx:41-52 | day 1 through the last day of today's month, 29 February in a leap year |
| DateFilter.PreviousMonthSpan | src/components/ui/DateFilter.tsx:54-65 | day 1 through the last day of the previous month |
| DateFilter.PreviousMonthAdjoins | src/components/ui/DateFilter.tsx:41-65 | the previous month ends the day before the current month starts |
| DateFilter.ClearThenEditSilent | src/components/ui/DateFilter.tsx:67-102 | after clearing, editing one input passes nothing on |
| Calendar.NextMonth | src/components/despesas/DespesasMensais.tsx:157 | the successor month is a month 1..12 |
| Calendar.YearLength | src/hooks/useDespesas.ts:199 | consecutive years start DaysInYear days apart in DayFromYear |
| Calendar.MonthLength | src/hooks/useDespesas.ts:199 | consecutive months start DaysInMonth days apart, across year ends too |
| Calendar.Normalize | src/hooks/useDespesas.ts:199 | an overflowing day is walked into a valid date with the same day number |
| Calendar.MakeDay | src/hooks/useDespesas.ts:199 | MakeDay on whole numbers yields a valid date |
| Calendar.ClippedDay | src/hooks/useDespesas.ts:199 | a date that survives TimeClip is valid and inside the range |
| Calendar.NewDate | src/hooks/useDespesas.ts:199 | `new Date(y, m, d)` is an Invalid Date or a valid date inside the range |
| Calendar.SetDate | src/components/ui/DateFilter.tsx:31 | setDate(d) moves d minus the current day from the date, in day numbers |
| Calendar.SetMonth | src/components/despesas/DespesasMensais.tsx:157 | setMonth yields an Invalid Date or a valid date |
| Calendar.NormalizeValid | src/hooks/useDespesas.ts:199 | a date already in range is left alone |
| Calendar.DayNumberOrder | src/components/ui/DateFilter.tsx:28-31 | chronological order is order of day numbers |
| Calendar.DayNumberInjective | src/hooks/useDespesas.ts:199 | different valid dates have different day numbers |
| Calendar.DayZeroIsPreviousMonthEnd | src/components/ui/DateFilter.tsx:44 | day 0 of a month is the last day of the month before |
| Calendar.AddDaysDistance | src/components/ui/DateFilter.tsx:31 | moving k days lands exactly k day numbers away |
| Calendar.MakeDayOverflow | src/hooks/useDespesas.ts:199 | a day past the month's end, within the next month, rolls over into it |
| Calendar.FourDigitYearsInRange | src/hooks/useDespesas.ts:199 | dates in the years 100 to 9999 are inside the TimeClip range |
| Calendar.NewDateIsMakeDay | src/hooks/useDespesas.ts:199 | from year 100 on, in range, `new Date` is MakeDay |
| Calendar.SetMonthIsMakeDay | src/components/despesas/DespesasMensais.tsx:157 | setMonth is MakeDay with the date's own year and day, when in range |
| Calendar.IsoDate | src/hooks/useDespesas.ts:205 | the `YYYY-MM-DD` text has at least ten characters |
| Calendar.IsoDateReadBack | src/hooks/useDespesas.ts:205 | for four-digit years the text is ten characters with dashes at 4 and 7, and parseInt of its three fields gives back year, month and day |
| Calendar.IsoDateLess | src/hooks/useDespesas.ts:36-42 | for four-digit years one ISO text is below another iff its date is earlier |
| Calendar.IsoDateOrder | src/hooks/useDespesas.ts:36-42 | for four-digit years text order, text equality and text at-most are date order, date equality and date at-most |
| Text.ToLower | src/pages/Receitas.tsx:107 | same length, each character lower-cased |
| Text.IncludesSpec | src/pages/Receitas.tsx:107 | `includes` is true iff the needle occurs at some position |
| Text.StrLessIsUnitOrder | src/components/despesas/DespesasMensais.tsx:39 | the character-wise string order is exactly JavaScript's code-unit order on the UTF-16 encodings |
| Text.SurrogatesBeforeHighBmp | src/components/despesas/DespesasMensais.tsx:39 | a supplementary character sorts before U+FF01, because its high surrogate is below U+FF01 |
| Text.StrLessConcat | src/hooks/useDespesas.ts:36-42 | behind prefixes of equal length the prefixes decide the order, and the rest only when they are equal |
| Text.SearchIgnoresCase | src/pages/Receitas.tsx:107 | the term and its lower-case form match the same fields |
| Text.SplitJoin | src/hooks/useDespesas.ts:198 | joining the pieces of a split gives back the string |
| Text.SplitTwo | src/hooks/useDespesas.ts:198 | two separator-free parts joined by the separator split back into those parts |
| Text.DigitString | src/components/despesas/DespesasMensais.tsx:158 | `String(n)` is a non-empty digit string with no leading zero |
| Text.PadZeros | src/components/despesas/DespesasMensais.tsx:158 | `padStart` yields max(width, length) characters |
| Text.IntToStringRoundTrip | src/hooks/useDespesas.ts:199 | `parseInt(String(n))` is n for every integer |
| Text.PadNumberRoundTrip | src/hooks/useDespesas.ts:199 | `parseInt` of a zero-padded number is the number |
| Text.PadNumberFixed | src/hooks/useDespesas.ts:205 | a number below 10^w padded to width w has exactly w digits, which read back as the number |
| Text.PadNumberOrder | src/hooks/useDespesas.ts:36-42 | numbers padded to one width compare as text as they compare as numbers, and are equal as text iff equal |
| Common.Filter | src/pages/Receitas.tsx:106-108 | no longer than the input; holds exactly the elements that satisfy the predicate |
| Common.Dedup | src/components/despesas/DespesasMensais.tsx:38 | a `Set` of the values: duplicate-free and holding exactly the input's values |
| Common.TryMapSpec | src/hooks/useDespesas.ts:197-208 | a map whose callback may throw succeeds iff every call does, and then holds every result in order |

## Left out

- Time zones: local time is taken as UTC, so the day shift that `toISOString()` applies east or west of UTC is not modelled. "Today" is a calendar date parameter.
- Floating point: amounts are exact reals. IEEE-754 rounding, `NaN` (for example the share computed with a zero total at src/pages/FolhaPagamento.tsx:355), `parseFloat`, `toString` of amounts, `toFixed` and `Intl.NumberFormat` are left out. Parsed amounts and their text are parameters.
- `Number(...)` on database amounts is taken as the identity.
- Parsing a due-date string into a timestamp (`new Date(text).getTime()`) is left out: the timestamps are parameters.
- Text.ToLower: only Basic Latin and Latin-1 upper-case letters are lower-cased. The rest of Unicode's case mapping is left out.
- Keys named like `Object.prototype` properties (`constructor`, `__proto__`) are not modelled in the `acc[k] || 0` folds. Such a key would read an inherited value.
- Database plumbing is left out: react-query caching, toasts, error paths of the mutations, and the delete handlers. Each store is a plain sequence, and an insert appends to it.
- Query order: every list query orders its rows (src/hooks/useSupabaseFinancialData.ts:47 by payment date descending, :62 and :80 by date descending, :95 by name, :110 by due date; src/hooks/useDespesas.ts:57 by description), and after an insert the page invalidates the query and refetches (src/hooks/useSupabaseFinancialData.ts:133, 153, 173, 193, 213), so a new row shows in its sorted place rather than at the end. Only `Despesas.FetchMonthly` models the query order. Elsewhere the model keeps the appended store; `Listing.SearchReorder` shows that the rows shown, their count and every total are the same for any order of the same rows, so only the order of the rows on screen is not modelled.
- Despesas.FetchMonthly: the range is compared as text, as the database compares the `data_vencimento` strings. `Despesas.FetchRangeIsDateRange` shows that this is date order for due dates and bounds written by `toISOString()` with four-digit years; other texts are compared as text only.
- Receitas.TotalReceitas: its own contract states the sum for an empty search and the bounds for non-negative amounts. How a search changes the total shown is stated step by step by `Listing.SearchAppend` and the page's submit lemma.
- CustosFixos.TotalCustos: its own contract states the sum for an empty search and the bounds for non-negative amounts. How a search changes the total shown is stated step by step by `Listing.SearchAppend` and the page's submit lemma.
- CustosVariaveis.TotalCustos: its own contract states the sum for an empty search and the bounds for non-negative amounts. How a search changes the total shown is stated step by step by `Listing.SearchAppend` and the page's submit lemma.
- Folha.TotalFolha: its own contract states the sum for an empty search and the bounds for non-negative amounts. How a search changes the total shown is stated step by step by `Listing.SearchAppend` and the page's submit lemma.
- Despesas.ReferenceArgs: its own contract states only that a reference without "/" yields no year. The read-back of a well-formed "MM/YYYY" reference is `Despesas.ReferenceArgsOf` and `Mensais.MonthReferenceReadsBack`.
- Calendar.IsoDate: its own contract states only the length. What the text says is stated by `Calendar.IsoDateReadBack` (the fields read back) and `Calendar.IsoDateOrder` (text order is date order), both for the years 0 to 9999; the six-digit `+YYYYYY` years are not covered by them.
- `useUpdateCliente` and `useUpdateFuncionario` are not part of this model's source files. An update is modelled as replacing the row with the edited id.
- Ids from `Date.now()` and from the database are parameters.
- FolhaPagamento sorts `filteredFuncionarios` in place, so the upcoming list is sorted from the salary order. The model sorts the filtered list independently for each side list. Employees due at the same moment may therefore appear in a different order in the upcoming list than in the source.
- React rendering is left out, as is the re-run of the DateFilter effect when the `onDateChange` function's identity changes. New initial values are the `PropsChanged` event.
- The console-only date handlers of the list pages never filter data and are not modelled.
- Dashboard, Sidebar, Layout, App, KPICard, EditDeleteActions and the Despesas tab page are presentation only and are not modelled.

## Findings

| source | as written | input that shows it | evidently intended | confidence | as-written member | corrected member |
|---|---|---|---|---|---|---|
| src/components/despesas/DespesasMensais.tsx:155-158 | `setMonth(getMonth() + 1)` keeps today's day of month, so the date overflows when that day does not exist next month | today = 31 January 2025 gives "03/2025" | the month after today's: "02/2025" | not executed | Mensais.NextMonthReferenceAsWritten (Mensais.JanuaryEndSkipsFebruary, Mensais.AsWrittenCorrectIff) | Mensais.NextMonthReference (Mensais.DecemberRollsOver) |

=== FILE: calendar.dfy ===
/** The proleptic Gregorian calendar of JavaScript's `Date`, on whole days.

    The pages build dates with `new Date(y, m, d)`, `setDate` and `setMonth`.
    All of them go through MakeDay (section 21.4.1.28 of ECMA-262): the month
    index is first reduced modulo 12 into the year, and the day of month is
    then counted from the first day of that month, so that day 31 of a 30-day
    month is the 1st of the next month and day 0 is the last day of the
    previous one. This module gives that normalisation as a recursive walk
    over months (`Normalize`), proves it agrees with the day arithmetic of
    ECMA-262 (`DayFromYear` of section 21.4.1.3 plus the month table), and adds
    the TimeClip range check and the `YYYY-MM-DD` part of `toISOString`.
    Hours, time zones and milliseconds are not modelled: every date is
    midnight and local time is taken to be UTC. */
module Calendar {
  import opened Common
  import opened Text

  /** A calendar date; `month` runs from 1 to 12 in a valid date. */
  datatype Date = Date(year: int, month: int, day: int)

  predicate IsLeapYear(y: int) {
    y % 4 == 0 && (y % 100 != 0 || y % 400 == 0)
  }

  function DaysInYear(y: int): int {
    if IsLeapYear(y) then 366 else 365
  }

  function DaysInMonth(y: int, m: int): int
    requires 1 <= m <= 12
  {
    if m == 2 then (if IsLeapYear(y) then 29 else 28)
    else if m == 4 || m == 6 || m == 9 || m == 11 then 30
    else 31
  }

  predicate ValidDate(d: Date) {
    1 <= d.month <= 12 && 1 <= d.day <= DaysInMonth(d.year, d.month)
  }

  /** Chronological order of dates. */
  predicate DateBefore(a: Date, b: Date) {
    || a.year < b.year
    || (a.year == b.year && (a.month < b.month || (a.month == b.month && a.day < b.day)))
  }

  /** DayFromYear of ECMA-262: the day number of 1 January of `y`, counted
      from 1 January 1970. Dafny's `/` rounds down for a positive divisor,
      which is the `floor` of the standard. */
  function DayFromYear(y: int): int {
    365 * (y - 1970) + (y - 1969) / 4 - (y - 1901) / 100 + (y - 1601) / 400
  }

  /** Days of the year before the first day of month `m` (13 = year end). */
  function DaysBeforeMonth(y: int, m: int): int
    requires 1 <= m <= 13
  {
    var common := [0, 31, 59, 90, 120, 151, 181, 212, 243, 273, 304, 334, 365];
    common[m - 1] + (if m > 2 && IsLeapYear(y) then 1 else 0)
  }

  /** The day number of the first day of month `m` of year `y`. */
  function MonthStart(y: int, m: int): int
    requires 1 <= m <= 12
  {
    DayFromYear(y) + DaysBeforeMonth(y, m)
  }

  /** Days since 1 January 1970 (negative before it). */
  function DayNumber(d: Date): int
    requires 1 <= d.month <= 12
  {
    MonthStart(d.year, d.month) + d.day - 1
  }

  function NextMonth(y: int, m: int): (r: (int, int))
    requires 1 <= m <= 12
    ensures 1 <= r.1 <= 12
  {
    if m == 12 then (y + 1, 1) else (y, m + 1)
  }

  function PrevMonth(y: int, m: int): (r: (int, int))
    requires 1 <= m <= 12
    ensures 1 <= r.1 <= 12
  {
    if m == 1 then (y - 1, 12) else (y, m - 1)
  }

  // ---------------------------------------------------------------------
  // Year and month lengths agree with the day numbering

  /** Consecutive years start `DaysInYear` days apart. */
  lemma YearLength(y: int)
    ensures DayFromYear(y + 1) == DayFromYear(y) + DaysInYear(y)
  {
    LeapStep4(y);
    LeapStep100(y);
    LeapStep400(y);
    LeapPeriods(y);
    assert DayFromYear(y + 1) - DayFromYear(y)
        == 365 + ((y - 1968) / 4 - (y - 1969) / 4) - ((y - 1900) / 100 - (y - 1901) / 100)
               + ((y - 1600) / 400 - (y - 1601) / 400);
  }

  /** A multiple of 400 is one of 100, and a multiple of 100 one of 4. */
  lemma LeapPeriods(y: int)
    ensures y % 400 == 0 ==> y % 100 == 0
    ensures y % 100 == 0 ==> y % 4 == 0
  {
    if y % 400 == 0 {
      var q := y / 400;
      assert y == 400 * q;
      assert y == 100 * (4 * q);
      assert y / 100 == 4 * q;
    }
    if y % 100 == 0 {
      var q := y / 100;
      assert y == 100 * q;
      assert y == 4 * (25 * q);
      assert y / 4 == 25 * q;
    }
  }

  /** The leap-day counts of DayFromYear grow by one from year `y` to
      `y + 1` exactly when `y` is a multiple of their period. */
  lemma LeapStep4(y: int)
    ensures (y - 1968) / 4 - (y - 1969) / 4 == (if y % 4 == 0 then 1 else 0)
  {
  }

  lemma LeapStep100(y: int)
    ensures (y - 1900) / 100 - (y - 1901) / 100 == (if y % 100 == 0 then 1 else 0)
  {
  }

  lemma LeapStep400(y: int)
    ensures (y - 1600) / 400 - (y - 1601) / 400 == (if y % 400 == 0 then 1 else 0)
  {
  }

  lemma DaysBeforeMonthStep(y: int, m: int)
    requires 1 <= m <= 12
    ensures DaysBeforeMonth(y, m + 1) == DaysBeforeMonth(y, m) + DaysInMonth(y, m)
    ensures DaysBeforeMonth(y, 13) == DaysInYear(y)
  {
  }

  /** Consecutive months start `DaysInMonth` days apart, across year ends too. */
  lemma MonthLength(y: int, m: int)
    requires 1 <= m <= 12
    ensures MonthStart(NextMonth(y, m).0, NextMonth(y, m).1) == MonthStart(y, m) + DaysInMonth(y, m)
  {
    DaysBeforeMonthStep(y, m);
    if m == 12 {
      YearLength(y);
    }
  }

  // ---------------------------------------------------------------------
  // MakeDay

  /** Brings day `d` of month `m` of year `y` into range by walking over whole
      months: the day-overflow rule of MakeDay. */
  function Normalize(y: int, m: int, d: int): (r: Date)
    requires 1 <= m <= 12
    ensures ValidDate(r)
    ensures DayNumber(r) == MonthStart(y, m) + d - 1
    decreases (if d < 1 then 1 else 0), (if d < 1 then -d else d)
  {
    if d < 1 then
      var (py, pm) := PrevMonth(y, m);
      MonthLength(py, pm);
      Normalize(py, pm, d + DaysInMonth(py, pm))
    else if d > DaysInMonth(y, m) then
      var (ny, nm) := NextMonth(y, m);
      MonthLength(y, m);
      Normalize(ny, nm, d - DaysInMonth(y, m))
    else
      Date(y, m, d)
  }

  /** MakeDay(y, monthIndex, d) on whole numbers, with a 0-based month index
      that may lie outside 0..11. */
  function MakeDay(y: int, monthIndex: int, d: int): (r: Date)
    ensures ValidDate(r)
  {
    Normalize(y + monthIndex / 12, monthIndex % 12 + 1, d)
  }

  /** TimeClip of section 21.4.1.31: a time value beyond 8.64e15 ms either
      side of the epoch is NaN; at midnight that is 1e8 days. */
  predicate InTimeRange(dayNumber: int) {
    -100_000_000 <= dayNumber <= 100_000_000
  }

  /** MakeDay followed by TimeClip: `None` is an Invalid Date. */
  function ClippedDay(y: int, monthIndex: int, d: int): (r: Option<Date>)
    ensures r.Some? ==> ValidDate(r.value) && InTimeRange(DayNumber(r.value))
  {
    var n := MonthStart(y + monthIndex / 12, monthIndex % 12 + 1) + d - 1;
    if InTimeRange(n) then Some(MakeDay(y, monthIndex, d)) else None
  }

  /** `new Date(y, monthIndex, d)` (section 21.4.2.1). `None` among the
      arguments stands for NaN; years 0 to 99 are read as 1900 to 1999. */
  function NewDate(y: Option<int>, monthIndex: Option<int>, d: int): (r: Option<Date>)
    ensures r.Some? ==> ValidDate(r.value) && InTimeRange(DayNumber(r.value))
  {
    if y.None? || monthIndex.None? then None
    else
      var year := if 0 <= y.value <= 99 then 1900 + y.value else y.value;
      ClippedDay(year, monthIndex.value, d)
  }

  /** `t.setDate(d)`: same year and month, day `d`. */
  function SetDate(t: Date, d: int): (r: Option<Date>)
    requires ValidDate(t)
    ensures r.Some? ==> ValidDate(r.value) && DayNumber(r.value) == DayNumber(t) + d - t.day
  {
    assert (t.month - 1) / 12 == 0 && (t.month - 1) % 12 == t.month - 1;
    ClippedDay(t.year, t.month - 1, d)
  }

  /** `t.setMonth(monthIndex)`: keeps the day of month, which may overflow. */
  function SetMonth(t: Date, monthIndex: int): (r: Option<Date>)
    requires ValidDate(t)
    ensures r.Some? ==> ValidDate(r.value)
  {
    ClippedDay(t.year, monthIndex, t.day)
  }

  // ---------------------------------------------------------------------
  // Properties of the normalisation

  /** A date already in range is left alone. */
  lemma NormalizeValid(d: Date)
    requires ValidDate(d)
    ensures Normalize(d.year, d.month, d.day) == d
  {
  }

  lemma {:induction false} DayFromYearGrowth(a: int, b: int)
    requires a <= b
    ensures DayFromYear(a) + 365 * (b - a) <= DayFromYear(b)
    decreases b - a
  {
    if a < b {
      DayFromYearGrowth(a, b - 1);
      YearLength(b - 1);
    }
  }

  /** A valid date lies within its year's days. */
  lemma DayNumberWithinYear(d: Date)
    requires ValidDate(d)
    ensures DayFromYear(d.year) <= DayNumber(d) < DayFromYear(d.year + 1)
  {
    YearLength(d.year);
  }

  /** Chronological order is order of day numbers. */
  lemma DayNumberOrder(a: Date, b: Date)
    requires ValidDate(a) && ValidDate(b)
    requires DateBefore(a, b)
    ensures DayNumber(a) < DayNumber(b)
  {
    if a.year < b.year {
      DayNumberWithinYear(a);
      DayNumberWithinYear(b);
      DayFromYearGrowth(a.year + 1, b.year);
    } else if a.month < b.month {
      DaysBeforeMonthStep(a.year, a.month);
    }
  }

  /** Different valid dates have different day numbers, so the two
      postconditions of `Normalize` determine its result. */
  lemma DayNumberInjective(a: Date, b: Date)
    requires ValidDate(a) && ValidDate(b)
    ensures DayNumber(a) == DayNumber(b) ==> a == b
  {
    if DateBefore(a, b) {
      DayNumberOrder(a, b);
    } else if DateBefore(b, a) {
      DayNumberOrder(b, a);
    }
  }

  /** Day 0 of a month is the last day of the month before it. */
  lemma DayZeroIsPreviousMonthEnd(y: int, m: int)
    requires 1 <= m <= 12
    ensures Normalize(y, m, 0) == Date(PrevMonth(y, m).0, PrevMonth(y, m).1, DaysInMonth(PrevMonth(y, m).0, PrevMonth(y, m).1))
  {
  }

  /** Moving `k` days with setDate lands exactly `k` day numbers away. */
  lemma AddDaysDistance(t: Date, k: int)
    requires ValidDate(t)
    ensures DayNumber(MakeDay(t.year, t.month - 1, t.day + k)) == DayNumber(t) + k
  {
  }

  /** Day `d` of month index `m - 1` (0 to 11) is plain Normalize. */
  lemma MakeDayInYear(y: int, m: int, d: int)
    requires 1 <= m <= 12
    ensures MakeDay(y, m - 1, d) == Normalize(y, m, d)
  {
    assert (m - 1) / 12 == 0 && (m - 1) % 12 == m - 1;
  }

  /** A day past the end of a month (but within the next one) rolls over:
      day 31 of April is 1 May. */
  lemma MakeDayOverflow(y: int, m: int, d: int)
    requires 1 <= m <= 11
    requires DaysInMonth(y, m) < d <= DaysInMonth(y, m) + DaysInMonth(y, m + 1)
    ensures MakeDay(y, m - 1, d) == Date(y, m + 1, d - DaysInMonth(y, m))
  {
    MakeDayInYear(y, m, d);
    NormalizeValid(Date(y, m + 1, d - DaysInMonth(y, m)));
  }

  /** Dates in the years 100 to 9999 lie well inside the TimeClip range. */
  lemma FourDigitYearsInRange(d: Date)
    requires ValidDate(d) && 100 <= d.year <= 9999
    ensures InTimeRange(DayNumber(d))
  {
    DayNumberWithinYear(d);
    DayFromYearGrowth(100, d.year);
    DayFromYearGrowth(d.year + 1, 10000);
    assert DayFromYear(100) > -100_000_000;
    assert DayFromYear(10000) < 100_000_000;
  }

  /** For a year from 100 on, `new Date(y, mi, d)` is MakeDay as long as the
      result is in the TimeClip range. */
  lemma NewDateIsMakeDay(y: int, mi: int, d: int)
    requires y >= 100
    requires InTimeRange(DayNumber(MakeDay(y, mi, d)))
    ensures NewDate(Some(y), Some(mi), d) == Some(MakeDay(y, mi, d))
  {
  }

  /** Month index `m` (the 1-based month after month `m`) is the next
      month, December rolling into January of the following year. */
  lemma MakeDayMonthAfter(y: int, m: int, d: int)
    requires 1 <= m <= 12
    ensures MakeDay(y, m, d) == Normalize(NextMonth(y, m).0, NextMonth(y, m).1, d)
  {
    var (ny, nm) := NextMonth(y, m);
    MonthIndexAfter(y, m, ny, nm);
    MakeDayAt(y, m, d, ny, nm);
  }

  lemma MonthIndexAfter(y: int, m: int, ny: int, nm: int)
    requires 1 <= m <= 12 && (ny, nm) == NextMonth(y, m)
    ensures y + m / 12 == ny && m % 12 + 1 == nm
  {
    if m < 12 {
      assert m / 12 == 0 && m % 12 == m;
    } else {
      assert m / 12 == 1 && m % 12 == 0;
    }
  }

  /** Month index `m - 2` (the 1-based month before month `m`) is the
      previous month, January going back to December of the year before. */
  lemma MakeDayMonthBefore(y: int, m: int, d: int)
    requires 1 <= m <= 12
    ensures MakeDay(y, m - 2, d) == Normalize(PrevMonth(y, m).0, PrevMonth(y, m).1, d)
  {
    var (py, pm) := PrevMonth(y, m);
    MonthIndexBefore(y, m, py, pm);
    MakeDayAt(y, m - 2, d, py, pm);
  }

  lemma MonthIndexBefore(y: int, m: int, py: int, pm: int)
    requires 1 <= m <= 12 && (py, pm) == PrevMonth(y, m)
    ensures y + (m - 2) / 12 == py && (m - 2) % 12 + 1 == pm
  {
    if m > 1 {
      assert (m - 2) / 12 == 0 && (m - 2) % 12 == m - 2;
    } else {
      assert (m - 2) / 12 == -1 && (m - 2) % 12 == 11;
    }
  }

  /** MakeDay is Normalize at the year and 1-based month the index reduces
      to. */
  lemma MakeDayAt(y: int, mi: int, d: int, ny: int, nm: int)
    requires y + mi / 12 == ny && mi % 12 + 1 == nm
    ensures MakeDay(y, mi, d) == Normalize(ny, nm, d)
  {
    var a, b := y + mi / 12, mi % 12 + 1;
    assert a == ny && b == nm;
    assert MakeDay(y, mi, d) == Normalize(a, b, d);
  }

  /** `setMonth` is MakeDay with the date's own year and day, as long as the
      result is in the TimeClip range. */
  lemma SetMonthIsMakeDay(t: Date, mi: int)
    requires ValidDate(t)
    requires InTimeRange(DayNumber(MakeDay(t.year, mi, t.day)))
    ensures SetMonth(t, mi) == Some(MakeDay(t.year, mi, t.day))
  {
  }

  // ---------------------------------------------------------------------
  // toISOString().split('T')[0]

  /** The year field of an ISO string: four digits for 0..9999, otherwise a
      sign and six digits (the expanded years of section 21.4.1.32). */
  function IsoYear(y: int): string {
    if 0 <= y <= 9999 then PadNumber(y, 4)
    else (if y < 0 then "-" else "+") + PadNumber(if y < 0 then -y else y, 6)
  }

  /** The `YYYY-MM-DD` prefix of `toISOString()`. */
  function IsoDate(d: Date): (r: string)
    requires ValidDate(d)
    ensures |r| >= 10
  {
    IsoYear(d.year) + "-" + PadNumber(d.month, 2) + "-" + PadNumber(d.day, 2)
  }

  lemma Pow10Values()
    ensures Pow10(2) == 100 && Pow10(4) == 10_000
  {
    assert Pow10(1) == 10;
    assert Pow10(3) == 1000;
  }

  /** For a four-digit year the three fields have fixed widths. */
  lemma IsoFields(d: Date)
    requires ValidDate(d) && 0 <= d.year <= 9999
    ensures |PadNumber(d.year, 4)| == 4 && AllDigits(PadNumber(d.year, 4))
    ensures |PadNumber(d.month, 2)| == 2 && |PadNumber(d.day, 2)| == 2
    ensures IsoDate(d) == PadNumber(d.year, 4) + ("-" + PadNumber(d.month, 2) + ("-" + PadNumber(d.day, 2)))
  {
    Pow10Values();
    PadNumberFixed(d.year, 4);
    PadNumberFixed(d.month, 2);
    PadNumberFixed(d.day, 2);
  }

  /** For a four-digit year the date reads back from its ISO text: ten
      characters, the year, the month and the day at fixed places between
      two hyphens. */
  lemma IsoDateReadBack(d: Date)
    requires ValidDate(d) && 0 <= d.year <= 9999
    ensures var r := IsoDate(d);
      && |r| == 10 && r[4] == '-' && r[7] == '-'
      && ParseInt(r[..4]) == Some(d.year)
      && ParseInt(r[5..7]) == Some(d.month)
      && ParseInt(r[8..]) == Some(d.day)
  {
    IsoFields(d);
    var y, m, dd := PadNumber(d.year, 4), PadNumber(d.month, 2), PadNumber(d.day, 2);
    var r := IsoDate(d);
    assert r == y + "-" + m + "-" + dd;
    assert r[..4] == y && r[5..7] == m && r[8..] == dd;
    PadNumberRoundTrip(d.year, 4);
    PadNumberRoundTrip(d.month, 2);
    PadNumberRoundTrip(d.day, 2);
  }

  /** `"-" + x` against `"-" + y`: the hyphen decides nothing. */
  lemma HyphenPrefix(x: string, y: string)
    requires |x| == |y|
    ensures StrLess("-" + x, "-" + y) <==> StrLess(x, y)
    ensures "-" + x == "-" + y <==> x == y
  {
    StrLessConcat("-", "-", x, y);
    StrLessIrreflexive("-");
    assert ("-" + x)[1..] == x && ("-" + y)[1..] == y;
  }

  /** For four-digit years, ISO text that sorts first belongs to the
      earlier date. */
  lemma IsoDateLess(a: Date, b: Date)
    requires ValidDate(a) && ValidDate(b) && 0 <= a.year <= 9999 && 0 <= b.year <= 9999
    ensures StrLess(IsoDate(a), IsoDate(b)) <==> DateBefore(a, b)
  {
    Pow10Values();
    IsoFields(a);
    IsoFields(b);
    var ya, ma, da := PadNumber(a.year, 4), PadNumber(a.month, 2), PadNumber(a.day, 2);
    var yb, mb, db := PadNumber(b.year, 4), PadNumber(b.month, 2), PadNumber(b.day, 2);
    PadNumberOrder(a.year, b.year, 4);
    PadNumberOrder(a.month, b.month, 2);
    PadNumberOrder(a.day, b.day, 2);
    var ta, tb := "-" + ma, "-" + mb;
    var ua, ub := "-" + da, "-" + db;
    HyphenPrefix(ma, mb);
    HyphenPrefix(da, db);
    assert "-" + ma + ("-" + da) == ta + ua && "-" + mb + ("-" + db) == tb + ub;
    StrLessConcat(ya, yb, ta + ua, tb + ub);
    StrLessConcat(ta, tb, ua, ub);
  }

  /** For four-digit years the text order of `toISOString().split('T')[0]`
      is chronological order, and equal text means the same date: comparing
      the `date` column as text or as dates selects the same rows. */
  lemma IsoDateOrder(a: Date, b: Date)
    requires ValidDate(a) && ValidDate(b) && 0 <= a.year <= 9999 && 0 <= b.year <= 9999
    ensures StrLess(IsoDate(a), IsoDate(b)) <==> DateBefore(a, b)
    ensures IsoDate(a) == IsoDate(b) <==> a == b
    ensures StrLe(IsoDate(a), IsoDate(b)) <==> a == b || DateBefore(a, b)
  {
    IsoDateLess(a, b);
    IsoDateLess(b, a);
    StrLessIrreflexive(IsoDate(a));
  }
}

=== FILE: categorias.dfy ===
/** The categories page (`Categorias`): the usage of each category by the
    variable costs, the per-card figures, the top-five ranking and the
    category search.

    Usage is a plain object keyed by category name: a cost whose joined
    category is missing, or has an empty name, is filed under
    "Sem categoria". `Grouping.SumByKey` is that fold. */
module Categorias {
  import opened Common
  import opened Text
  import opened Sorting
  import opened Grouping
  import opened SupabaseData

  const NoCategory: string := "Sem categoria"

  /** `custo.categoria?.nome || 'Sem categoria'`. */
  function UsageKey(c: CustoVariavel): (k: string)
    ensures k == NoCategory || c.categoria == Some(k)
    ensures k != ""
  {
    if c.categoria.Some? && c.categoria.value != "" then c.categoria.value else NoCategory
  }

  /** `categoriaUso`: one entry per key, and every cost's amount lands in
      exactly one of them, so the entries add up to the total of the
      variable costs. */
  function Usage(cs: seq<CustoVariavel>): (r: seq<Entry>)
    ensures Distinct(Map(r, EntryKey))
    ensures Sum(r, EntryTotal) == Sum(cs, CustoVariavelValor)
  {
    SumByKeyDistinct(cs, UsageKey, CustoVariavelValor);
    SumByKeyConserves(cs, UsageKey, CustoVariavelValor);
    SumByKey(cs, UsageKey, CustoVariavelValor)
  }

  /** A card's "Total Gasto": `categoriaUso[nome] || 0`, the sum over the
      costs filed under its name, and 0 when there are none. */
  function TotalGasto(cs: seq<CustoVariavel>, nome: string): (r: real)
    ensures r == Sum(Filter(cs, HasKey(UsageKey, nome)), CustoVariavelValor)
    ensures (forall i :: 0 <= i < |cs| ==> UsageKey(cs[i]) != nome) ==> r == 0.0
  {
    LookupTotal(cs, UsageKey, CustoVariavelValor, nome);
    if forall i :: 0 <= i < |cs| ==> UsageKey(cs[i]) != nome then
      FilterNone(cs, HasKey(UsageKey, nome));
      Lookup(Usage(cs), nome)
    else
      Lookup(Usage(cs), nome)
  }

  function NamedAs(nome: string): CustoVariavel -> bool {
    (c: CustoVariavel) => c.categoria == Some(nome)
  }

  /** A card's "Quantidade de Usos": the costs whose category has exactly
      the card's name. */
  function QuantidadeUsos(cs: seq<CustoVariavel>, nome: string): (n: nat)
    ensures n <= |cs|
    ensures n == |set i | 0 <= i < |cs| && cs[i].categoria == Some(nome)|
    ensures n > 0 <==> exists i :: 0 <= i < |cs| && cs[i].categoria == Some(nome)
  {
    var named := Filter(cs, NamedAs(nome));
    FilterCount(cs, NamedAs(nome));
    assert Positions(cs, NamedAs(nome)) == set i | 0 <= i < |cs| && cs[i].categoria == Some(nome);
    assert |named| > 0 <==> exists i :: 0 <= i < |cs| && cs[i].categoria == Some(nome) by {
      if |named| > 0 {
        assert named[0] in cs && NamedAs(nome)(named[0]);
        var i :| 0 <= i < |cs| && cs[i] == named[0];
        assert cs[i].categoria == Some(nome);
      }
      if i :| 0 <= i < |cs| && cs[i].categoria == Some(nome) {
        assert NamedAs(nome)(cs[i]);
      }
    }
    |named|
  }

  /** A card's status badge. */
  function CardStatus(totalGasto: real): (r: string)
    ensures r == "Em uso" <==> totalGasto > 0.0
    ensures r == "N\U{00E3}o utilizada" <==> totalGasto <= 0.0
  {
    if totalGasto > 0.0 then "Em uso" else "N\U{00E3}o utilizada"
  }

  /** "Categorias em Uso": the number of keys of `categoriaUso`, which is
      the number of distinct keys the costs are filed under. */
  function EmUso(cs: seq<CustoVariavel>): (n: nat)
    ensures n == |Dedup(Map(cs, UsageKey))|
  {
    SumByKeyCount(cs, UsageKey, CustoVariavelValor);
    |Usage(cs)|
  }

  /** The ranking: the entries sorted by descending total, first five. It
      keeps five entries of the usage, or all when there are fewer, in
      non-increasing order of total. */
  function Ranking(cs: seq<CustoVariavel>): (r: seq<Entry>)
    ensures |r| == if |Usage(cs)| < 5 then |Usage(cs)| else 5
    ensures forall i, j :: 0 <= i < j < |r| ==> r[i].total >= r[j].total
    ensures multiset(r) <= multiset(Usage(cs))
  {
    DescendingIsTotalPreorder();
    TopOrdered(Usage(cs), EntryTotal, Descending(), 5);
    Top(Usage(cs), EntryTotal, Descending(), 5)
  }

  /** The ranking card is drawn only when some key exists. */
  predicate RankingShown(cs: seq<CustoVariavel>) {
    |Usage(cs)| > 0
  }

  function MatchesNome(term: string): Categoria -> bool {
    (c: Categoria) => MatchesSearch(c.nome, term)
  }

  /** `filteredCategorias`: the categories whose name matches, each as
      often as it is stored, in stored order. */
  function SearchCategorias(cats: seq<Categoria>, term: string): (r: seq<Categoria>)
    ensures IsSubsequence(r, cats)
    ensures forall c :: c in r <==> c in cats && MatchesSearch(c.nome, term)
    ensures forall c :: multiset(r)[c] == if MatchesSearch(c.nome, term) then multiset(cats)[c] else 0
  {
    FilterIsSubsequence(cats, MatchesNome(term));
    assert forall c :: multiset(Filter(cats, MatchesNome(term)))[c] ==
             if MatchesNome(term)(c) then multiset(cats)[c] else 0 by {
      forall c ensures multiset(Filter(cats, MatchesNome(term)))[c] ==
        if MatchesNome(term)(c) then multiset(cats)[c] else 0 {
        FilterMultiset(cats, MatchesNome(term), c);
      }
    }
    Filter(cats, MatchesNome(term))
  }

  /** "Total de Categorias": the number of categories the search shows. */
  function TotalDeCategorias(cats: seq<Categoria>, term: string): (n: nat)
    ensures n <= |cats|
    ensures n == |set i | 0 <= i < |cats| && MatchesSearch(cats[i].nome, term)|
  {
    FilterCount(cats, MatchesNome(term));
    assert Positions(cats, MatchesNome(term)) == set i | 0 <= i < |cats| && MatchesSearch(cats[i].nome, term);
    |SearchCategorias(cats, term)|
  }

  /** `handleSubmit`: a category is added only with a name; the store gives
      it the id `id`. */
  function Submit(cats: seq<Categoria>, nome: string, id: string): (r: Option<seq<Categoria>>)
    ensures r.None? <==> nome == ""
    ensures r.Some? ==> |r.value| == |cats| + 1 && r.value[..|cats|] == cats && Last(r.value).nome == nome
  {
    if nome != "" then Some(cats + [Categoria(id, nome)]) else None
  }

  // =====================================================================
  // Properties

  /** For an ordinary name, the card's total and its use count are about the
      same costs: those whose category has that name. */
  lemma NamedCardAgrees(cs: seq<CustoVariavel>, nome: string)
    requires nome != "" && nome != NoCategory
    ensures Filter(cs, HasKey(UsageKey, nome)) == Filter(cs, NamedAs(nome))
    ensures TotalGasto(cs, nome) == Sum(Filter(cs, NamedAs(nome)), CustoVariavelValor)
  {
    forall i | 0 <= i < |cs| ensures HasKey(UsageKey, nome)(cs[i]) == NamedAs(nome)(cs[i]) {
      assert HasKey(UsageKey, nome)(cs[i]) == (UsageKey(cs[i]) == nome);
    }
    FilterExt(cs, HasKey(UsageKey, nome), NamedAs(nome));
  }

  /** A cost without a category counts toward no card's uses, and is filed
      under "Sem categoria". */
  lemma UncategorisedNeverCounted(cs: seq<CustoVariavel>, c: CustoVariavel, nome: string)
    requires c.categoria.None?
    ensures QuantidadeUsos(cs + [c], nome) == QuantidadeUsos(cs, nome)
    ensures UsageKey(c) == NoCategory
  {
    FilterSnoc(cs, c, NamedAs(nome));
  }

  /** A cost adds one use to a card exactly when its category carries the
      card's name. */
  lemma UsosSnoc(cs: seq<CustoVariavel>, c: CustoVariavel, nome: string)
    ensures QuantidadeUsos(cs + [c], nome)
         == QuantidadeUsos(cs, nome) + (if c.categoria == Some(nome) then 1 else 0)
  {
    FilterSnoc(cs, c, NamedAs(nome));
  }

  /** With non-negative amounts, a card is "Em uso" exactly when some cost
      with a positive amount is filed under its name. */
  lemma CardInUseIff(cs: seq<CustoVariavel>, nome: string)
    requires forall i :: 0 <= i < |cs| ==> cs[i].valor >= 0.0
    ensures CardStatus(TotalGasto(cs, nome)) == "Em uso"
        <==> exists i :: 0 <= i < |cs| && UsageKey(cs[i]) == nome && cs[i].valor > 0.0
  {
    var own := Filter(cs, HasKey(UsageKey, nome));
    SumPositive(own, CustoVariavelValor);
    if i :| 0 <= i < |cs| && UsageKey(cs[i]) == nome && cs[i].valor > 0.0 {
      assert cs[i] in own;
      var j :| 0 <= j < |own| && own[j] == cs[i];
      assert CustoVariavelValor(own[j]) > 0.0;
    }
    if j :| 0 <= j < |own| && CustoVariavelValor(own[j]) > 0.0 {
      assert own[j] in cs;
      var i :| 0 <= i < |cs| && cs[i] == own[j];
      assert UsageKey(cs[i]) == nome;
    }
  }

  /** The "Sem categoria" card shows the uncategorised costs' amount but
      counts none of them: one uncategorised cost of 50 gives a card "Em
      uso" with 0 uses. */
  lemma NoCategoryCardExample()
    ensures var cs := [CustoVariavel("1", "", None, 50.0, "2024-05-01")];
      && TotalGasto(cs, NoCategory) == 50.0
      && CardStatus(TotalGasto(cs, NoCategory)) == "Em uso"
      && QuantidadeUsos(cs, NoCategory) == 0
  {
    var cs := [CustoVariavel("1", "", None, 50.0, "2024-05-01")];
    assert cs == [] + [cs[0]];
    FilterSnoc([], cs[0], HasKey(UsageKey, NoCategory));
    FilterSnoc([], cs[0], NamedAs(NoCategory));
    SumSingleton(cs[0], CustoVariavelValor);
  }

  /** Whether a cost is filed under "Sem categoria": no category, a
      nameless one, or one actually named "Sem categoria". */
  predicate Uncategorised(c: CustoVariavel) {
    c.categoria.None? || c.categoria == Some("") || c.categoria == Some(NoCategory)
  }

  /** "Sem categoria" is among the keys exactly when some cost is filed
      there. */
  lemma NoCategoryListed(cs: seq<CustoVariavel>)
    ensures (exists i :: 0 <= i < |Usage(cs)| && Usage(cs)[i].key == NoCategory)
        <==> (exists j :: 0 <= j < |cs| && Uncategorised(cs[j]))
  {
    var es := Usage(cs);
    assert es == SumByKey(cs, UsageKey, CustoVariavelValor);
    if j :| 0 <= j < |cs| && Uncategorised(cs[j]) {
      assert UsageKey(cs[j]) == NoCategory;
      RecordKeyListed(cs, UsageKey, CustoVariavelValor, j);
      var i :| 0 <= i < |es| && es[i].key == UsageKey(cs[j]);
      assert es[i].key == NoCategory;
    }
    if i :| 0 <= i < |es| && es[i].key == NoCategory {
      EntryKeyOccurs(cs, UsageKey, CustoVariavelValor, i);
      var j :| 0 <= j < |cs| && UsageKey(cs[j]) == es[i].key;
      FiledAsUncategorised(cs[j]);
    }
  }

  lemma FiledAsUncategorised(c: CustoVariavel)
    requires UsageKey(c) == NoCategory
    ensures Uncategorised(c)
  {
  }

  /** With no category named like an array index, the object lists the
      categories in the order the costs first name them. */
  lemma UsageOrder(cs: seq<CustoVariavel>)
    requires forall i :: 0 <= i < |cs| ==> !IsArrayIndex(UsageKey(cs[i]))
    ensures Map(Usage(cs), EntryKey) == Dedup(Map(cs, UsageKey))
  {
    SumByKeyPlainOrder(cs, UsageKey, CustoVariavelValor);
  }

  /** The ranking keeps at most five entries of the usage, in non-increasing
      order of total, and no entry left out totals more than a ranked one. */
  lemma RankingIsTopFive(cs: seq<CustoVariavel>, e: Entry)
    ensures |Ranking(cs)| == if |Usage(cs)| < 5 then |Usage(cs)| else 5
    ensures forall i, j :: 0 <= i < j < |Ranking(cs)| ==> Ranking(cs)[i].total >= Ranking(cs)[j].total
    ensures multiset(Ranking(cs)) <= multiset(Usage(cs))
    ensures e in multiset(Usage(cs)) - multiset(Ranking(cs)) ==>
      forall i :: 0 <= i < |Ranking(cs)| ==> Ranking(cs)[i].total >= e.total
  {
    DescendingIsTotalPreorder();
    TopOrdered(Usage(cs), EntryTotal, Descending(), 5);
    if e in multiset(Usage(cs)) - multiset(Ranking(cs)) {
      TopDominates(Usage(cs), EntryTotal, Descending(), 5, e);
    }
  }

  /** Ties keep the object's order: among entries with equal totals the
      ranked ones are the first listed. */
  lemma RankingTies(cs: seq<CustoVariavel>, t: real)
    ensures var kept := Filter(Ranking(cs), InClass(EntryTotal, Descending(), t));
      var all := Filter(Usage(cs), InClass(EntryTotal, Descending(), t));
      |kept| <= |all| && kept == all[..|kept|]
  {
    DescendingIsTotalPreorder();
    TopStable(Usage(cs), EntryTotal, Descending(), 5, t);
  }

  /** The ranking is drawn exactly when there are variable costs. */
  lemma RankingShownIff(cs: seq<CustoVariavel>)
    ensures RankingShown(cs) <==> |cs| > 0
  {
    if |cs| > 0 {
      RecordKeyListed(cs, UsageKey, CustoVariavelValor, 0);
    }
  }

  /** An empty search lists every category. */
  lemma EmptySearchKeepsAll(cats: seq<Categoria>)
    ensures SearchCategorias(cats, "") == cats
    ensures TotalDeCategorias(cats, "") == |cats|
  {
    forall i | 0 <= i < |cats| ensures MatchesNome("")(cats[i]) {
      EmptySearchMatches(cats[i].nome);
    }
    FilterAll(cats, MatchesNome(""));
  }

  /** A new category appears in the list, and raises "Total de Categorias"
      by one, exactly when the search matches its name. */
  lemma SubmitShows(cats: seq<Categoria>, nome: string, id: string, term: string)
    requires nome != ""
    ensures var after := Submit(cats, nome, id).value;
      TotalDeCategorias(after, term)
      == TotalDeCategorias(cats, term) + (if MatchesSearch(nome, term) then 1 else 0)
  {
    FilterSnoc(cats, Categoria(id, nome), MatchesNome(term));
  }
}

=== FILE: chart.dfy ===
/** The per-category chart of the monthly-expenses page: one bar group per
    category, planned against paid.

    The component folds the rows it is given into a `Map` keyed by category,
    adding every amount to the category's planned total and, when the row is
    paid, to its paid total; `Array.from(map.entries())` then lists the
    categories in the order they were first met. That is `GroupBy` followed
    by two sums per group. */
module Chart {
  import opened Common
  import opened Grouping
  import opened Despesas
  import opened Mensais

  datatype Row = Row(categoria: string, previsto: real, pago: real, pendente: real)

  function Categoria(e: Expense): string { e.categoria }

  function RowOf(g: Group<Expense>): Row {
    var previsto := Sum(g.items, Valor);
    var pago := Sum(Filter(g.items, Paid), Valor);
    Row(g.key, previsto, pago, previsto - pago)
  }

  /** `chartData`: one row per distinct category, in order of first
      appearance. */
  function ChartData(ds: seq<Expense>): (r: seq<Row>)
    ensures Map(r, RowCategoria) == Dedup(Map(ds, Categoria))
  {
    var g := GroupBy(ds, Categoria);
    var rows := Map(g, RowOf);
    assert Map(rows, RowCategoria) == Keys(g) by {
      forall i | 0 <= i < |g| ensures Map(rows, RowCategoria)[i] == Keys(g)[i] {
        MapIndex(g, RowOf, i);
        MapIndex(rows, RowCategoria, i);
      }
    }
    rows
  }

  function Previsto(r: Row): real { r.previsto }

  /** The page draws the chart only with a month selected, and the
      component renders nothing without rows. */
  predicate ChartShown(filtroMes: string, ds: seq<Expense>) {
    filtroMes != "" && |ChartData(ds)| > 0
  }

  // ---------------------------------------------------------------------

  function RowCategoria(r: Row): string { r.categoria }

  /** Each row's planned figure is the total of its category's expenses, its
      paid figure the total of those that are paid, and the pending figure
      the difference. */
  lemma ChartRowTotals(ds: seq<Expense>, i: int)
    requires 0 <= i < |ChartData(ds)|
    ensures var r := ChartData(ds)[i];
      var own := Filter(ds, HasKey(Categoria, r.categoria));
      && r.previsto == Sum(own, Valor)
      && r.pago == Sum(Filter(own, Paid), Valor)
      && r.pendente == r.previsto - r.pago
  {
    var g := GroupBy(ds, Categoria);
    GroupByPartitions(ds, Categoria);
    assert ChartData(ds)[i] == RowOf(g[i]);
    assert g[i].items == Filter(ds, HasKey(Categoria, g[i].key));
  }

  /** Planned amounts are neither lost nor counted twice: the bars add up to
      the total of the expenses. */
  lemma ChartConserves(ds: seq<Expense>)
    ensures Sum(ChartData(ds), Previsto) == Sum(ds, Valor)
  {
    var g := GroupBy(ds, Categoria);
    GroupByConserves(ds, Categoria, Valor);
    var rows := ChartData(ds);
    forall i | 0 <= i < |rows| ensures Previsto(rows[i]) == GroupTotal(Valor)(g[i]) {
      assert rows[i] == RowOf(g[i]);
    }
    SumCongruent(rows, Previsto, g, GroupTotal(Valor));
  }

  /** With non-negative amounts every bar has 0 <= paid <= planned, so the
      pending part is never negative. */
  lemma ChartBounds(ds: seq<Expense>, i: int)
    requires forall j :: 0 <= j < |ds| ==> ds[j].valor >= 0.0
    requires 0 <= i < |ChartData(ds)|
    ensures 0.0 <= ChartData(ds)[i].pago <= ChartData(ds)[i].previsto
    ensures ChartData(ds)[i].pendente >= 0.0
  {
    var r := ChartData(ds)[i];
    var own := Filter(ds, HasKey(Categoria, r.categoria));
    ChartRowTotals(ds, i);
    forall j | 0 <= j < |own| ensures Valor(own[j]) >= 0.0 {
      assert own[j] in ds;
    }
    SumFilterBound(own, Paid, Valor);
  }

  /** There are rows exactly when there are expenses. */
  lemma ChartEmptyIff(ds: seq<Expense>)
    ensures |ChartData(ds)| == 0 <==> |ds| == 0
  {
    if |ds| > 0 {
      assert Map(ds, Categoria)[0] in Dedup(Map(ds, Categoria));
    }
  }
}

=== FILE: common.dfy ===
/** Sequence helpers shared by every page of the dashboard.

    The pages compute everything with three array idioms: `filter` (an
    order-preserving selection), `reduce((sum, x) => sum + x.valor, 0)` (a left
    fold of amounts) and the key de-duplication a JavaScript `Set` or `Map`
    performs, which keeps the first occurrence of every key. They are defined
    here once, on sequences, together with the facts the page modules use. */
module Common {

  datatype Option<+T> = None | Some(value: T)

  /** The elements of `s` at positions `0 <= i < j`, in order: a JavaScript
      array after a `filter`, a `slice(0, n)` or a `Set` keeps this shape. */
  ghost predicate IsSubsequence<T>(a: seq<T>, b: seq<T>)
    decreases |b|
  {
    || |a| == 0
    || (&& |b| > 0
        && (|| IsSubsequence(a, b[..|b| - 1])
            || (a[|a| - 1] == b[|b| - 1] && IsSubsequence(a[..|a| - 1], b[..|b| - 1]))))
  }

  predicate Distinct<T(==)>(s: seq<T>) {
    forall i, j :: 0 <= i < j < |s| ==> s[i] != s[j]
  }

  function Last<T>(s: seq<T>): T
    requires |s| > 0
  {
    s[|s| - 1]
  }

  function DropLast<T>(s: seq<T>): seq<T>
    requires |s| > 0
  {
    s[..|s| - 1]
  }

  /** `Array.prototype.filter`: the elements satisfying `p`, in their order. */
  function Filter<T(==)>(s: seq<T>, p: T -> bool): (r: seq<T>)
    ensures |r| <= |s|
    ensures forall i :: 0 <= i < |r| ==> r[i] in s && p(r[i])
    ensures forall i :: 0 <= i < |s| && p(s[i]) ==> s[i] in r
    decreases |s|
  {
    if |s| == 0 then []
    else
      assert s == DropLast(s) + [Last(s)];
      Filter(DropLast(s), p) + (if p(Last(s)) then [Last(s)] else [])
  }

  /** `Array.prototype.map`. */
  function Map<T, U>(s: seq<T>, f: T -> U): seq<U> {
    seq(|s|, i requires 0 <= i < |s| => f(s[i]))
  }

  lemma MapIndex<T, U>(s: seq<T>, f: T -> U, i: int)
    requires 0 <= i < |s|
    ensures |Map(s, f)| == |s| && Map(s, f)[i] == f(s[i])
  {
  }

  /** A `map` whose callback may throw (`None`): the results of all calls,
      or `None` as soon as one of them fails. */
  function TryMap<T, U>(s: seq<T>, f: T -> Option<U>): Option<seq<U>>
    decreases |s|
  {
    if |s| == 0 then Some([])
    else
      var rest := TryMap(DropLast(s), f);
      var y := f(Last(s));
      if rest.None? || y.None? then None else Some(rest.value + [y.value])
  }

  /** The map succeeds iff every call does, and then holds every result. */
  lemma {:induction false} TryMapSpec<T, U>(s: seq<T>, f: T -> Option<U>)
    ensures TryMap(s, f).Some? <==> forall i :: 0 <= i < |s| ==> f(s[i]).Some?
    ensures TryMap(s, f).Some? ==>
      && |TryMap(s, f).value| == |s|
      && forall i :: 0 <= i < |s| ==> f(s[i]) == Some(TryMap(s, f).value[i])
    decreases |s|
  {
    if |s| > 0 {
      var s' := DropLast(s);
      TryMapSpec(s', f);
      assert forall i :: 0 <= i < |s'| ==> s'[i] == s[i];
    }
  }

  /** `s.reduce((acc, x) => acc + f(x), 0)`: a left fold, so the additions
      happen in the same order as in the source. */
  function Sum<T>(s: seq<T>, f: T -> real): real
    decreases |s|
  {
    if |s| == 0 then 0.0 else Sum(DropLast(s), f) + f(Last(s))
  }

  /** The distinct elements of `s` in order of first appearance, as
      `Array.from(new Set(s))` returns them. */
  function Dedup<T(==)>(s: seq<T>): (r: seq<T>)
    ensures forall i :: 0 <= i < |r| ==> r[i] in s
    ensures forall i :: 0 <= i < |s| ==> s[i] in r
    ensures Distinct(r)
    decreases |s|
  {
    if |s| == 0 then []
    else
      assert s == DropLast(s) + [Last(s)];
      var d := Dedup(DropLast(s));
      if Last(s) in d then d else d + [Last(s)]
  }

  /** `s.slice(0, n)`. */
  function Take<T(==)>(s: seq<T>, n: nat): (r: seq<T>)
    ensures |r| == if |s| < n then |s| else n
    ensures IsSubsequence(r, s)
  {
    var k := if |s| < n then |s| else n;
    PrefixIsSubsequence(s, k);
    s[..k]
  }

  lemma {:induction false} PrefixIsSubsequence<T>(s: seq<T>, k: nat)
    requires k <= |s|
    ensures IsSubsequence(s[..k], s)
    decreases |s|
  {
    if k == 0 {
    } else if k == |s| {
      assert s[..k] == s;
      SelfIsSubsequence(s);
    } else {
      PrefixIsSubsequence(DropLast(s), k);
      assert DropLast(s)[..k] == s[..k];
    }
  }

  lemma {:induction false} SelfIsSubsequence<T>(s: seq<T>)
    ensures IsSubsequence(s, s)
    decreases |s|
  {
    if |s| > 0 {
      SelfIsSubsequence(DropLast(s));
    }
  }

  // ---------------------------------------------------------------------
  // Filter

  /** The filter keeps every element satisfying `p` exactly as often as it
      occurs, and no other element. */
  lemma {:induction false} FilterMultiset<T>(s: seq<T>, p: T -> bool, x: T)
    ensures multiset(Filter(s, p))[x] == if p(x) then multiset(s)[x] else 0
    decreases |s|
  {
    if |s| > 0 {
      FilterMultiset(DropLast(s), p, x);
      assert s == DropLast(s) + [Last(s)];
      assert multiset(s) == multiset(DropLast(s)) + multiset{Last(s)};
    }
  }

  lemma {:induction false} FilterIsSubsequence<T>(s: seq<T>, p: T -> bool)
    ensures IsSubsequence(Filter(s, p), s)
    decreases |s|
  {
    if |s| > 0 {
      FilterIsSubsequence(DropLast(s), p);
      var f := Filter(DropLast(s), p);
      if p(Last(s)) {
        var r := f + [Last(s)];
        assert Filter(s, p) == r;
        assert r[..|r| - 1] == f;
        assert r[|r| - 1] == s[|s| - 1];
        assert IsSubsequence(r[..|r| - 1], s[..|s| - 1]);
        assert IsSubsequence(r, s);
      } else {
        assert Filter(s, p) == f;
        assert IsSubsequence(f, s[..|s| - 1]);
      }
    }
  }

  /** A filter whose predicate holds everywhere returns its input. */
  lemma {:induction false} FilterAll<T>(s: seq<T>, p: T -> bool)
    requires forall i :: 0 <= i < |s| ==> p(s[i])
    ensures Filter(s, p) == s
    decreases |s|
  {
    if |s| > 0 {
      FilterAll(DropLast(s), p);
      assert s == DropLast(s) + [Last(s)];
    }
  }

  lemma {:induction false} FilterAppend<T>(a: seq<T>, b: seq<T>, p: T -> bool)
    ensures Filter(a + b, p) == Filter(a, p) + Filter(b, p)
    decreases |b|
  {
    if |b| > 0 {
      FilterAppend(a, DropLast(b), p);
      assert DropLast(a + b) == a + DropLast(b);
      assert Last(a + b) == Last(b);
    } else {
      assert a + b == a;
    }
  }

  // ---------------------------------------------------------------------
  // Sum

  lemma {:induction false} SumAppend<T>(a: seq<T>, b: seq<T>, f: T -> real)
    ensures Sum(a + b, f) == Sum(a, f) + Sum(b, f)
    decreases |b|
  {
    if |b| == 0 {
      assert a + b == a;
    } else {
      SumAppend(a, DropLast(b), f);
      assert DropLast(a + b) == a + DropLast(b);
      assert Last(a + b) == Last(b);
    }
  }

  lemma {:induction false} SumNonNegative<T>(s: seq<T>, f: T -> real)
    requires forall i :: 0 <= i < |s| ==> f(s[i]) >= 0.0
    ensures Sum(s, f) >= 0.0
    decreases |s|
  {
    if |s| > 0 {
      SumNonNegative(DropLast(s), f);
    }
  }

  /** A total splits exactly into the part selected by `p` and the part
      selected by its complement `q`. */
  lemma {:induction false} SumSplit<T>(s: seq<T>, p: T -> bool, q: T -> bool, f: T -> real)
    requires forall i :: 0 <= i < |s| ==> q(s[i]) == !p(s[i])
    ensures Sum(s, f) == Sum(Filter(s, p), f) + Sum(Filter(s, q), f)
    decreases |s|
  {
    if |s| > 0 {
      SumSplit(DropLast(s), p, q, f);
      SumAppend(Filter(DropLast(s), p), if p(Last(s)) then [Last(s)] else [], f);
      SumAppend(Filter(DropLast(s), q), if q(Last(s)) then [Last(s)] else [], f);
      assert Sum([Last(s)], f) == f(Last(s)) by {
        assert DropLast([Last(s)]) == [];
      }
    }
  }

  /** With non-negative amounts, the total of a selection never exceeds the
      full total. */
  lemma SumFilterBound<T>(s: seq<T>, p: T -> bool, f: T -> real)
    requires forall i :: 0 <= i < |s| ==> f(s[i]) >= 0.0
    ensures 0.0 <= Sum(Filter(s, p), f) <= Sum(s, f)
  {
    var q := x => !p(x);
    SumSplit(s, p, q, f);
    forall i | 0 <= i < |Filter(s, p)| ensures f(Filter(s, p)[i]) >= 0.0 {
      assert Filter(s, p)[i] in s;
    }
    forall i | 0 <= i < |Filter(s, q)| ensures f(Filter(s, q)[i]) >= 0.0 {
      assert Filter(s, q)[i] in s;
    }
    SumNonNegative(Filter(s, p), f);
    SumNonNegative(Filter(s, q), f);
  }

  /** Two sums over sequences whose mapped amounts agree are equal. */
  lemma {:induction false} SumCongruent<T, U>(s: seq<T>, f: T -> real, t: seq<U>, g: U -> real)
    requires |s| == |t|
    requires forall i :: 0 <= i < |s| ==> f(s[i]) == g(t[i])
    ensures Sum(s, f) == Sum(t, g)
    decreases |s|
  {
    if |s| > 0 {
      SumCongruent(DropLast(s), f, DropLast(t), g);
    }
  }

  lemma SumSingleton<T>(x: T, f: T -> real)
    ensures Sum([x], f) == f(x)
  {
    assert DropLast([x]) == [];
  }

  lemma SumSnoc<T>(s: seq<T>, x: T, f: T -> real)
    ensures Sum(s + [x], f) == Sum(s, f) + f(x)
  {
    assert DropLast(s + [x]) == s;
  }

  lemma FilterSnoc<T>(s: seq<T>, x: T, p: T -> bool)
    ensures Filter(s + [x], p) == Filter(s, p) + (if p(x) then [x] else [])
  {
    assert DropLast(s + [x]) == s;
  }

  /** Replacing one element changes the total by the difference. */
  lemma {:induction false} SumUpdate<T>(s: seq<T>, i: int, y: T, f: T -> real)
    requires 0 <= i < |s|
    ensures Sum(s[i := y], f) == Sum(s, f) - f(s[i]) + f(y)
    decreases |s|
  {
    if i < |s| - 1 {
      SumUpdate(DropLast(s), i, y, f);
      assert DropLast(s[i := y]) == DropLast(s)[i := y];
    } else {
      assert DropLast(s[i := y]) == DropLast(s);
    }
  }

  /** A total does not depend on the order of the elements. */
  lemma {:induction false} SumPermutation<T>(a: seq<T>, b: seq<T>, f: T -> real)
    requires multiset(a) == multiset(b)
    ensures Sum(a, f) == Sum(b, f)
    decreases |a|
  {
    if |a| == 0 {
      assert |b| == |multiset(b)| == 0;
    } else {
      var x := Last(a);
      assert a == DropLast(a) + [x];
      assert x in multiset(b);
      var i :| 0 <= i < |b| && b[i] == x;
      var b' := b[..i] + b[i + 1..];
      assert b == b[..i] + [x] + b[i + 1..];
      assert multiset(b) == multiset(b') + multiset{x};
      assert multiset(a) == multiset(DropLast(a)) + multiset{x};
      assert multiset(b') == multiset(DropLast(a)) by {
        assert multiset(b') == multiset(b) - multiset{x};
        assert multiset(DropLast(a)) == multiset(a) - multiset{x};
      }
      SumPermutation(DropLast(a), b', f);
      SumAppend(b[..i], b[i + 1..], f);
      SumAppend(b[..i] + [x], b[i + 1..], f);
      SumAppend(b[..i], [x], f);
      assert Sum([x], f) == f(x) by {
        assert DropLast([x]) == [];
      }
    }
  }

  /** The values of a `map` are the images of the elements. */
  lemma MapMembers<T, U>(s: seq<T>, f: T -> U)
    ensures forall y :: y in Map(s, f) <==> exists i :: 0 <= i < |s| && f(s[i]) == y
  {
    forall y ensures y in Map(s, f) <==> exists i :: 0 <= i < |s| && f(s[i]) == y {
      if y in Map(s, f) {
        var i :| 0 <= i < |s| && Map(s, f)[i] == y;
      }
      if exists i :: 0 <= i < |s| && f(s[i]) == y {
        var i :| 0 <= i < |s| && f(s[i]) == y;
        assert Map(s, f)[i] == y;
      }
    }
  }

  /** De-duplication keeps every value. */
  lemma DedupMembers<T>(s: seq<T>)
    ensures forall x :: x in Dedup(s) <==> x in s
  {
    forall x ensures x in Dedup(s) <==> x in s {
      if x in s {
        var i :| 0 <= i < |s| && s[i] == x;
      }
    }
  }

  /** A filter that selects nothing is empty. */
  lemma {:induction false} FilterNone<T>(s: seq<T>, p: T -> bool)
    requires forall i :: 0 <= i < |s| ==> !p(s[i])
    ensures Filter(s, p) == []
    decreases |s|
  {
    if |s| > 0 {
      FilterNone(DropLast(s), p);
    }
  }

  /** The positions whose element satisfies `p`. */
  function Positions<T>(s: seq<T>, p: T -> bool): set<int> {
    set i | 0 <= i < |s| && p(s[i])
  }

  /** `filter(p).length` is the number of positions whose element satisfies
      `p`. */
  lemma {:induction false} FilterCount<T>(s: seq<T>, p: T -> bool)
    ensures |Filter(s, p)| == |Positions(s, p)|
    decreases |s|
  {
    if |s| > 0 {
      var t, x := DropLast(s), Last(s);
      assert s == t + [x];
      FilterCount(t, p);
      FilterSnoc(t, x, p);
      PositionsSnoc(t, x, p);
    }
  }

  /** One more element adds its own position iff it satisfies `p`. */
  lemma PositionsSnoc<T>(t: seq<T>, x: T, p: T -> bool)
    ensures |t| !in Positions(t, p)
    ensures Positions(t + [x], p) == Positions(t, p) + (if p(x) then {|t|} else {})
  {
    var s := t + [x];
    forall i | 0 <= i < |t| ensures s[i] == t[i] {}
  }

  /** Filtering by `p` and then by `q` is filtering once by a predicate
      that agrees with their conjunction on the elements. */
  lemma {:induction false} FilterConj<T>(s: seq<T>, p: T -> bool, q: T -> bool, r: T -> bool)
    requires forall i :: 0 <= i < |s| ==> r(s[i]) == (p(s[i]) && q(s[i]))
    ensures Filter(Filter(s, p), q) == Filter(s, r)
    decreases |s|
  {
    if |s| > 0 {
      var t, x := DropLast(s), Last(s);
      assert forall i :: 0 <= i < |t| ==> t[i] == s[i];
      FilterConj(t, p, q, r);
      var f := Filter(t, p);
      if p(x) {
        assert Filter(s, p) == f + [x];
        FilterSnoc(f, x, q);
      } else {
        assert Filter(s, p) == f;
      }
    }
  }

  /** Filters by predicates that agree on the elements select the same. */
  lemma {:induction false} FilterExt<T>(s: seq<T>, p: T -> bool, q: T -> bool)
    requires forall i :: 0 <= i < |s| ==> p(s[i]) == q(s[i])
    ensures Filter(s, p) == Filter(s, q)
    decreases |s|
  {
    if |s| > 0 {
      FilterExt(DropLast(s), p, q);
    }
  }

  // ---------------------------------------------------------------------
  // Distinct elements

  /** A duplicate-free sequence holds every value at most once. */
  lemma {:induction false} DistinctMultiplicity<T>(s: seq<T>, x: T)
    requires Distinct(s)
    ensures multiset(s)[x] <= 1
    decreases |s|
  {
    if |s| > 0 {
      assert s == DropLast(s) + [Last(s)];
      DistinctMultiplicity(DropLast(s), x);
      if x == Last(s) {
        assert x !in DropLast(s);
      }
    }
  }

  /** A value at two positions is counted at least twice. */
  lemma RepeatedMultiplicity<T>(s: seq<T>, i: int, j: int)
    requires 0 <= i < j < |s| && s[i] == s[j]
    ensures multiset(s)[s[i]] >= 2
  {
    var x := s[i];
    assert s == s[..j] + [x] + s[j + 1..];
    assert s[..j][i] == x;
    assert multiset(s[..j])[x] >= 1;
  }

  /** Reordering a duplicate-free sequence keeps it duplicate-free. */
  lemma DistinctPermutation<T>(a: seq<T>, b: seq<T>)
    requires multiset(a) == multiset(b) && Distinct(a)
    ensures Distinct(b)
  {
    forall i, j | 0 <= i < j < |b| ensures b[i] != b[j] {
      if b[i] == b[j] {
        RepeatedMultiplicity(b, i, j);
        DistinctMultiplicity(a, b[i]);
      }
    }
  }

  /** A duplicate-free sequence has as many elements as its set. */
  lemma {:induction false} DistinctCardinality<T>(s: seq<T>)
    requires Distinct(s)
    ensures |set x | x in s| == |s|
    decreases |s|
  {
    if |s| > 0 {
      DistinctCardinality(DropLast(s));
      assert s == DropLast(s) + [Last(s)];
      assert (set x | x in s) == (set x | x in DropLast(s)) + {Last(s)};
      assert Last(s) !in DropLast(s);
    }
  }

  /** The number of distinct keys Dedup keeps is the number of distinct
      values in the input. */
  lemma DedupCardinality<T>(s: seq<T>)
    ensures |Dedup(s)| == |set x | x in s|
  {
    DistinctCardinality(Dedup(s));
    assert (set x | x in Dedup(s)) == (set x | x in s);
  }

  /** Non-negative amounts add up to something positive exactly when one of
      them is positive. */
  lemma {:induction false} SumPositive<T>(s: seq<T>, f: T -> real)
    requires forall i :: 0 <= i < |s| ==> f(s[i]) >= 0.0
    ensures Sum(s, f) > 0.0 <==> exists i :: 0 <= i < |s| && f(s[i]) > 0.0
    decreases |s|
  {
    if |s| > 0 {
      var t := DropLast(s);
      assert forall i :: 0 <= i < |t| ==> t[i] == s[i];
      SumPositive(t, f);
      SumNonNegative(t, f);
      if exists i :: 0 <= i < |t| && f(t[i]) > 0.0 {
        var i :| 0 <= i < |t| && f(t[i]) > 0.0;
        assert f(s[i]) > 0.0;
      }
      if i :| 0 <= i < |s| && f(s[i]) > 0.0 {
        if i < |t| {
          assert f(t[i]) > 0.0;
        }
      }
    }
  }

  /** Amounts between `lo` and `hi` add up to between `|s|` times each. */
  lemma {:induction false} SumBounds<T>(s: seq<T>, f: T -> real, lo: real, hi: real)
    requires forall i :: 0 <= i < |s| ==> lo <= f(s[i]) <= hi
    ensures |s| as real * lo <= Sum(s, f) <= |s| as real * hi
    decreases |s|
  {
    if |s| > 0 {
      var t := DropLast(s);
      var x := Last(s);
      assert forall i :: 0 <= i < |t| ==> t[i] == s[i];
      assert lo <= f(x) <= hi by { assert x == s[|s| - 1]; }
      SumBounds(t, f, lo, hi);
      var n := |t| as real;
      assert Sum(s, f) == Sum(t, f) + f(x);
      assert |s| as real * lo == n * lo + lo;
      assert |s| as real * hi == n * hi + hi;
    }
  }
}

=== FILE: custos_fixos.dfy ===
/** The fixed-costs page (`CustosFixos`): the list searched by name, its
    total and count, and the form that inserts a cost. The store is the
    loaded list; an insert appends the row with the id the database
    assigns (`freshId`). */
module CustosFixos {
  import opened Common
  import opened Text
  import opened Listing
  import opened SupabaseData

  function CustoNome(c: CustoFixo): string { c.nome }

  /** `filteredCustos`. */
  function Filtered(cs: seq<CustoFixo>, term: string): seq<CustoFixo> {
    Search(cs, CustoNome, term)
  }

  /** "Total de Custos Fixos": the amount of the costs shown. Without a
      search it is the fixed-cost total; with non-negative amounts it never
      exceeds it. */
  function TotalCustos(cs: seq<CustoFixo>, term: string): (r: real)
    ensures term == "" ==> r == Sum(cs, CustoFixoValor)
    ensures (forall i :: 0 <= i < |cs| ==> cs[i].valor >= 0.0) ==> 0.0 <= r <= Sum(cs, CustoFixoValor)
  {
    EmptySearchKeepsAll(cs, CustoNome, CustoFixoValor);
    if forall i :: 0 <= i < |cs| ==> cs[i].valor >= 0.0 then
      SearchTotalBounds(cs, CustoNome, term, CustoFixoValor);
      SearchTotal(cs, CustoNome, term, CustoFixoValor)
    else
      SearchTotal(cs, CustoNome, term, CustoFixoValor)
  }

  /** "Número de Itens": how many costs the search shows. */
  function Quantidade(cs: seq<CustoFixo>, term: string): (n: nat)
    ensures n <= |cs|
    ensures n == |set i | 0 <= i < |cs| && MatchesSearch(cs[i].nome, term)|
  {
    FilterCount(cs, FieldMatches(CustoNome, term));
    assert Positions(cs, FieldMatches(CustoNome, term))
        == set i | 0 <= i < |cs| && MatchesSearch(cs[i].nome, term) by {
      forall i | 0 <= i < |cs| ensures FieldMatches(CustoNome, term)(cs[i]) == MatchesSearch(cs[i].nome, term) {
        assert CustoNome(cs[i]) == cs[i].nome;
      }
    }
    |Filtered(cs, term)|
  }

  datatype Form = Form(nome: string, valor: string, data: string)

  function EmptyForm(): Form { Form("", "", "") }

  predicate Filled(f: Form) {
    f.nome != "" && f.valor != "" && f.data != ""
  }

  /** `handleSubmit`, on success: one row inserted and the form emptied; an
      incomplete form changes nothing. `parsed` is `parseFloat(form.valor)`. */
  function Submit(store: seq<CustoFixo>, f: Form, parsed: real, freshId: string): (r: (seq<CustoFixo>, Form))
    ensures !Filled(f) ==> r == (store, f)
    ensures Filled(f) ==> r.1 == EmptyForm() && |r.0| == |store| + 1 && r.0[..|store|] == store
  {
    if Filled(f) then (store + [CustoFixo(freshId, f.nome, parsed, f.data)], EmptyForm()) else (store, f)
  }

  // =====================================================================
  // Properties

  /** Without a search every cost is listed, and the total is the fixed-cost
      total. */
  lemma EmptySearchShowsAll(cs: seq<CustoFixo>)
    ensures Quantidade(cs, "") == |cs|
    ensures TotalCustos(cs, "") == Sum(cs, CustoFixoValor)
  {
    EmptySearchKeepsAll(cs, CustoNome, CustoFixoValor);
  }

  /** With non-negative amounts the total shown is at most the fixed-cost
      total. */
  lemma TotalBounds(cs: seq<CustoFixo>, term: string)
    requires forall i :: 0 <= i < |cs| ==> cs[i].valor >= 0.0
    ensures 0.0 <= TotalCustos(cs, term) <= Sum(cs, CustoFixoValor)
  {
    SearchTotalBounds(cs, CustoNome, term, CustoFixoValor);
  }

  /** A submitted cost raises the fixed-cost total by its amount, and the
      total shown, and the count by one, when the search matches its name. */
  lemma SubmitAdds(store: seq<CustoFixo>, f: Form, parsed: real, freshId: string, term: string)
    requires Filled(f)
    ensures var after := Submit(store, f, parsed, freshId).0;
      && Sum(after, CustoFixoValor) == Sum(store, CustoFixoValor) + parsed
      && TotalCustos(after, term)
         == TotalCustos(store, term) + (if MatchesSearch(f.nome, term) then parsed else 0.0)
      && Quantidade(after, term) == Quantidade(store, term) + (if MatchesSearch(f.nome, term) then 1 else 0)
  {
    var x := CustoFixo(freshId, f.nome, parsed, f.data);
    SumSnoc(store, x, CustoFixoValor);
    SearchAppend(store, x, CustoNome, term, CustoFixoValor);
  }
}

=== FILE: custos_variaveis.dfy ===
/** The variable-costs page (`CustosVariaveis`), over the in-memory data
    hook: the list searched by category, its total and count, the amounts
    per category, and the form that appends a cost. */
module CustosVariaveis {
  import opened Common
  import opened Text
  import opened Listing
  import opened Grouping
  import opened FinancialData

  function Categoria(c: CustoVariavel): string { c.categoria }

  /** `filteredCustos`: the search is on the category. */
  function Filtered(d: Data, term: string): seq<CustoVariavel> {
    Search(d.custosVariaveis, Categoria, term)
  }

  /** "Total de Custos Variáveis": the amount of the costs shown. Without
      a search it is the variable-cost total; with non-negative amounts it
      never exceeds it. */
  function TotalCustos(d: Data, term: string): (r: real)
    ensures term == "" ==> r == Sum(d.custosVariaveis, CustoVariavelValor)
    ensures (forall i :: 0 <= i < |d.custosVariaveis| ==> d.custosVariaveis[i].valor >= 0.0)
        ==> 0.0 <= r <= Sum(d.custosVariaveis, CustoVariavelValor)
  {
    var cs := d.custosVariaveis;
    EmptySearchKeepsAll(cs, Categoria, CustoVariavelValor);
    if forall i :: 0 <= i < |cs| ==> cs[i].valor >= 0.0 then
      SearchTotalBounds(cs, Categoria, term, CustoVariavelValor);
      SearchTotal(cs, Categoria, term, CustoVariavelValor)
    else
      SearchTotal(cs, Categoria, term, CustoVariavelValor)
  }

  /** "Número de Itens": how many costs the search on the category shows. */
  function Quantidade(d: Data, term: string): (n: nat)
    ensures n <= |d.custosVariaveis|
    ensures n == |set i | 0 <= i < |d.custosVariaveis| && MatchesSearch(d.custosVariaveis[i].categoria, term)|
  {
    FilterCount(d.custosVariaveis, FieldMatches(Categoria, term));
    var cs := d.custosVariaveis;
    assert Positions(cs, FieldMatches(Categoria, term))
        == set i | 0 <= i < |cs| && MatchesSearch(cs[i].categoria, term) by {
      forall i | 0 <= i < |cs| ensures FieldMatches(Categoria, term)(cs[i]) == MatchesSearch(cs[i].categoria, term) {
        assert Categoria(cs[i]) == cs[i].categoria;
      }
    }
    |Filtered(d, term)|
  }

  /** `custoPorCategoria`: every cost, whatever the search, summed per
      category. */
  function PorCategoria(d: Data): (r: seq<Entry>)
    ensures Distinct(Map(r, EntryKey))
    ensures Sum(r, EntryTotal) == Sum(d.custosVariaveis, CustoVariavelValor)
  {
    SumByKeyDistinct(d.custosVariaveis, Categoria, CustoVariavelValor);
    SumByKeyConserves(d.custosVariaveis, Categoria, CustoVariavelValor);
    SumByKey(d.custosVariaveis, Categoria, CustoVariavelValor)
  }

  datatype Form = Form(categoria: string, valor: string, data: string)

  function EmptyForm(): Form { Form("", "", "") }

  predicate Filled(f: Form) {
    f.categoria != "" && f.valor != "" && f.data != ""
  }

  /** `handleSubmit`: with the three fields filled, one cost is appended and
      the form emptied; otherwise nothing changes. `parsed` is
      `parseFloat(form.valor)` and `id` the new record's id. */
  function Submit(d: Data, f: Form, parsed: real, id: string): (r: (Data, Form))
    ensures !Filled(f) ==> r == (d, f)
    ensures Filled(f) ==> r.1 == EmptyForm() && |r.0.custosVariaveis| == |d.custosVariaveis| + 1
    ensures r.0.(custosVariaveis := d.custosVariaveis) == d
  {
    if Filled(f) then (AddCustoVariavel(d, f.categoria, parsed, f.data, id), EmptyForm()) else (d, f)
  }

  // =====================================================================
  // Properties

  /** Without a search every cost is listed and the total is the summary's
      variable-cost total. */
  lemma EmptySearchShowsAll(d: Data)
    ensures Quantidade(d, "") == |d.custosVariaveis|
    ensures TotalCustos(d, "") == CalculateSummary(d).custosVariaveisTotal
  {
    EmptySearchKeepsAll(d.custosVariaveis, Categoria, CustoVariavelValor);
  }

  /** The per-category amounts add up to the variable-cost total, whatever
      the search shows. */
  lemma PorCategoriaConserves(d: Data)
    ensures Sum(PorCategoria(d), EntryTotal) == CalculateSummary(d).custosVariaveisTotal
  {
    SumByKeyConserves(d.custosVariaveis, Categoria, CustoVariavelValor);
  }

  /** Each category's amount is the total of the costs in it. */
  lemma PorCategoriaLookup(d: Data, categoria: string)
    ensures Lookup(PorCategoria(d), categoria)
         == Sum(Filter(d.custosVariaveis, HasKey(Categoria, categoria)), CustoVariavelValor)
  {
    LookupTotal(d.custosVariaveis, Categoria, CustoVariavelValor, categoria);
  }

  /** A submitted cost raises its category's amount and the variable-cost
      total by its amount, and leaves every other category's amount. */
  lemma SubmitAdds(d: Data, f: Form, parsed: real, id: string, other: string)
    requires Filled(f) && other != f.categoria
    ensures var after := Submit(d, f, parsed, id).0;
      && Lookup(PorCategoria(after), f.categoria) == Lookup(PorCategoria(d), f.categoria) + parsed
      && Lookup(PorCategoria(after), other) == Lookup(PorCategoria(d), other)
      && CalculateSummary(after).custosVariaveisTotal == CalculateSummary(d).custosVariaveisTotal + parsed
  {
    var cs := d.custosVariaveis;
    var x := CustoVariavel(id, f.categoria, parsed, f.data);
    assert Submit(d, f, parsed, id).0.custosVariaveis == cs + [x];
    LookupSnoc(cs, x, Categoria, CustoVariavelValor, f.categoria);
    LookupSnoc(cs, x, Categoria, CustoVariavelValor, other);
    SumSnoc(cs, x, CustoVariavelValor);
  }

  /** A submitted cost is listed, adding its amount to the total shown and
      one to the count, exactly when the search matches its category. */
  lemma SubmitShows(d: Data, f: Form, parsed: real, id: string, term: string)
    requires Filled(f)
    ensures var after := Submit(d, f, parsed, id).0;
      && TotalCustos(after, term)
         == TotalCustos(d, term) + (if MatchesSearch(f.categoria, term) then parsed else 0.0)
      && Quantidade(after, term) == Quantidade(d, term) + (if MatchesSearch(f.categoria, term) then 1 else 0)
  {
    var x := CustoVariavel(id, f.categoria, parsed, f.data);
    assert Submit(d, f, parsed, id).0.custosVariaveis == d.custosVariaveis + [x];
    SearchAppend(d.custosVariaveis, x, Categoria, term, CustoVariavelValor);
  }
}

=== FILE: datefilter.dfy ===
/** The date-range filter (`DateFilter`): two date inputs, the presets
    that fill both ("last n days", "current month", "previous month"), the
    button that clears them, and the rule for when the chosen range is
    passed on to the page through `onDateChange`.

    The inputs hold `YYYY-MM-DD` text, `""` when empty. "Today" is the
    `new Date()` of the handler, given as a parameter. A preset whose date
    falls outside the TimeClip range is an Invalid Date, and its
    `toISOString()` throws: the handler then changes nothing and passes
    nothing on. */
module DateFilter {
  import opened Common
  import opened Calendar

  datatype Range = Range(start: string, end: string)

  /** Both bounds set. */
  predicate Complete(r: Range) {
    r.start != "" && r.end != ""
  }

  /** What a handler leaves: the text the two inputs show, and the range
      handed to `onDateChange`, if it was called. */
  datatype Step = Step(shown: Range, emitted: Option<Range>)

  /** A preset: both dates shown in ISO form and passed on. */
  function Preset(a: Date, b: Date): (r: Step)
    requires ValidDate(a) && ValidDate(b)
    ensures Complete(r.shown) && r.emitted == Some(r.shown)
    ensures r.shown == Range(IsoDate(a), IsoDate(b))
  {
    var shown := Range(IsoDate(a), IsoDate(b));
    Step(shown, Some(shown))
  }

  // ---------------------------------------------------------------------
  // The handlers

  /** Mounting: each input starts with its initial value (`""` when it is
      missing), and the effect passes the pair on only when both are
      given. */
  function Init(initialStart: string, initialEnd: string): (r: Step)
    ensures r.shown == Range(initialStart, initialEnd)
    ensures r.emitted.Some? <==> initialStart != "" && initialEnd != ""
    ensures r.emitted.Some? ==> r.emitted.value == r.shown
  {
    var shown := Range(initialStart, initialEnd);
    Step(shown, if Complete(shown) then Some(shown) else None)
  }

  /** The same effect run again when the initial values change: with both
      given they replace what is shown and are passed on; otherwise nothing
      happens. */
  function PropsChanged(cur: Range, initialStart: string, initialEnd: string): (r: Step)
    ensures initialStart != "" && initialEnd != "" ==>
      r == Step(Range(initialStart, initialEnd), Some(Range(initialStart, initialEnd)))
    ensures !(initialStart != "" && initialEnd != "") ==> r == Step(cur, None)
  {
    if initialStart != "" && initialEnd != "" then
      Step(Range(initialStart, initialEnd), Some(Range(initialStart, initialEnd)))
    else Step(cur, None)
  }

  /** `handleQuickFilter(days)`: the start is today moved back `days` days
      with `setDate`; `None` is an Invalid Date. */
  function QuickFilterStart(today: Date, days: int): (r: Option<Date>)
    requires ValidDate(today)
    ensures r.Some? <==> InTimeRange(DayNumber(today) - days)
    ensures r.Some? ==> ValidDate(r.value) && DayNumber(r.value) == DayNumber(today) - days
  {
    assert (today.month - 1) / 12 == 0 && (today.month - 1) % 12 == today.month - 1;
    SetDate(today, today.day - days)
  }

  /** `handleCurrentMonth`: day 1 of this month, and day 0 of the next. */
  function CurrentMonthDates(today: Date): (r: Option<(Date, Date)>)
    requires ValidDate(today)
    ensures r.Some? ==> ValidDate(r.value.0) && ValidDate(r.value.1)
  {
    var start := NewDate(Some(today.year), Some(today.month - 1), 1);
    var end := NewDate(Some(today.year), Some(today.month), 0);
    if start.Some? && end.Some? then Some((start.value, end.value)) else None
  }

  /** `handlePreviousMonth`: day 1 of the month before, and day 0 of this
      month. */
  function PreviousMonthDates(today: Date): (r: Option<(Date, Date)>)
    requires ValidDate(today)
    ensures r.Some? ==> ValidDate(r.value.0) && ValidDate(r.value.1)
  {
    var start := NewDate(Some(today.year), Some(today.month - 2), 1);
    var end := NewDate(Some(today.year), Some(today.month - 1), 0);
    if start.Some? && end.Some? then Some((start.value, end.value)) else None
  }

  /** The start input's `onChange`: the new start is shown, and passed on
      with the end only when an end is set. */
  function EditStart(cur: Range, v: string): (r: Step)
    ensures r.shown == Range(v, cur.end)
    ensures r.emitted.Some? <==> cur.end != ""
    ensures r.emitted.Some? ==> r.emitted.value == r.shown
  {
    Step(Range(v, cur.end), if cur.end != "" then Some(Range(v, cur.end)) else None)
  }

  /** The end input's `onChange`, symmetrically. */
  function EditEnd(cur: Range, v: string): (r: Step)
    ensures r.shown == Range(cur.start, v)
    ensures r.emitted.Some? <==> cur.start != ""
    ensures r.emitted.Some? ==> r.emitted.value == r.shown
  {
    Step(Range(cur.start, v), if cur.start != "" then Some(Range(cur.start, v)) else None)
  }

  /** `handleClearFilter`: both inputs emptied and the empty pair passed on. */
  function Clear(): (r: Step)
    ensures !Complete(r.shown) && r.emitted == Some(Range("", ""))
  {
    Step(Range("", ""), Some(Range("", "")))
  }

  datatype Event =
    | NewInitial(initialStart: string, initialEnd: string)
    | QuickFilter(days: int)
    | CurrentMonth
    | PreviousMonth
    | ClearFilter
    | StartInput(value: string)
    | EndInput(value: string)

  /** One event; `None` when the handler throws. */
  function Handle(cur: Range, today: Date, e: Event): (r: Option<Step>)
    requires ValidDate(today)
    ensures r.Some? && r.value.emitted.Some? ==> r.value.emitted.value == r.value.shown
    ensures r.Some? && Complete(r.value.shown) && r.value.emitted.None? ==> r.value.shown == cur
  {
    match e
    case NewInitial(a, b) => Some(PropsChanged(cur, a, b))
    case QuickFilter(days) =>
      var start := QuickFilterStart(today, days);
      if start.Some? then Some(Preset(start.value, today)) else None
    case CurrentMonth =>
      var ds := CurrentMonthDates(today);
      if ds.Some? then Some(Preset(ds.value.0, ds.value.1)) else None
    case PreviousMonth =>
      var ds := PreviousMonthDates(today);
      if ds.Some? then Some(Preset(ds.value.0, ds.value.1)) else None
    case ClearFilter => Some(Clear())
    case StartInput(v) => Some(EditStart(cur, v))
    case EndInput(v) => Some(EditEnd(cur, v))
  }

  function Emissions(o: Option<Range>): seq<Range> {
    if o.Some? then [o.value] else []
  }

  /** A session: mounted with the initial values, then the events in
      order; the range shown at the end, and every range passed on. */
  function Session(today: Date, initialStart: string, initialEnd: string, es: seq<Event>): (r: (Range, seq<Range>))
    requires ValidDate(today)
    ensures |r.1| <= |es| + 1
  {
    if |es| == 0 then
      var init := Init(initialStart, initialEnd);
      (init.shown, Emissions(init.emitted))
    else
      var before := Session(today, initialStart, initialEnd, DropLast(es));
      var step := Handle(before.0, today, Last(es));
      if step.None? then before
      else (step.value.shown, before.1 + Emissions(step.value.emitted))
  }

  // ---------------------------------------------------------------------
  // Properties

  /** Whenever both inputs show a date, the page was last handed exactly
      that range: the page never works with a range other than a complete
      one the user sees. */
  lemma {:induction false} PageKnowsCompleteRange(today: Date, initialStart: string, initialEnd: string, es: seq<Event>)
    requires ValidDate(today)
    ensures var r := Session(today, initialStart, initialEnd, es);
      Complete(r.0) ==> |r.1| > 0 && Last(r.1) == r.0
  {
    if |es| > 0 {
      var before := Session(today, initialStart, initialEnd, DropLast(es));
      var step := Handle(before.0, today, Last(es));
      PageKnowsCompleteRange(today, initialStart, initialEnd, DropLast(es));
      if step.Some? && step.value.emitted.Some? {
        assert Session(today, initialStart, initialEnd, es).1 == before.1 + [step.value.shown];
      }
    }
  }

  /** The quick filter spans exactly `days` days back from today; for the
      three buttons (7, 15 and 30 days) and a four-digit year it always
      succeeds. */
  lemma QuickFilterDistance(today: Date, days: int)
    requires ValidDate(today) && 101 <= today.year <= 9999 && 0 <= days <= 365
    ensures QuickFilterStart(today, days).Some?
    ensures var start := QuickFilterStart(today, days).value;
      && DayNumber(start) + days == DayNumber(today)
      && (days > 0 ==> DateBefore(start, today))
  {
    DayNumberWithinYear(today);
    DayFromYearGrowth(100, today.year - 1);
    YearLength(today.year - 1);
    FourDigitYearsInRange(today);
    var start := QuickFilterStart(today, days).value;
    if days > 0 && !DateBefore(start, today) {
      if start != today {
        DayNumberOrder(today, start);
      }
    }
  }

  /** Moving back fewer days than today's day of month stays in this
      month. */
  lemma QuickFilterSameMonth(today: Date, days: int)
    requires ValidDate(today) && 0 <= days < today.day
    ensures InTimeRange(DayNumber(today) - days) ==>
      QuickFilterStart(today, days) == Some(Date(today.year, today.month, today.day - days))
  {
    if InTimeRange(DayNumber(today) - days) {
      var target := Date(today.year, today.month, today.day - days);
      DayNumberInjective(QuickFilterStart(today, days).value, target);
    }
  }

  /** Moving back at least today's day of month, but less than a month,
      lands in the previous month (December of the year before, in
      January), counted back from its last day. */
  lemma QuickFilterPreviousMonth(today: Date, days: int, py: int, pm: int)
    requires ValidDate(today) && (py, pm) == PrevMonth(today.year, today.month)
    requires today.day <= days < today.day + DaysInMonth(py, pm)
    requires InTimeRange(DayNumber(today) - days)
    ensures QuickFilterStart(today, days) == Some(Date(py, pm, DaysInMonth(py, pm) + today.day - days))
  {
    var target := Date(py, pm, DaysInMonth(py, pm) + today.day - days);
    assert NextMonth(py, pm) == (today.year, today.month);
    MonthLength(py, pm);
    assert DayNumber(target) == DayNumber(today) - days;
    DayNumberInjective(QuickFilterStart(today, days).value, target);
  }

  /** `new Date(y, m - 1, 1)` is the first of month `m`. */
  lemma FirstOfMonth(y: int, m: int)
    requires 100 <= y <= 9999 && 1 <= m <= 12
    ensures NewDate(Some(y), Some(m - 1), 1) == Some(Date(y, m, 1))
  {
    MakeDayInYear(y, m, 1);
    NormalizeValid(Date(y, m, 1));
    FourDigitYearsInRange(Date(y, m, 1));
    NewDateIsMakeDay(y, m - 1, 1);
  }

  /** `new Date(y, m, 0)` is the last day of month `m`. */
  lemma LastOfMonth(y: int, m: int)
    requires 100 <= y <= 9999 && 1 <= m <= 12
    ensures NewDate(Some(y), Some(m), 0) == Some(Date(y, m, DaysInMonth(y, m)))
  {
    var (ny, nm) := NextMonth(y, m);
    MakeDayMonthAfter(y, m, 0);
    DayZeroIsPreviousMonthEnd(ny, nm);
    assert PrevMonth(ny, nm) == (y, m);
    FourDigitYearsInRange(Date(y, m, DaysInMonth(y, m)));
    NewDateIsMakeDay(y, m, 0);
  }

  /** `new Date(y, m - 2, 1)` is the first of the month before `m`. */
  lemma FirstOfPreviousMonth(y: int, m: int)
    requires 101 <= y <= 9999 && 1 <= m <= 12
    ensures NewDate(Some(y), Some(m - 2), 1) == Some(Date(PrevMonth(y, m).0, PrevMonth(y, m).1, 1))
  {
    var (py, pm) := PrevMonth(y, m);
    MakeDayMonthBefore(y, m, 1);
    NormalizeValid(Date(py, pm, 1));
    FourDigitYearsInRange(Date(py, pm, 1));
    NewDateIsMakeDay(y, m - 2, 1);
  }

  /** `new Date(y, m - 1, 0)` is the last day of the month before `m`. */
  lemma LastOfPreviousMonth(y: int, m: int)
    requires 101 <= y <= 9999 && 1 <= m <= 12
    ensures NewDate(Some(y), Some(m - 1), 0)
         == Some(Date(PrevMonth(y, m).0, PrevMonth(y, m).1, DaysInMonth(PrevMonth(y, m).0, PrevMonth(y, m).1)))
  {
    var (py, pm) := PrevMonth(y, m);
    MakeDayInYear(y, m, 0);
    DayZeroIsPreviousMonthEnd(y, m);
    FourDigitYearsInRange(Date(py, pm, DaysInMonth(py, pm)));
    NewDateIsMakeDay(y, m - 1, 0);
  }

  /** "Current month" is the 1st through the last day of today's month,
      the 29th of February in a leap year. */
  lemma CurrentMonthSpan(today: Date)
    requires ValidDate(today) && 100 <= today.year <= 9999
    ensures CurrentMonthDates(today)
         == Some((Date(today.year, today.month, 1), Date(today.year, today.month, DaysInMonth(today.year, today.month))))
    ensures today.month == 2 && IsLeapYear(today.year) ==>
      CurrentMonthDates(today).value.1 == Date(today.year, 2, 29)
  {
    FirstOfMonth(today.year, today.month);
    LastOfMonth(today.year, today.month);
  }

  /** "Previous month" is the 1st through the last day of the month before
      today's, December of the year before in January. */
  lemma PreviousMonthSpan(today: Date, py: int, pm: int)
    requires ValidDate(today) && 101 <= today.year <= 9999
    requires (py, pm) == PrevMonth(today.year, today.month)
    ensures PreviousMonthDates(today) == Some((Date(py, pm, 1), Date(py, pm, DaysInMonth(py, pm))))
  {
    var y, m := today.year, today.month;
    FirstOfPreviousMonth(y, m);
    LastOfPreviousMonth(y, m);
    var start := NewDate(Some(y), Some(m - 2), 1);
    var end := NewDate(Some(y), Some(m - 1), 0);
    assert start == Some(Date(py, pm, 1));
    assert end == Some(Date(py, pm, DaysInMonth(py, pm)));
  }

  /** The previous month ends the day before the current month starts. */
  lemma PreviousMonthAdjoins(today: Date)
    requires ValidDate(today) && 101 <= today.year <= 9999
    ensures PreviousMonthDates(today).Some? && CurrentMonthDates(today).Some?
    ensures DayNumber(PreviousMonthDates(today).value.1) + 1 == DayNumber(CurrentMonthDates(today).value.0)
  {
    var y, m := today.year, today.month;
    var (py, pm) := PrevMonth(y, m);
    PreviousMonthSpan(today, py, pm);
    CurrentMonthSpan(today);
    assert NextMonth(py, pm) == (y, m);
    MonthLength(py, pm);
    assert DayNumber(Date(py, pm, DaysInMonth(py, pm))) + 1 == DayNumber(Date(y, m, 1));
  }

  /** After clearing, editing one input passes nothing on until the other
      is set too. */
  lemma ClearThenEditSilent(v: string)
    ensures EditStart(Clear().shown, v).emitted.None?
    ensures EditEnd(Clear().shown, v).emitted.None?
  {
  }
}

=== FILE: despesas.dfy ===
/** Recurring expenses: the templates (`despesas_modelo`), the monthly
    expenses stamped from them (`despesas_mensais`), marking an expense paid
    and the date-range fetch.

    The database is modelled as plain sequences of rows in storage order;
    the query builder calls become filters and sorts over them. Dates are
    `YYYY-MM-DD` strings, as the `date` columns hand them to the page. */
module Despesas {
  import opened Common
  import opened Text
  import opened Sorting
  import opened Calendar

  /** A row of `despesas_mensais`. `dataPagamento` is `None` while unpaid. */
  datatype Expense = Expense(
    id: string,
    descricao: string,
    categoria: string,
    valor: real,
    dataVencimento: string,
    dataPagamento: Option<string>,
    mesReferencia: string)

  /** A row of `despesas_modelo`: a recurring expense due on a fixed day of
      every month while `ativo`. */
  datatype Template = Template(
    id: string,
    descricao: string,
    categoria: string,
    valor: real,
    diaVencimento: int,
    ativo: bool)

  /** The fields generation sends to the insert: no id, no payment date. */
  datatype Draft = Draft(
    descricao: string,
    categoria: string,
    valor: real,
    dataVencimento: string,
    mesReferencia: string)

  /** The outcome of generating a month: the inserted batch, nothing to
      insert (no active template), or the RangeError `toISOString` throws on
      an Invalid Date, before anything is inserted. */
  datatype Outcome = Batch(drafts: seq<Draft>) | NoTemplates | InvalidDate

  /** Whether `data_pagamento` is truthy: absent and `""` both count as unpaid. */
  predicate IsPaid(e: Expense) {
    e.dataPagamento.Some? && e.dataPagamento.value != ""
  }

  /** The `.eq('ativo', true)` fetch. */
  function ActiveTemplates(ts: seq<Template>): seq<Template> {
    Filter(ts, (t: Template) => t.ativo)
  }

  // ---------------------------------------------------------------------
  // Generating a month

  /** The year and 0-based month index given to `new Date`: the text before
      the first "/" is the month, the text after it (up to a second "/") is
      the year; `None` is NaN, which also covers a missing year. */
  function ReferenceArgs(ref: string): (r: (Option<int>, Option<int>))
    ensures '/' !in ref ==> r.0.None?
  {
    var parts := Split(ref, '/');
    assert '/' !in ref ==> |parts| == 1 by {
      if '/' !in ref {
        SplitNone(ref, '/');
      }
    }
    var mes := ParseInt(parts[0]);
    var ano := if |parts| >= 2 then ParseInt(parts[1]) else None;
    (ano, if mes.Some? then Some(mes.value - 1) else None)
  }

  /** The `YYYY-MM-DD` due date of a template in the reference month, or
      `None` when the date is invalid and formatting it throws: a reference
      without a parsable month or year never gives a date, and a date given
      is the text of a valid calendar date in the time range. */
  function DueDate(t: Template, ref: string): (r: Option<string>)
    ensures ReferenceArgs(ref).0.None? || ReferenceArgs(ref).1.None? ==> r.None?
    ensures r.Some? ==> exists d :: ValidDate(d) && InTimeRange(DayNumber(d)) && r.value == IsoDate(d)
  {
    var (y, mi) := ReferenceArgs(ref);
    match NewDate(y, mi, t.diaVencimento)
    case None => None
    case Some(d) =>
      assert ValidDate(d) && InTimeRange(DayNumber(d)) && IsoDate(d) == IsoDate(d);
      Some(IsoDate(d))
  }

  /** `d` is the monthly expense generation builds from `t` for `ref`. */
  predicate StampedFrom(d: Draft, t: Template, ref: string) {
    && d.descricao == t.descricao
    && d.categoria == t.categoria
    && d.valor == t.valor
    && d.mesReferencia == ref
    && DueDate(t, ref) == Some(d.dataVencimento)
  }

  /** The draft of one template, or `None` when its due date is invalid. */
  function Stamp(t: Template, ref: string): Option<Draft> {
    match DueDate(t, ref)
    case None => None
    case Some(due) => Some(Draft(t.descricao, t.categoria, t.valor, due, ref))
  }

  /** The map over the fetched templates; `None` when one of them throws. */
  function StampAll(ts: seq<Template>, ref: string): (r: Option<seq<Draft>>)
    ensures r.Some? <==> forall i :: 0 <= i < |ts| ==> DueDate(ts[i], ref).Some?
    ensures r.Some? ==> |r.value| == |ts|
    ensures r.Some? ==> forall i :: 0 <= i < |ts| ==> StampedFrom(r.value[i], ts[i], ref)
  {
    TryMapSpec(ts, t => Stamp(t, ref));
    TryMap(ts, t => Stamp(t, ref))
  }

  /** `useGerarNovoMes`: one draft per active template, in fetch order. */
  function GenerateMonth(templates: seq<Template>, ref: string): (r: Outcome)
    ensures r.NoTemplates? <==> |ActiveTemplates(templates)| == 0
    ensures r.InvalidDate? <==>
      exists i :: 0 <= i < |ActiveTemplates(templates)| && DueDate(ActiveTemplates(templates)[i], ref).None?
    ensures r.Batch? ==>
      && |r.drafts| == |ActiveTemplates(templates)|
      && forall i :: 0 <= i < |r.drafts| ==> StampedFrom(r.drafts[i], ActiveTemplates(templates)[i], ref)
  {
    match StampAll(ActiveTemplates(templates), ref)
    case None => InvalidDate
    case Some(ds) => if |ds| > 0 then Batch(ds) else NoTemplates
  }

  /** The row the database stores for a draft: a fresh id and no payment. */
  function Stored(d: Draft, id: string): (e: Expense)
    ensures !IsPaid(e)
  {
    Expense(id, d.descricao, d.categoria, d.valor, d.dataVencimento, None, d.mesReferencia)
  }

  /** The number of rows an outcome inserts. */
  function BatchSize(o: Outcome): nat {
    if o.Batch? then |o.drafts| else 0
  }

  /** An outcome applied to the monthly table. The database hands out the
      ids (`newId` of the row's position); a failure leaves the table as it
      was and is reported as `None`. */
  function Apply(monthly: seq<Expense>, o: Outcome, newId: nat -> string): (r: Option<seq<Expense>>)
    ensures r.None? <==> o.InvalidDate?
    ensures r.Some? ==>
      && |r.value| == |monthly| + BatchSize(o)
      && r.value[..|monthly|] == monthly
      && forall i :: |monthly| <= i < |r.value| ==>
           && r.value[i] == Stored(o.drafts[i - |monthly|], newId(i))
           && !IsPaid(r.value[i])
  {
    match o
    case InvalidDate => None
    case NoTemplates => Some(monthly)
    case Batch(ds) =>
      var added := seq(|ds|, i requires 0 <= i < |ds| => Stored(ds[i], newId(|monthly| + i)));
      assert (monthly + added)[..|monthly|] == monthly;
      Some(monthly + added)
  }

  /** `useGerarNovoMes` followed by the insert. Generation reads only the
      templates, never the monthly table: it fails, changing nothing, when
      an active template's due date is invalid; otherwise the old rows stay
      and one unpaid row per active template, in template order, follows
      them, stamped with the reference month. */
  function RunGeneration(monthly: seq<Expense>, templates: seq<Template>, ref: string, newId: nat -> string): (r: Option<seq<Expense>>)
    ensures r.None? <==>
      exists i :: 0 <= i < |ActiveTemplates(templates)| && DueDate(ActiveTemplates(templates)[i], ref).None?
    ensures r.Some? ==>
      && |r.value| == |monthly| + |ActiveTemplates(templates)|
      && r.value[..|monthly|] == monthly
      && forall i :: |monthly| <= i < |r.value| ==>
           var t := ActiveTemplates(templates)[i - |monthly|];
           && !IsPaid(r.value[i])
           && r.value[i].mesReferencia == ref
           && r.value[i].descricao == t.descricao
           && r.value[i].categoria == t.categoria
           && r.value[i].valor == t.valor
           && DueDate(t, ref) == Some(r.value[i].dataVencimento)
  {
    Apply(monthly, GenerateMonth(templates, ref), newId)
  }

  /** The number of monthly expenses for a reference month. */
  function CountMonth(monthly: seq<Expense>, ref: string): nat {
    |Filter(monthly, (e: Expense) => e.mesReferencia == ref)|
  }

  // ---------------------------------------------------------------------
  // Properties of generation

  /** Inactive templates are invisible to generation. */
  lemma InactiveIgnored(templates: seq<Template>, t: Template, ref: string)
    requires !t.ativo
    ensures GenerateMonth(templates + [t], ref) == GenerateMonth(templates, ref)
  {
    assert DropLast(templates + [t]) == templates;
  }

  /** With at least one active template, a reference month that does not
      start with a number, or has no parsable year after the "/", fails. */
  lemma UnparsableReferenceFails(templates: seq<Template>, ref: string)
    requires |ActiveTemplates(templates)| > 0
    requires ReferenceArgs(ref).0.None? || ReferenceArgs(ref).1.None?
    ensures GenerateMonth(templates, ref) == InvalidDate
  {
    assert DueDate(ActiveTemplates(templates)[0], ref).None?;
  }

  /** A reference month written as two-digit month, "/" and year reads
      back as that year and month index. */
  lemma ReferenceArgsOf(mm: nat, yyyy: int)
    ensures ReferenceArgs(PadNumber(mm, 2) + "/" + IntToString(yyyy)) == (Some(yyyy), Some(mm - 1))
  {
    var a, b := PadNumber(mm, 2), IntToString(yyyy);
    PadZerosValue(DigitString(mm), 2);
    assert '/' !in a by {
      assert AllDigits(a);
    }
    assert '/' !in b;
    SplitTwo(a, b, '/');
    assert a + "/" + b == a + ['/'] + b;
    PadNumberRoundTrip(mm, 2);
    IntToStringRoundTrip(yyyy);
  }

  /** How a due date comes out of a well-formed reference month. */
  lemma DueDateOf(t: Template, mm: nat, yyyy: nat, d: Date)
    requires yyyy >= 100 && MakeDay(yyyy, mm - 1, t.diaVencimento) == d
    requires ValidDate(d) && 100 <= d.year <= 9999
    ensures DueDate(t, PadNumber(mm, 2) + "/" + IntToString(yyyy)) == Some(IsoDate(d))
  {
    ReferenceArgsOf(mm, yyyy);
    FourDigitYearsInRange(d);
    NewDateIsMakeDay(yyyy, mm - 1, t.diaVencimento);
  }

  /** The due date of a well-formed reference month is that month's day
      `diaVencimento` whenever the month has such a day. */
  lemma DueDateInMonth(t: Template, mm: nat, yyyy: nat)
    requires 1 <= mm <= 12 && 100 <= yyyy <= 9999
    requires 1 <= t.diaVencimento <= DaysInMonth(yyyy, mm)
    ensures DueDate(t, PadNumber(mm, 2) + "/" + IntToString(yyyy))
         == Some(IsoDate(Date(yyyy, mm, t.diaVencimento)))
  {
    MakeDayInYear(yyyy, mm, t.diaVencimento);
    NormalizeValid(Date(yyyy, mm, t.diaVencimento));
    DueDateOf(t, mm, yyyy, Date(yyyy, mm, t.diaVencimento));
  }

  /** A due day past the end of the month rolls into the next month: day
      31 of a 30-day month is the 1st of the following one. */
  lemma DueDateOverflow(t: Template, mm: nat, yyyy: nat)
    requires 1 <= mm <= 11 && 100 <= yyyy <= 9999
    requires DaysInMonth(yyyy, mm) < t.diaVencimento <= DaysInMonth(yyyy, mm) + DaysInMonth(yyyy, mm + 1)
    ensures DueDate(t, PadNumber(mm, 2) + "/" + IntToString(yyyy))
         == Some(IsoDate(Date(yyyy, mm + 1, t.diaVencimento - DaysInMonth(yyyy, mm))))
  {
    MakeDayOverflow(yyyy, mm, t.diaVencimento);
    DueDateOf(t, mm, yyyy, Date(yyyy, mm + 1, t.diaVencimento - DaysInMonth(yyyy, mm)));
  }

  lemma Year2024Text()
    ensures IntToString(2024) == "2024" && PadNumber(2024, 4) == "2024"
  {
    assert DigitString(2) == "2";
    assert DigitString(20) == "20";
    assert DigitString(202) == "202";
    assert DigitString(2024) == "2024";
  }

  lemma April2024Overflow(t: Template)
    requires t.diaVencimento == 31
    ensures DueDate(t, PadNumber(4, 2) + "/" + IntToString(2024)) == Some(IsoDate(Date(2024, 5, 1)))
  {
    assert DaysInMonth(2024, 4) == 30 && DaysInMonth(2024, 5) == 31;
    DueDateOverflow(t, 4, 2024);
  }

  lemma ExampleTexts()
    ensures "04/2024" == PadNumber(4, 2) + "/" + IntToString(2024)
    ensures "07/2024" == PadNumber(7, 2) + "/" + IntToString(2024)
    ensures IsoDate(Date(2024, 5, 1)) == "2024-05-01"
    ensures IsoDate(Date(2024, 7, 5)) == "2024-07-05"
  {
    Year2024Text();
    assert PadNumber(4, 2) == "04" && PadNumber(7, 2) == "07";
    assert PadNumber(5, 2) == "05" && PadNumber(1, 2) == "01";
  }

  /** Day 31 in April 2024 falls due on 1 May. */
  lemma OverflowExample(t: Template)
    requires t.diaVencimento == 31
    ensures DueDate(t, "04/2024") == Some("2024-05-01")
  {
    ExampleTexts();
    April2024Overflow(t);
  }

  /** Day 5 in July 2024 falls due on 5 July. */
  lemma InMonthExample(t: Template)
    requires t.diaVencimento == 5
    ensures DueDate(t, "07/2024") == Some("2024-07-05")
  {
    ExampleTexts();
    DueDateInMonth(t, 7, 2024);
  }

  /** Generating twice for the same month stores two full batches: nothing
      checks what is already there. */
  lemma GenerateTwice(monthly: seq<Expense>, templates: seq<Template>, ref: string, newId: nat -> string)
    requires RunGeneration(monthly, templates, ref, newId).Some?
    ensures var once := RunGeneration(monthly, templates, ref, newId).value;
      && RunGeneration(once, templates, ref, newId).Some?
      && CountMonth(RunGeneration(once, templates, ref, newId).value, ref)
         == CountMonth(monthly, ref) + 2 * |ActiveTemplates(templates)|
  {
    var o := GenerateMonth(templates, ref);
    assert BatchSize(o) == |ActiveTemplates(templates)|;
    var once := Apply(monthly, o, newId).value;
    var twice := Apply(once, o, newId).value;
    BatchCount(monthly, once, o, ref, newId);
    BatchCount(once, twice, o, ref, newId);
  }

  /** Applying a batch stamped for `ref` raises that month's count by the
      batch size. */
  lemma BatchCount(before: seq<Expense>, after: seq<Expense>, o: Outcome, ref: string, newId: nat -> string)
    requires Apply(before, o, newId) == Some(after)
    requires o.Batch? ==> forall i :: 0 <= i < |o.drafts| ==> o.drafts[i].mesReferencia == ref
    ensures CountMonth(after, ref) == CountMonth(before, ref) + BatchSize(o)
  {
    var p := (e: Expense) => e.mesReferencia == ref;
    var added := after[|before|..];
    assert after == before + added;
    FilterAppend(before, added, p);
    forall i | 0 <= i < |added| ensures p(added[i]) {
      assert added[i] == after[|before| + i] == Stored(o.drafts[i], newId(|before| + i));
    }
    FilterAll(added, p);
  }

  // ---------------------------------------------------------------------
  // Marking paid

  /** `useMarcarComoPago` on one row: sets the payment date to today. */
  function MarkPaid(e: Expense, today: Date): (r: Expense)
    requires ValidDate(today)
    ensures IsPaid(r)
    ensures r.dataPagamento == Some(IsoDate(today))
    ensures r.(dataPagamento := e.dataPagamento) == e
  {
    e.(dataPagamento := Some(IsoDate(today)))
  }

  /** Marking again only overwrites the date: there is no paid check. */
  lemma MarkPaidOverwrites(e: Expense, first: Date, second: Date)
    requires ValidDate(first) && ValidDate(second)
    ensures MarkPaid(MarkPaid(e, first), second) == MarkPaid(e, second)
  {
  }

  /** The update by id followed by `.single()`: it succeeds only when
      exactly one row carries the id, and then changes that row alone. */
  function MarkPaidById(monthly: seq<Expense>, id: string, today: Date): (r: Option<seq<Expense>>)
    requires ValidDate(today)
    ensures r.Some? <==> |Filter(monthly, (e: Expense) => e.id == id)| == 1
    ensures r.Some? ==> |r.value| == |monthly|
    ensures r.Some? ==> forall i :: 0 <= i < |monthly| ==>
      r.value[i] == if monthly[i].id == id then MarkPaid(monthly[i], today) else monthly[i]
  {
    if |Filter(monthly, (e: Expense) => e.id == id)| == 1 then
      Some(seq(|monthly|, i requires 0 <= i < |monthly| =>
        if monthly[i].id == id then MarkPaid(monthly[i], today) else monthly[i]))
    else None
  }

  // ---------------------------------------------------------------------
  // The monthly fetch

  /** `useDespesasMensais(startDate, endDate)`; `""` stands for a missing
      bound. The due-date range, inclusive at both ends, applies only when
      both bounds are given; rows come latest due date first. The fetch
      returns every stored row in range, as often as it is stored, and no
      other row. */
  function FetchMonthly(monthly: seq<Expense>, startDate: string, endDate: string): (r: seq<Expense>)
    ensures forall e :: multiset(r)[e] == if InRange(e, startDate, endDate) then multiset(monthly)[e] else 0
    ensures SortedBy(r, DueText, StrDescending())
  {
    var selected := if startDate != "" && endDate != "" then Filter(monthly, Between(startDate, endDate)) else monthly;
    FetchSelects(monthly, startDate, endDate);
    StrDescendingIsTotalPreorder();
    SortBySorted(selected, DueText, StrDescending());
    SortBy(selected, DueText, StrDescending())
  }

  function DueText(e: Expense): string { e.dataVencimento }

  function Between(startDate: string, endDate: string): Expense -> bool {
    (e: Expense) => StrLe(startDate, e.dataVencimento) && StrLe(e.dataVencimento, endDate)
  }

  predicate InRange(e: Expense, startDate: string, endDate: string) {
    startDate == "" || endDate == "" || (StrLe(startDate, e.dataVencimento) && StrLe(e.dataVencimento, endDate))
  }

  /** The rows the range keeps, counted with their multiplicity. */
  lemma FetchSelects(monthly: seq<Expense>, startDate: string, endDate: string)
    ensures var selected := if startDate != "" && endDate != "" then Filter(monthly, Between(startDate, endDate)) else monthly;
      forall e :: multiset(selected)[e] == if InRange(e, startDate, endDate) then multiset(monthly)[e] else 0
  {
    if startDate != "" && endDate != "" {
      forall e ensures multiset(Filter(monthly, Between(startDate, endDate)))[e]
                    == if InRange(e, startDate, endDate) then multiset(monthly)[e] else 0 {
        FilterMultiset(monthly, Between(startDate, endDate), e);
      }
    }
  }

  /** With the bounds and the due date written as `toISOString` writes four-
      digit years, the text range the fetch applies is the date range the
      database applies: a row is kept iff its due date lies between the two
      dates, both included. */
  lemma FetchRangeIsDateRange(e: Expense, start: Date, end: Date, due: Date)
    requires ValidDate(start) && ValidDate(end) && ValidDate(due)
    requires 0 <= start.year <= 9999 && 0 <= end.year <= 9999 && 0 <= due.year <= 9999
    requires e.dataVencimento == IsoDate(due)
    ensures InRange(e, IsoDate(start), IsoDate(end))
        <==> (start == due || DateBefore(start, due)) && (due == end || DateBefore(due, end))
  {
    IsoFields(start);
    IsoFields(end);
    IsoDateOrder(start, due);
    IsoDateOrder(due, end);
  }
}

=== FILE: financial.dfy ===
/** The in-memory data hook: five collections seeded with sample data,
    one append operation per collection and the financial summary over them.

    Each append copies the given fields, adds an id (the current time in the
    source, a parameter here) and leaves the other collections alone. */
module FinancialData {
  import opened Common
  import opened Summary

  datatype Cliente = Cliente(id: string, nome: string, valor: real, dataPagamento: string)
  datatype CustoFixo = CustoFixo(id: string, nome: string, valor: real, data: string)
  datatype CustoVariavel = CustoVariavel(id: string, categoria: string, valor: real, data: string)
  datatype Categoria = Categoria(id: string, nome: string)
  datatype Funcionario = Funcionario(id: string, nome: string, salario: real, dataVencimento: string)

  datatype Data = Data(
    clientes: seq<Cliente>,
    custosFixos: seq<CustoFixo>,
    custosVariaveis: seq<CustoVariavel>,
    categorias: seq<Categoria>,
    funcionarios: seq<Funcionario>)

  function ClienteValor(c: Cliente): real { c.valor }
  function CustoFixoValor(c: CustoFixo): real { c.valor }
  function CustoVariavelValor(c: CustoVariavel): real { c.valor }
  function Salario(f: Funcionario): real { f.salario }

  /** The data the hook starts with. */
  function Seed(): Data {
    Data(
      [ Cliente("1", "Cliente A", 5000.0, "2024-06-15"),
        Cliente("2", "Cliente B", 3500.0, "2024-06-10"),
        Cliente("3", "Cliente C", 7200.0, "2024-06-08") ],
      [ CustoFixo("1", "Aluguel", 2000.0, "2024-06-01"),
        CustoFixo("2", "Sal\U{00E1}rios", 8000.0, "2024-06-01"),
        CustoFixo("3", "Contabilidade", 500.0, "2024-06-01") ],
      [ CustoVariavel("1", "Marketing", 800.0, "2024-06-05"),
        CustoVariavel("2", "Impostos", 1200.0, "2024-06-10"),
        CustoVariavel("3", "Compras", 600.0, "2024-06-12") ],
      [ Categoria("1", "Marketing"),
        Categoria("2", "Log\U{00ED}stica"),
        Categoria("3", "Ferramentas"),
        Categoria("4", "Impostos"),
        Categoria("5", "Compras") ],
      [ Funcionario("1", "Jo\U{00E3}o Silva", 3000.0, "2024-06-30"),
        Funcionario("2", "Maria Santos", 3500.0, "2024-06-30"),
        Funcionario("3", "Pedro Costa", 2800.0, "2024-06-30") ])
  }

  // ---------------------------------------------------------------------
  // Appends

  function AddCliente(d: Data, nome: string, valor: real, dataPagamento: string, id: string): (r: Data)
    ensures r.clientes == d.clientes + [Cliente(id, nome, valor, dataPagamento)]
    ensures r.(clientes := d.clientes) == d
  {
    d.(clientes := d.clientes + [Cliente(id, nome, valor, dataPagamento)])
  }

  function AddCustoFixo(d: Data, nome: string, valor: real, data: string, id: string): (r: Data)
    ensures r.custosFixos == d.custosFixos + [CustoFixo(id, nome, valor, data)]
    ensures r.(custosFixos := d.custosFixos) == d
  {
    d.(custosFixos := d.custosFixos + [CustoFixo(id, nome, valor, data)])
  }

  function AddCustoVariavel(d: Data, categoria: string, valor: real, data: string, id: string): (r: Data)
    ensures r.custosVariaveis == d.custosVariaveis + [CustoVariavel(id, categoria, valor, data)]
    ensures r.(custosVariaveis := d.custosVariaveis) == d
  {
    d.(custosVariaveis := d.custosVariaveis + [CustoVariavel(id, categoria, valor, data)])
  }

  function AddCategoria(d: Data, nome: string, id: string): (r: Data)
    ensures r.categorias == d.categorias + [Categoria(id, nome)]
    ensures r.(categorias := d.categorias) == d
  {
    d.(categorias := d.categorias + [Categoria(id, nome)])
  }

  function AddFuncionario(d: Data, nome: string, salario: real, dataVencimento: string, id: string): (r: Data)
    ensures r.funcionarios == d.funcionarios + [Funcionario(id, nome, salario, dataVencimento)]
    ensures r.(funcionarios := d.funcionarios) == d
  {
    d.(funcionarios := d.funcionarios + [Funcionario(id, nome, salario, dataVencimento)])
  }

  // ---------------------------------------------------------------------
  // Summary

  /** `calculateFinancialSummary`: the four totals are plain sums. */
  function CalculateSummary(d: Data): (s: Summary)
    ensures s.receitaTotal == Sum(d.clientes, ClienteValor)
    ensures s.custosFixosTotal == Sum(d.custosFixos, CustoFixoValor)
    ensures s.custosVariaveisTotal == Sum(d.custosVariaveis, CustoVariavelValor)
    ensures s.folhaPagamentoTotal == Sum(d.funcionarios, Salario)
    ensures s.lucroLiquido == s.receitaTotal - (s.custosFixosTotal + s.custosVariaveisTotal)
  {
    Summarize(
      Sum(d.clientes, ClienteValor),
      Sum(d.custosFixos, CustoFixoValor),
      Sum(d.custosVariaveis, CustoVariavelValor),
      Sum(d.funcionarios, Salario))
  }

  /** A new client raises revenue and profit by its amount and changes no
      other total. */
  lemma AddClienteSummary(d: Data, nome: string, valor: real, dataPagamento: string, id: string)
    ensures var before, after := CalculateSummary(d), CalculateSummary(AddCliente(d, nome, valor, dataPagamento, id));
      && after.receitaTotal == before.receitaTotal + valor
      && after.lucroLiquido == before.lucroLiquido + valor
      && after.custosFixosTotal == before.custosFixosTotal
      && after.custosVariaveisTotal == before.custosVariaveisTotal
      && after.folhaPagamentoTotal == before.folhaPagamentoTotal
  {
    SumSnoc(d.clientes, Cliente(id, nome, valor, dataPagamento), ClienteValor);
  }

  /** A new fixed cost raises the fixed total by its amount, lowers profit
      by it, leaves the contribution margin, and changes no other total. */
  lemma AddCustoFixoSummary(d: Data, nome: string, valor: real, data: string, id: string)
    ensures var before, after := CalculateSummary(d), CalculateSummary(AddCustoFixo(d, nome, valor, data, id));
      && after.custosFixosTotal == before.custosFixosTotal + valor
      && after.lucroLiquido == before.lucroLiquido - valor
      && after.margemContribuicao == before.margemContribuicao
      && after.receitaTotal == before.receitaTotal
      && after.custosVariaveisTotal == before.custosVariaveisTotal
      && after.folhaPagamentoTotal == before.folhaPagamentoTotal
  {
    SumSnoc(d.custosFixos, CustoFixo(id, nome, valor, data), CustoFixoValor);
  }

  /** A new variable cost raises the variable total by its amount and
      changes no other total. */
  lemma AddCustoVariavelSummary(d: Data, categoria: string, valor: real, data: string, id: string)
    ensures var before, after := CalculateSummary(d), CalculateSummary(AddCustoVariavel(d, categoria, valor, data, id));
      && after.custosVariaveisTotal == before.custosVariaveisTotal + valor
      && after.lucroLiquido == before.lucroLiquido - valor
      && after.receitaTotal == before.receitaTotal
      && after.custosFixosTotal == before.custosFixosTotal
      && after.folhaPagamentoTotal == before.folhaPagamentoTotal
  {
    SumSnoc(d.custosVariaveis, CustoVariavel(id, categoria, valor, data), CustoVariavelValor);
  }

  /** Categories enter no figure of the summary. */
  lemma AddCategoriaSummary(d: Data, nome: string, id: string)
    ensures CalculateSummary(AddCategoria(d, nome, id)) == CalculateSummary(d)
  {
  }

  /** A new employee raises only the payroll figure: profit, margin and
      break-even stay as they were. */
  lemma AddFuncionarioSummary(d: Data, nome: string, salario: real, dataVencimento: string, id: string)
    ensures CalculateSummary(AddFuncionario(d, nome, salario, dataVencimento, id))
         == CalculateSummary(d).(folhaPagamentoTotal := CalculateSummary(d).folhaPagamentoTotal + salario)
  {
    SumSnoc(d.funcionarios, Funcionario(id, nome, salario, dataVencimento), Salario);
    PayrollIndependent(
      Sum(d.clientes, ClienteValor), Sum(d.custosFixos, CustoFixoValor), Sum(d.custosVariaveis, CustoVariavelValor),
      Sum(d.funcionarios, Salario), Sum(d.funcionarios, Salario) + salario);
  }

  lemma SumOfThree<T>(a: T, b: T, c: T, f: T -> real)
    ensures Sum([a, b, c], f) == f(a) + f(b) + f(c)
  {
    assert DropLast([a]) == [];
    assert Sum([a], f) == f(a);
    assert DropLast([a, b]) == [a];
    assert Sum([a, b], f) == f(a) + f(b);
    assert DropLast([a, b, c]) == [a, b];
  }

  /** The summary of the seeded data: revenue 15700, fixed costs 10500,
      variable costs 2600, payroll 9300 and profit 2600; the margin is
      13100/157 percent and break-even lies at 1648500/131. */
  lemma SeededSummary()
    ensures CalculateSummary(Seed())
         == Summary(15700.0, 10500.0, 2600.0, 9300.0, 13100.0 / 157.0, 1648500.0 / 131.0, 2600.0)
  {
    var d := Seed();
    SumOfThree(d.clientes[0], d.clientes[1], d.clientes[2], ClienteValor);
    SumOfThree(d.custosFixos[0], d.custosFixos[1], d.custosFixos[2], CustoFixoValor);
    SumOfThree(d.custosVariaveis[0], d.custosVariaveis[1], d.custosVariaveis[2], CustoVariavelValor);
    SumOfThree(d.funcionarios[0], d.funcionarios[1], d.funcionarios[2], Salario);
    assert d.clientes == [d.clientes[0], d.clientes[1], d.clientes[2]];
    assert d.custosFixos == [d.custosFixos[0], d.custosFixos[1], d.custosFixos[2]];
    assert d.custosVariaveis == [d.custosVariaveis[0], d.custosVariaveis[1], d.custosVariaveis[2]];
    assert d.funcionarios == [d.funcionarios[0], d.funcionarios[1], d.funcionarios[2]];
    assert Margin(15700.0, 2600.0) == 13100.0 / 157.0;
    assert BreakEven(10500.0, 13100.0 / 157.0) == 1648500.0 / 131.0;
  }
}

=== FILE: folha.dfy ===
/** The payroll page (`FolhaPagamento`): the employee list searched by name,
    the payroll total and average salary, the due-date alerts and statuses,
    the two sorted side lists, and the form that adds an employee or
    updates the one being edited.

    Dates enter as timestamps: `vencimento(f)` is the millisecond time of
    `new Date(f.data_vencimento)` and `hoje` the time of `new Date()`, both
    parameters. The whole number of days left is `Math.ceil` of their
    difference over the milliseconds in a day. */
module Folha {
  import opened Common
  import opened Text
  import opened Sorting
  import opened Listing
  import opened SupabaseData

  function FuncionarioNome(f: Funcionario): string { f.nome }
  function FuncionarioId(f: Funcionario): string { f.id }

  /** `filteredFuncionarios`. */
  function Filtered(fs: seq<Funcionario>, term: string): seq<Funcionario> {
    Search(fs, FuncionarioNome, term)
  }

  /** `totalFolha`: the salaries of the employees listed. Without a
      search it is the payroll total; with non-negative salaries it never
      exceeds it. */
  function TotalFolha(fs: seq<Funcionario>, term: string): (r: real)
    ensures term == "" ==> r == Sum(fs, Salario)
    ensures (forall i :: 0 <= i < |fs| ==> fs[i].salario >= 0.0) ==> 0.0 <= r <= Sum(fs, Salario)
  {
    EmptySearchKeepsAll(fs, FuncionarioNome, Salario);
    if forall i :: 0 <= i < |fs| ==> fs[i].salario >= 0.0 then
      SearchTotalBounds(fs, FuncionarioNome, term, Salario);
      SearchTotal(fs, FuncionarioNome, term, Salario)
    else
      SearchTotal(fs, FuncionarioNome, term, Salario)
  }

  /** `mediaSalarial`: the average that, times the head count, gives the
      total listed; 0 when nobody is listed. */
  function MediaSalarial(fs: seq<Funcionario>, term: string): (r: real)
    ensures |Filtered(fs, term)| == 0 ==> r == 0.0
    ensures |Filtered(fs, term)| > 0 ==> r * |Filtered(fs, term)| as real == TotalFolha(fs, term)
  {
    var n := |Filtered(fs, term)|;
    if n > 0 then TotalFolha(fs, term) / n as real else 0.0
  }

  // ---------------------------------------------------------------------
  // Days left

  const MsPerDay: int := 1000 * 3600 * 24

  /** `Math.ceil(a / b)` for whole `a` and positive `b`. */
  function CeilDiv(a: int, b: int): (q: int)
    requires b > 0
    ensures (q - 1) * b < a <= q * b
  {
    -((-a) / b)
  }

  /** `diasRestantes`: the time to the due instant in whole days, rounded
      up, so that a payment due later today is 1 day away and one due
      earlier today 0. */
  function DiasRestantes(vencimento: int, hoje: int): (dias: int)
    ensures (dias - 1) * MsPerDay < vencimento - hoje <= dias * MsPerDay
  {
    CeilDiv(vencimento - hoje, MsPerDay)
  }

  /** `isVencimentoProximo`: due within the coming week, today included. */
  predicate NearDue(dias: int) {
    dias <= 7 && dias >= 0
  }

  /** The table's status column. */
  datatype TableStatus = Proximo(dias: int) | Vencido | EmDia

  function TableStatusOf(dias: int): (st: TableStatus)
    ensures st.Proximo? <==> NearDue(dias)
    ensures st.Vencido? <==> dias < 0
    ensures st.EmDia? <==> dias > 7
    ensures st.Proximo? ==> st.dias == dias
  {
    if NearDue(dias) then Proximo(dias) else if dias < 0 then Vencido else EmDia
  }

  /** The status column's text: each status has its own label. */
  function TableLabel(st: TableStatus): (r: string)
    ensures r == "Vencido" <==> st.Vencido?
    ensures r == "Em dia" <==> st.EmDia?
    ensures st.Proximo? ==> |r| >= 5 && r[|r| - 5..] == " dias" && ParseInt(r[..|r| - 5]) == Some(st.dias)
  {
    match st
    case Proximo(d) =>
      var r := IntToString(d) + " dias";
      assert r[|r| - 5..] == " dias" && r[|r| - 1] == 's';
      assert r[..|r| - 5] == IntToString(d);
      IntToStringRoundTrip(d);
      r
    case Vencido => "Vencido"
    case EmDia => "Em dia"
  }

  function DueSoon(vencimento: Funcionario -> int, hoje: int): Funcionario -> bool {
    f => NearDue(DiasRestantes(vencimento(f), hoje))
  }

  /** `proximoVencimento`: the listed employees due within the week, that
      is, those whose table status is "N dias", in list order; the banner's
      count is the number of such positions in the list. */
  function Alerts(fs: seq<Funcionario>, term: string, vencimento: Funcionario -> int, hoje: int): (r: seq<Funcionario>)
    ensures IsSubsequence(r, Filtered(fs, term))
    ensures forall i :: 0 <= i < |Filtered(fs, term)| ==>
      var f := Filtered(fs, term)[i];
      f in r <==> TableStatusOf(DiasRestantes(vencimento(f), hoje)).Proximo?
    ensures |r| == |set i | 0 <= i < |Filtered(fs, term)| && NearDue(DiasRestantes(vencimento(Filtered(fs, term)[i]), hoje))|
  {
    FilterIsSubsequence(Filtered(fs, term), DueSoon(vencimento, hoje));
    AlertCount(Filtered(fs, term), vencimento, hoje);
    Filter(Filtered(fs, term), DueSoon(vencimento, hoje))
  }

  lemma AlertCount(listed: seq<Funcionario>, vencimento: Funcionario -> int, hoje: int)
    ensures |Filter(listed, DueSoon(vencimento, hoje))|
         == |set i | 0 <= i < |listed| && NearDue(DiasRestantes(vencimento(listed[i]), hoje))|
  {
    FilterCount(listed, DueSoon(vencimento, hoje));
    assert Positions(listed, DueSoon(vencimento, hoje))
        == set i | 0 <= i < |listed| && NearDue(DiasRestantes(vencimento(listed[i]), hoje));
  }

  /** The alert banner is drawn only when some payment is near. */
  predicate AlertShown(fs: seq<Funcionario>, term: string, vencimento: Funcionario -> int, hoje: int) {
    |Alerts(fs, term, vencimento, hoje)| > 0
  }

  // ---------------------------------------------------------------------
  // Side lists

  function DueKey(vencimento: Funcionario -> int): Funcionario -> real {
    f => vencimento(f) as real
  }

  /** "Próximos Vencimentos": the listed employees by due time, first five. */
  function Upcoming(fs: seq<Funcionario>, term: string, vencimento: Funcionario -> int): (r: seq<Funcionario>)
    ensures |r| == if |Filtered(fs, term)| < 5 then |Filtered(fs, term)| else 5
    ensures multiset(r) <= multiset(Filtered(fs, term))
    ensures forall i, j :: 0 <= i < j < |r| ==> vencimento(r[i]) <= vencimento(r[j])
  {
    var r := Top(Filtered(fs, term), DueKey(vencimento), Ascending(), 5);
    AscendingIsTotalPreorder();
    TopOrdered(Filtered(fs, term), DueKey(vencimento), Ascending(), 5);
    assert forall i, j :: 0 <= i < j < |r| ==> Ascending()(DueKey(vencimento)(r[i]), DueKey(vencimento)(r[j]));
    r
  }

  /** The day count beside an upcoming payment. */
  function UpcomingLabel(dias: int): (r: string)
    ensures r == "Vencido" <==> dias <= 0
    ensures dias > 0 ==> |r| >= 5 && r[|r| - 5..] == " dias" && ParseInt(r[..|r| - 5]) == Some(dias)
  {
    if dias > 0 then
      var r := IntToString(dias) + " dias";
      assert r[|r| - 5..] == " dias" && r[|r| - 1] == 's';
      assert r[..|r| - 5] == IntToString(dias);
      IntToStringRoundTrip(dias);
      r
    else "Vencido"
  }

  /** "Distribuição Salarial": the listed employees by salary, highest
      first. */
  function Distribution(fs: seq<Funcionario>, term: string): (r: seq<Funcionario>)
    ensures multiset(r) == multiset(Filtered(fs, term))
    ensures forall i, j :: 0 <= i < j < |r| ==> r[i].salario >= r[j].salario
  {
    DescendingIsTotalPreorder();
    SortBySorted(Filtered(fs, term), Salario, Descending());
    SortBy(Filtered(fs, term), Salario, Descending())
  }

  // ---------------------------------------------------------------------
  // Form

  datatype Form = Form(nome: string, salario: string, dataVencimento: string)

  datatype Page = Page(store: seq<Funcionario>, form: Form, editing: Option<Funcionario>)

  function EmptyForm(): Form { Form("", "", "") }

  predicate Filled(f: Form) {
    f.nome != "" && f.salario != "" && f.dataVencimento != ""
  }

  /** `handleEdit`: `salarioText` is `salario.toString()`. */
  function Edit(p: Page, f: Funcionario, salarioText: string): Page {
    p.(form := Form(f.nome, salarioText, f.dataVencimento), editing := Some(f))
  }

  /** `handleSubmit`, on success: the edited employee's row is updated, or
      one row inserted with the id the database assigns (`freshId`); then
      the form is emptied and the edit ended. `parsed` is
      `parseFloat(form.salario)`. */
  function Submit(p: Page, parsed: real, freshId: string): (r: Page)
    ensures !Filled(p.form) ==> r == p
    ensures Filled(p.form) ==> r.form == EmptyForm() && r.editing.None?
    ensures |r.store| == |p.store| + (if Filled(p.form) && p.editing.None? then 1 else 0)
  {
    if !Filled(p.form) then p
    else
      var f := p.form;
      var store :=
        if p.editing.Some? then Replace(p.store, FuncionarioId, Funcionario(p.editing.value.id, f.nome, parsed, f.dataVencimento))
        else p.store + [Funcionario(freshId, f.nome, parsed, f.dataVencimento)];
      Page(store, EmptyForm(), None)
  }

  // =====================================================================
  // Properties

  /** Without a search everybody is listed and the total is the payroll
      total. */
  lemma EmptySearchShowsAll(fs: seq<Funcionario>)
    ensures |Filtered(fs, "")| == |fs|
    ensures TotalFolha(fs, "") == Sum(fs, Salario)
  {
    EmptySearchKeepsAll(fs, FuncionarioNome, Salario);
  }

  /** The average lies between the lowest and the highest salary listed,
      and is 0 when nobody is listed. */
  lemma MediaMeaning(fs: seq<Funcionario>, term: string, lo: real, hi: real)
    requires forall i :: 0 <= i < |Filtered(fs, term)| ==> lo <= Filtered(fs, term)[i].salario <= hi
    ensures |Filtered(fs, term)| == 0 ==> MediaSalarial(fs, term) == 0.0
    ensures |Filtered(fs, term)| > 0 ==> lo <= MediaSalarial(fs, term) <= hi
  {
    var shown := Filtered(fs, term);
    if |shown| > 0 {
      AverageOf(shown, lo, hi, MediaSalarial(fs, term));
    }
  }

  /** The mean of salaries between `lo` and `hi` lies between them, and
      times the head count gives back the total. */
  lemma AverageOf(shown: seq<Funcionario>, lo: real, hi: real, m: real)
    requires |shown| > 0
    requires forall i :: 0 <= i < |shown| ==> lo <= shown[i].salario <= hi
    requires m == Sum(shown, Salario) / |shown| as real
    ensures m * |shown| as real == Sum(shown, Salario)
    ensures lo <= m <= hi
  {
    SumBounds(shown, Salario, lo, hi);
    Average(Sum(shown, Salario), |shown| as real, lo, hi);
  }

  /** A total between `n` times `lo` and `n` times `hi`, shared among `n`. */
  lemma Average(total: real, n: real, lo: real, hi: real)
    requires n > 0.0 && n * lo <= total <= n * hi
    ensures (total / n) * n == total
    ensures lo <= total / n <= hi
  {
  }

  /** An employee is near-due exactly when the due time falls after this
      moment yesterday and no later than this moment a week ahead. */
  lemma NearDueWindow(vencimento: int, hoje: int)
    ensures NearDue(DiasRestantes(vencimento, hoje))
        <==> hoje - MsPerDay < vencimento <= hoje + 7 * MsPerDay
  {
    var d := DiasRestantes(vencimento, hoje);
    if d >= 0 {
      assert (d - 1) * MsPerDay >= -MsPerDay;
    }
    if d <= 7 {
      assert d * MsPerDay <= 7 * MsPerDay;
    }
    if d < 0 {
      assert d * MsPerDay <= -MsPerDay;
    }
    if d > 7 {
      assert (d - 1) * MsPerDay >= 7 * MsPerDay;
    }
  }

  /** A later due time never has fewer days left. */
  lemma DiasMonotone(v1: int, v2: int, hoje: int)
    requires v1 <= v2
    ensures DiasRestantes(v1, hoje) <= DiasRestantes(v2, hoje)
  {
  }

  /** The two day labels disagree only on day 0: the table shows "0 dias"
      and the upcoming list "Vencido". */
  lemma LabelsAgreeExceptDayZero(dias: int)
    requires dias <= 7
    ensures TableLabel(TableStatusOf(dias)) == UpcomingLabel(dias) <==> dias != 0
  {
    if dias == 0 {
      var t := IntToString(0) + " dias";
      assert t[|t| - 1] == 's';
    }
  }

  /** The upcoming list holds at most five of the listed employees, by due
      time; nobody left out is due before anybody shown, so the days left
      never decrease down the list. */
  lemma UpcomingIsSoonest(fs: seq<Funcionario>, term: string, vencimento: Funcionario -> int, hoje: int, other: Funcionario)
    ensures |Upcoming(fs, term, vencimento)| == if |Filtered(fs, term)| < 5 then |Filtered(fs, term)| else 5
    ensures multiset(Upcoming(fs, term, vencimento)) <= multiset(Filtered(fs, term))
    ensures forall i, j :: 0 <= i < j < |Upcoming(fs, term, vencimento)| ==>
      DiasRestantes(vencimento(Upcoming(fs, term, vencimento)[i]), hoje)
      <= DiasRestantes(vencimento(Upcoming(fs, term, vencimento)[j]), hoje)
    ensures other in multiset(Filtered(fs, term)) - multiset(Upcoming(fs, term, vencimento)) ==>
      forall i :: 0 <= i < |Upcoming(fs, term, vencimento)| ==>
        vencimento(Upcoming(fs, term, vencimento)[i]) <= vencimento(other)
  {
    var up := Upcoming(fs, term, vencimento);
    AscendingIsTotalPreorder();
    TopOrdered(Filtered(fs, term), DueKey(vencimento), Ascending(), 5);
    forall i, j | 0 <= i < j < |up|
      ensures DiasRestantes(vencimento(up[i]), hoje) <= DiasRestantes(vencimento(up[j]), hoje)
    {
      assert Ascending()(DueKey(vencimento)(up[i]), DueKey(vencimento)(up[j]));
      DiasMonotone(vencimento(up[i]), vencimento(up[j]), hoje);
    }
    if other in multiset(Filtered(fs, term)) - multiset(up) {
      TopDominates(Filtered(fs, term), DueKey(vencimento), Ascending(), 5, other);
      forall i | 0 <= i < |up| ensures vencimento(up[i]) <= vencimento(other) {
        assert Ascending()(DueKey(vencimento)(up[i]), DueKey(vencimento)(other));
      }
    }
  }

  /** The distribution lists the same employees, by salary from highest to
      lowest, equal salaries in list order. */
  lemma DistributionOrdered(fs: seq<Funcionario>, term: string, s: real)
    ensures multiset(Distribution(fs, term)) == multiset(Filtered(fs, term))
    ensures forall i, j :: 0 <= i < j < |Distribution(fs, term)| ==>
      Distribution(fs, term)[i].salario >= Distribution(fs, term)[j].salario
    ensures Filter(Distribution(fs, term), InClass(Salario, Descending(), s))
         == Filter(Filtered(fs, term), InClass(Salario, Descending(), s))
  {
    DescendingIsTotalPreorder();
    SortBySorted(Filtered(fs, term), Salario, Descending());
    SortByStable(Filtered(fs, term), Salario, Descending(), s);
  }

  /** A new employee adds one row at the end, and the salary to the payroll
      total. */
  lemma SubmitNew(p: Page, parsed: real, freshId: string)
    requires Filled(p.form) && p.editing.None?
    ensures var r := Submit(p, parsed, freshId);
      && r.store[..|p.store|] == p.store
      && Last(r.store) == Funcionario(freshId, p.form.nome, parsed, p.form.dataVencimento)
      && Sum(r.store, Salario) == Sum(p.store, Salario) + parsed
  {
    SumSnoc(p.store, Funcionario(freshId, p.form.nome, parsed, p.form.dataVencimento), Salario);
  }

  /** Saving an edit keeps the row in place under its id; the payroll
      total changes by the difference of the salaries, and ids stay
      unique. */
  lemma SubmitEdit(p: Page, parsed: real, freshId: string, i: int)
    requires Filled(p.form)
    requires UniqueIds(p.store, FuncionarioId)
    requires 0 <= i < |p.store| && p.editing == Some(p.store[i])
    ensures var r := Submit(p, parsed, freshId);
      && r.store == p.store[i := Funcionario(p.store[i].id, p.form.nome, parsed, p.form.dataVencimento)]
      && Sum(r.store, Salario) == Sum(p.store, Salario) - p.store[i].salario + parsed
      && UniqueIds(r.store, FuncionarioId)
  {
    var x := Funcionario(p.store[i].id, p.form.nome, parsed, p.form.dataVencimento);
    ReplaceTotal(p.store, FuncionarioId, x, i, Salario);
  }

  /** Opening an employee for edit and saving the form untouched leaves
      the store as it was, when the salary's text parses back to it. */
  lemma EditRoundTrip(p: Page, i: int, salarioText: string, freshId: string)
    requires UniqueIds(p.store, FuncionarioId)
    requires 0 <= i < |p.store|
    requires p.store[i].nome != "" && p.store[i].dataVencimento != "" && salarioText != ""
    ensures Submit(Edit(p, p.store[i], salarioText), p.store[i].salario, freshId).store == p.store
  {
    ReplaceSame(p.store, FuncionarioId, i);
  }
}

=== FILE: grouping.dfy ===
/** Grouping records by a string key, the way the pages fold arrays into a
    `Map` or into a plain object.

    `GroupBy` is the `Map` fold of the expense chart: a key's group is opened
    the first time the key is met and later records are appended to it, so
    the groups come out in order of first appearance. The category pages fold
    into a plain object instead (`acc[nome] = (acc[nome] || 0) + valor`), and
    `Object.entries` lists such an object's keys in the order of
    OrdinaryOwnPropertyKeys (section 10.1.11.1 of ECMA-262): keys that are
    array indices first, in ascending numeric order, then every other key in
    the order it was first assigned. `RecordOrder` models that reordering. */
module Grouping {
  import opened Common
  import opened Text
  import opened Sorting

  /** One key with the records that carry it, in input order. */
  datatype Group<T> = Group(key: string, items: seq<T>)

  function Keys<T>(g: seq<Group<T>>): seq<string> {
    Map(g, (grp: Group<T>) => grp.key)
  }

  /** The position of the group of `k`, or -1 when there is none. */
  function FindKey<T>(g: seq<Group<T>>, k: string): (i: int)
    ensures -1 <= i < |g|
    ensures 0 <= i ==> g[i].key == k
    ensures i < 0 ==> forall j :: 0 <= j < |g| ==> g[j].key != k
    decreases |g|
  {
    if |g| == 0 then -1
    else if g[0].key == k then 0
    else
      var j := FindKey(g[1..], k);
      if j < 0 then -1 else j + 1
  }

  /** Appends `x` to the group of `k`, opening that group at the end when `k`
      has not been seen. */
  function AddToGroup<T>(g: seq<Group<T>>, k: string, x: T): seq<Group<T>> {
    var i := FindKey(g, k);
    if i < 0 then g + [Group(k, [x])] else g[i := Group(k, g[i].items + [x])]
  }

  /** The `Map` fold: one group per distinct key, in order of first
      appearance, each holding exactly the records with its key, in input
      order. */
  function GroupBy<T>(s: seq<T>, key: T -> string): (r: seq<Group<T>>)
    ensures Keys(r) == Dedup(Map(s, key))
    decreases |s|
  {
    if |s| == 0 then []
    else
      var g := GroupBy(DropLast(s), key);
      var k := key(Last(s));
      assert s == DropLast(s) + [Last(s)];
      MapSnoc(DropLast(s), Last(s), key);
      DedupSnoc(Map(DropLast(s), key), k);
      AddToGroupKeys(g, k, Last(s));
      AddToGroup(g, k, Last(s))
  }

  function HasKey<T>(key: T -> string, k: string): T -> bool {
    x => key(x) == k
  }

  /** `g` splits `s` by key: its keys are the distinct keys of `s` in order of
      first appearance, and each group holds exactly the records with its key,
      in input order. */
  ghost predicate Partitions<T>(g: seq<Group<T>>, s: seq<T>, key: T -> string) {
    && Keys(g) == Dedup(Map(s, key))
    && forall i :: 0 <= i < |g| ==> g[i].items == Filter(s, HasKey(key, g[i].key))
  }

  /** The amount of one group. */
  function GroupTotal<T>(f: T -> real): Group<T> -> real {
    (grp: Group<T>) => Sum(grp.items, f)
  }

  /** The amount of every group added up. */
  function GroupSum<T>(g: seq<Group<T>>, f: T -> real): real {
    Sum(g, GroupTotal(f))
  }

  // ---------------------------------------------------------------------

  lemma MapSnoc<T, U>(s: seq<T>, x: T, f: T -> U)
    ensures Map(s + [x], f) == Map(s, f) + [f(x)]
  {
  }

  lemma DedupSnoc<T>(s: seq<T>, y: T)
    ensures Dedup(s + [y]) == if y in Dedup(s) then Dedup(s) else Dedup(s) + [y]
  {
    assert DropLast(s + [y]) == s;
  }

  /** The keys after adding one record. */
  lemma AddToGroupKeys<T>(g: seq<Group<T>>, k: string, x: T)
    ensures k in Keys(g) <==> FindKey(g, k) >= 0
    ensures Keys(AddToGroup(g, k, x)) == if k in Keys(g) then Keys(g) else Keys(g) + [k]
  {
    if k in Keys(g) {
      var j :| 0 <= j < |g| && Keys(g)[j] == k;
      assert g[j].key == k;
    }
    if FindKey(g, k) >= 0 {
      assert Keys(g)[FindKey(g, k)] == k;
    }
  }

  ghost predicate GroupsHold<T>(g: seq<Group<T>>, s: seq<T>, key: T -> string) {
    forall i :: 0 <= i < |g| ==> g[i].items == Filter(s, HasKey(key, g[i].key))
  }

  /** The groups after adding one record still hold exactly their records. */
  lemma AddToGroupItems<T>(g: seq<Group<T>>, s: seq<T>, x: T, key: T -> string)
    requires GroupsHold(g, s, key)
    requires Distinct(Keys(g))
    requires FindKey(g, key(x)) < 0 ==> forall j :: 0 <= j < |s| ==> key(s[j]) != key(x)
    ensures GroupsHold(AddToGroup(g, key(x), x), s + [x], key)
  {
    var k := key(x);
    var i := FindKey(g, k);
    var g' := AddToGroup(g, k, x);
    forall j | 0 <= j < |g'|
      ensures g'[j].items == Filter(s + [x], HasKey(key, g'[j].key))
    {
      FilterSnoc(s, x, HasKey(key, g'[j].key));
      if j < |g| && j != i {
        assert g'[j] == g[j];
        if i >= 0 {
          assert Keys(g)[j] != Keys(g)[i];
        }
      } else if i < 0 {
        FilterNone(s, HasKey(key, k));
      }
    }
  }

  /** The fold partitions its input: each group also holds exactly the
      records with its key, in input order. */
  lemma {:induction false} GroupByPartitions<T>(s: seq<T>, key: T -> string)
    ensures Partitions(GroupBy(s, key), s, key)
    decreases |s|
  {
    if |s| == 0 {
      return;
    }
    var s', x := DropLast(s), Last(s);
    assert s == s' + [x];
    var g := GroupBy(s', key);
    GroupByPartitions(s', key);
    var k := key(x);
    if FindKey(g, k) < 0 {
      AddToGroupKeys(g, k, x);
      forall j | 0 <= j < |s'| ensures key(s'[j]) != k {
        assert Map(s', key)[j] in Dedup(Map(s', key));
      }
    }
    AddToGroupItems(g, s', x, key);
  }

  /** Grouping neither loses nor duplicates an amount. */
  lemma {:induction false} GroupByConserves<T>(s: seq<T>, key: T -> string, f: T -> real)
    ensures GroupSum(GroupBy(s, key), f) == Sum(s, f)
    decreases |s|
  {
    if |s| == 0 {
      return;
    }
    var s', x := DropLast(s), Last(s);
    var g := GroupBy(s', key);
    GroupByConserves(s', key, f);
    var h := GroupTotal(f);
    var i := FindKey(g, key(x));
    if i < 0 {
      SumAppend(g, [Group(key(x), [x])], h);
      SumSingleton(Group(key(x), [x]), h);
      SumSingleton(x, f);
    } else {
      SumUpdate(g, i, Group(key(x), g[i].items + [x]), h);
      SumSnoc(g[i].items, x, f);
    }
  }

  lemma SetOfMap<T>(s: seq<T>, key: T -> string)
    ensures (set i | 0 <= i < |s| :: key(s[i])) == (set y | y in Map(s, key))
  {
    var m := Map(s, key);
    forall y | y in m ensures y in (set i | 0 <= i < |s| :: key(s[i])) {
      var i :| 0 <= i < |m| && m[i] == y;
      assert key(s[i]) == y;
    }
    forall i | 0 <= i < |s| ensures key(s[i]) in m {
      assert m[i] == key(s[i]);
    }
  }

  /** There are as many groups as distinct keys. */
  lemma GroupCount<T>(s: seq<T>, key: T -> string)
    ensures |GroupBy(s, key)| == |set i | 0 <= i < |s| :: key(s[i])|
  {
    var m := Map(s, key);
    assert |GroupBy(s, key)| == |Keys(GroupBy(s, key))| == |Dedup(m)|;
    DedupCardinality(m);
    SetOfMap(s, key);
  }

  // ---------------------------------------------------------------------
  // Plain-object key order

  function IndexValue(k: string): real {
    DigitsValue(k, 10) as real
  }

  function IndexKeyed<T>(key: T -> string): T -> bool {
    x => IsArrayIndex(key(x))
  }

  function PlainKeyed<T>(key: T -> string): T -> bool {
    x => !IsArrayIndex(key(x))
  }

  function IndexOf<T>(key: T -> string): T -> real {
    x => IndexValue(key(x))
  }

  /** The entries of a plain object whose keys were assigned in the order of
      `s`, in the order `Object.entries` returns them: a reordering that
      keeps every entry. */
  function RecordOrder<T(==)>(s: seq<T>, key: T -> string): (r: seq<T>)
    ensures multiset(r) == multiset(s)
  {
    var p := IndexKeyed(key);
    var q := PlainKeyed(key);
    var r := SortBy(Filter(s, p), IndexOf(key), Ascending()) + Filter(s, q);
    assert multiset(r) == multiset(s) by {
      forall y ensures multiset(r)[y] == multiset(s)[y] {
        FilterMultiset(s, p, y);
        FilterMultiset(s, q, y);
      }
    }
    r
  }

  /** The array-index entries, sorted: each is an array index, ascending. */
  lemma IndexEntriesSorted<T>(s: seq<T>, key: T -> string, sorted: seq<T>)
    requires sorted == SortBy(Filter(s, IndexKeyed(key)), IndexOf(key), Ascending())
    ensures forall i :: 0 <= i < |sorted| ==> IsArrayIndex(key(sorted[i]))
    ensures forall i, j :: 0 <= i < j < |sorted| ==> IndexValue(key(sorted[i])) <= IndexValue(key(sorted[j]))
  {
    var p := IndexKeyed(key);
    var k := IndexOf(key);
    var ix := Filter(s, p);
    SortByKeeps(ix, k, Ascending(), p);
    AscendingIsTotalPreorder();
    SortBySorted(ix, k, Ascending());
  }

  /** The shape of the reordering: first the array-index keys in ascending
      numeric order, then the other keys in assignment order. */
  lemma RecordOrderShape<T>(s: seq<T>, key: T -> string)
    ensures var r := RecordOrder(s, key);
      exists n :: 0 <= n <= |r|
        && (forall i :: 0 <= i < n ==> IsArrayIndex(key(r[i])))
        && (forall i, j :: 0 <= i < j < n ==> IndexValue(key(r[i])) <= IndexValue(key(r[j])))
        && r[n..] == Filter(s, PlainKeyed(key))
  {
    var sorted := SortBy(Filter(s, IndexKeyed(key)), IndexOf(key), Ascending());
    var rest := Filter(s, PlainKeyed(key));
    var r := RecordOrder(s, key);
    assert r == sorted + rest;
    IndexEntriesSorted(s, key, sorted);
    var n := |sorted|;
    assert r[n..] == rest;
    forall i | 0 <= i < n ensures IsArrayIndex(key(r[i])) {
      assert r[i] == sorted[i];
    }
    forall i, j | 0 <= i < j < n ensures IndexValue(key(r[i])) <= IndexValue(key(r[j])) {
      assert r[i] == sorted[i] && r[j] == sorted[j];
    }
  }

  /** When no key is an array index, the entries keep assignment order, as a
      `Map` would. */
  lemma RecordOrderPlainKeys<T>(s: seq<T>, key: T -> string)
    requires forall i :: 0 <= i < |s| ==> !IsArrayIndex(key(s[i]))
    ensures RecordOrder(s, key) == s
  {
    FilterNone(s, IndexKeyed(key));
    FilterAll(s, PlainKeyed(key));
  }

  // ---------------------------------------------------------------------
  // Amounts summed per key into a plain object

  /** One property of the object: a key and the amount accumulated on it. */
  datatype Entry = Entry(key: string, total: real)

  function EntryTotal(e: Entry): real { e.total }
  function EntryKey(e: Entry): string { e.key }

  function GroupKey<T>(): Group<T> -> string {
    (grp: Group<T>) => grp.key
  }

  function EntryOf<T>(f: T -> real): Group<T> -> Entry {
    (grp: Group<T>) => Entry(grp.key, Sum(grp.items, f))
  }

  /** `Object.entries(s.reduce((acc, x) => { acc[key(x)] = (acc[key(x)] || 0)
      + f(x); return acc }, {}))`: the amounts summed per key, listed in the
      plain object's key order. */
  function SumByKey<T(==)>(s: seq<T>, key: T -> string, f: T -> real): (r: seq<Entry>)
    ensures |r| == |GroupBy(s, key)|
  {
    var g := RecordOrder(GroupBy(s, key), GroupKey());
    assert |g| == |multiset(g)| == |GroupBy(s, key)|;
    Map(g, EntryOf(f))
  }

  /** `acc[k] || 0`: the amount stored under `k`, or 0 when there is none. */
  function Lookup(es: seq<Entry>, k: string): (v: real)
    ensures (forall i :: 0 <= i < |es| ==> es[i].key != k) ==> v == 0.0
    ensures forall i :: 0 <= i < |es| && es[i].key == k && (forall j :: 0 <= j < i ==> es[j].key != k) ==>
              v == es[i].total
    decreases |es|
  {
    if |es| == 0 then 0.0
    else if es[0].key == k then es[0].total
    else
      var v := Lookup(es[1..], k);
      assert forall i :: 1 <= i < |es| ==> es[1..][i - 1] == es[i];
      v
  }

  /** The entries are the groups, reordered: as many, with the same amounts. */
  lemma SumByKeyGroups<T>(s: seq<T>, key: T -> string, f: T -> real)
    ensures |SumByKey(s, key, f)| == |GroupBy(s, key)|
    ensures multiset(RecordOrder(GroupBy(s, key), GroupKey())) == multiset(GroupBy(s, key))
    ensures Sum(SumByKey(s, key, f), EntryTotal) == GroupSum(GroupBy(s, key), f)
  {
    var g := GroupBy(s, key);
    var r := RecordOrder(g, GroupKey());
    assert |r| == |multiset(r)| == |multiset(g)| == |g|;
    var es := SumByKey(s, key, f);
    forall i | 0 <= i < |es| ensures EntryTotal(es[i]) == GroupTotal(f)(r[i]) {
    }
    SumCongruent(es, EntryTotal, r, GroupTotal(f));
    SumPermutation(r, g, GroupTotal(f));
  }

  /** Summing per key neither loses nor duplicates an amount. */
  lemma SumByKeyConserves<T>(s: seq<T>, key: T -> string, f: T -> real)
    ensures Sum(SumByKey(s, key, f), EntryTotal) == Sum(s, f)
  {
    SumByKeyGroups(s, key, f);
    GroupByConserves(s, key, f);
  }

  /** There are as many entries as distinct keys. */
  lemma SumByKeyCount<T>(s: seq<T>, key: T -> string, f: T -> real)
    ensures |SumByKey(s, key, f)| == |Dedup(Map(s, key))|
    ensures |SumByKey(s, key, f)| == |set i | 0 <= i < |s| :: key(s[i])|
  {
    SumByKeyGroups(s, key, f);
    GroupCount(s, key);
  }

  /** Each entry holds the total of exactly the records with its key. */
  lemma SumByKeyTotal<T>(s: seq<T>, key: T -> string, f: T -> real, i: int)
    requires 0 <= i < |SumByKey(s, key, f)|
    ensures SumByKey(s, key, f)[i].total == Sum(Filter(s, HasKey(key, SumByKey(s, key, f)[i].key)), f)
  {
    var g := GroupBy(s, key);
    GroupByPartitions(s, key);
    var r := RecordOrder(g, GroupKey());
    SumByKeyGroups(s, key, f);
    assert SumByKey(s, key, f)[i] == EntryOf(f)(r[i]);
    assert r[i] in multiset(g);
    var j :| 0 <= j < |g| && g[j] == r[i];
    assert g[j].items == Filter(s, HasKey(key, g[j].key));
  }

  /** No key appears in two entries. */
  lemma SumByKeyDistinct<T>(s: seq<T>, key: T -> string, f: T -> real)
    ensures Distinct(Map(SumByKey(s, key, f), EntryKey))
  {
    var g := GroupBy(s, key);
    var r := RecordOrder(g, GroupKey());
    assert Distinct(Keys(g)) by {
      assert Keys(g) == Dedup(Map(s, key));
    }
    SumByKeyGroups(s, key, f);
    EntryKeysInOrder(s, key, f);
    GroupKeysMap(g);
    MapMultiset(g, r, GroupKey());
    DistinctPermutation(Keys(g), Map(r, GroupKey()));
  }

  /** The entries carry the reordered groups' keys, position by position. */
  lemma EntryKeysInOrder<T>(s: seq<T>, key: T -> string, f: T -> real)
    ensures Map(RecordOrder(GroupBy(s, key), GroupKey()), GroupKey()) == Map(SumByKey(s, key, f), EntryKey)
  {
    EntryKeysOf(RecordOrder(GroupBy(s, key), GroupKey()), f);
  }

  lemma EntryKeysOf<T>(r: seq<Group<T>>, f: T -> real)
    ensures Map(r, GroupKey()) == Map(Map(r, EntryOf(f)), EntryKey)
  {
    var es := Map(r, EntryOf(f));
    forall i | 0 <= i < |r| ensures Map(r, GroupKey())[i] == Map(es, EntryKey)[i] {
      MapIndex(r, EntryOf(f), i);
      MapIndex(es, EntryKey, i);
      MapIndex(r, GroupKey(), i);
    }
  }

  lemma GroupKeysMap<T>(g: seq<Group<T>>)
    ensures Map(g, GroupKey()) == Keys(g)
  {
    forall i | 0 <= i < |g| ensures Map(g, GroupKey())[i] == Keys(g)[i] {
    }
  }

  /** Every entry's key is some record's key. */
  lemma EntryKeyOccurs<T>(s: seq<T>, key: T -> string, f: T -> real, i: int)
    requires 0 <= i < |SumByKey(s, key, f)|
    ensures exists j :: 0 <= j < |s| && key(s[j]) == SumByKey(s, key, f)[i].key
  {
    var g := GroupBy(s, key);
    var r := RecordOrder(g, GroupKey());
    SumByKeyGroups(s, key, f);
    assert Keys(g) == Dedup(Map(s, key));
    assert SumByKey(s, key, f)[i].key == r[i].key by {
      MapIndex(r, EntryOf(f), i);
    }
    assert r[i] in multiset(g);
    var m :| 0 <= m < |g| && g[m] == r[i];
    assert Keys(g)[m] == r[i].key;
    assert Keys(g)[m] in Dedup(Map(s, key));
    DedupMembers(Map(s, key));
    MapMembers(s, key);
  }

  /** Every record's key has an entry. */
  lemma RecordKeyListed<T>(s: seq<T>, key: T -> string, f: T -> real, j: int)
    requires 0 <= j < |s|
    ensures exists i :: 0 <= i < |SumByKey(s, key, f)| && SumByKey(s, key, f)[i].key == key(s[j])
  {
    var g := GroupBy(s, key);
    var r := RecordOrder(g, GroupKey());
    SumByKeyGroups(s, key, f);
    assert Keys(g) == Dedup(Map(s, key));
    assert Map(s, key)[j] == key(s[j]);
    DedupMembers(Map(s, key));
    assert key(s[j]) in Keys(g);
    var m :| 0 <= m < |g| && Keys(g)[m] == key(s[j]);
    assert g[m] in multiset(r);
    assert g[m] in r;
    var n :| 0 <= n < |r| && r[n] == g[m];
    MapIndex(r, EntryOf(f), n);
    assert SumByKey(s, key, f)[n].key == key(s[j]);
  }

  /** The keys of the entries are exactly the keys of the records. */
  lemma SumByKeyKeys<T>(s: seq<T>, key: T -> string, f: T -> real, k: string)
    ensures (exists i :: 0 <= i < |SumByKey(s, key, f)| && SumByKey(s, key, f)[i].key == k)
        <==> (exists j :: 0 <= j < |s| && key(s[j]) == k)
  {
    var es := SumByKey(s, key, f);
    if i :| 0 <= i < |es| && es[i].key == k {
      EntryKeyOccurs(s, key, f, i);
    }
    if j :| 0 <= j < |s| && key(s[j]) == k {
      RecordKeyListed(s, key, f, j);
    }
  }

  lemma MapAppend<T, U>(a: seq<T>, b: seq<T>, f: T -> U)
    ensures Map(a + b, f) == Map(a, f) + Map(b, f)
  {
  }

  /** Equal multisets map to equal multisets. */
  lemma {:induction false} MapMultiset<T, U>(a: seq<T>, b: seq<T>, f: T -> U)
    requires multiset(a) == multiset(b)
    ensures multiset(Map(a, f)) == multiset(Map(b, f))
    decreases |a|
  {
    if |a| == 0 {
      assert |b| == |multiset(b)| == 0;
    } else {
      var x := a[0];
      assert a == [x] + a[1..];
      assert x in multiset(b);
      var i :| 0 <= i < |b| && b[i] == x;
      var lo, hi := b[..i], b[i + 1..];
      assert b == lo + [x] + hi;
      assert multiset(lo + hi) == multiset(a[1..]) by {
        assert multiset(b) == multiset(lo) + multiset{x} + multiset(hi);
        assert multiset(a) == multiset{x} + multiset(a[1..]);
        assert multiset(lo + hi) == multiset(lo) + multiset(hi);
        forall y ensures multiset(lo + hi)[y] == multiset(a[1..])[y] {
          assert multiset(b)[y] == multiset(a)[y];
        }
      }
      MapMultiset(a[1..], lo + hi, f);
      MapAppend([x], a[1..], f);
      MapAppend(lo + [x], hi, f);
      MapAppend(lo, [x], f);
      MapAppend(lo, hi, f);
    }
  }

  /** Reading a key back gives the total of the records with that key, and 0
      for a key no record has. */
  lemma LookupTotal<T>(s: seq<T>, key: T -> string, f: T -> real, k: string)
    ensures Lookup(SumByKey(s, key, f), k) == Sum(Filter(s, HasKey(key, k)), f)
  {
    var es := SumByKey(s, key, f);
    if i :| 0 <= i < |es| && es[i].key == k {
      assert forall j :: 0 <= j < i ==> es[j].key != k by {
        SumByKeyDistinct(s, key, f);
        forall j | 0 <= j < i ensures es[j].key != k {
          MapIndex(es, EntryKey, i);
          MapIndex(es, EntryKey, j);
          assert Map(es, EntryKey)[j] != Map(es, EntryKey)[i];
        }
      }
      assert es[i].total == Sum(Filter(s, HasKey(key, k)), f) by {
        SumByKeyTotal(s, key, f, i);
      }
    } else {
      assert forall j :: 0 <= j < |s| ==> !HasKey(key, k)(s[j]) by {
        SumByKeyKeys(s, key, f, k);
      }
      FilterNone(s, HasKey(key, k));
    }
  }

  /** With no key an array index, the entries come in order of first
      appearance, as a `Map` would list them. */
  lemma SumByKeyPlainOrder<T>(s: seq<T>, key: T -> string, f: T -> real)
    requires forall i :: 0 <= i < |s| ==> !IsArrayIndex(key(s[i]))
    ensures Map(SumByKey(s, key, f), EntryKey) == Dedup(Map(s, key))
  {
    var g := GroupBy(s, key);
    GroupKeysPlain(s, key);
    RecordOrderPlainKeys(g, GroupKey());
    var es := SumByKey(s, key, f);
    assert es == Map(g, EntryOf(f));
    assert |Map(es, EntryKey)| == |Keys(g)|;
    forall i | 0 <= i < |g| ensures Map(es, EntryKey)[i] == Keys(g)[i] {
      assert es[i] == EntryOf(f)(g[i]);
    }
    assert Map(es, EntryKey) == Keys(g);
  }

  /** Every group's key is a key of some record. */
  lemma GroupKeysPlain<T>(s: seq<T>, key: T -> string)
    requires forall i :: 0 <= i < |s| ==> !IsArrayIndex(key(s[i]))
    ensures Keys(GroupBy(s, key)) == Dedup(Map(s, key))
    ensures forall i :: 0 <= i < |GroupBy(s, key)| ==> !IsArrayIndex(GroupKey()(GroupBy(s, key)[i]))
  {
    var g := GroupBy(s, key);
    forall i | 0 <= i < |g| ensures !IsArrayIndex(GroupKey()(g[i])) {
      assert Keys(g)[i] in Dedup(Map(s, key));
      var j :| 0 <= j < |Map(s, key)| && Map(s, key)[j] == g[i].key;
      assert key(s[j]) == g[i].key;
    }
  }

  /** A record appended to the input adds its amount to its own key and
      nothing to any other. */
  lemma LookupSnoc<T>(s: seq<T>, x: T, key: T -> string, f: T -> real, k: string)
    ensures Lookup(SumByKey(s + [x], key, f), k)
         == Lookup(SumByKey(s, key, f), k) + (if key(x) == k then f(x) else 0.0)
  {
    var own := Filter(s, HasKey(key, k));
    LookupTotal(s, key, f, k);
    LookupTotal(s + [x], key, f, k);
    FilterSnoc(s, x, HasKey(key, k));
    if key(x) == k {
      assert Filter(s + [x], HasKey(key, k)) == own + [x];
      SumSnoc(own, x, f);
    } else {
      assert Filter(s + [x], HasKey(key, k)) == own;
    }
  }
}

=== FILE: listing.dfy ===
/** What the list pages (revenues, fixed costs, variable costs, payroll)
    share: a search box over one text field, the total and count of what it
    shows, and the replacement of an edited record in the store. */
module Listing {
  import opened Common
  import opened Text

  function FieldMatches<T>(field: T -> string, term: string): T -> bool {
    x => MatchesSearch(field(x), term)
  }

  /** `records.filter(r => r.field.toLowerCase().includes(term.toLowerCase()))`. */
  function Search<T(==)>(s: seq<T>, field: T -> string, term: string): (r: seq<T>)
    ensures IsSubsequence(r, s)
    ensures forall i :: 0 <= i < |r| ==> MatchesSearch(field(r[i]), term)
    ensures forall i :: 0 <= i < |s| ==> (s[i] in r <==> MatchesSearch(field(s[i]), term))
  {
    FilterIsSubsequence(s, FieldMatches(field, term));
    Filter(s, FieldMatches(field, term))
  }

  /** The page's total: the amounts of the records shown, added up. */
  function SearchTotal<T(==)>(s: seq<T>, field: T -> string, term: string, f: T -> real): real {
    Sum(Search(s, field, term), f)
  }

  /** `id` must be a record's identifier: the store holds each id once. */
  ghost predicate UniqueIds<T>(s: seq<T>, id: T -> string) {
    forall i, j :: 0 <= i < j < |s| ==> id(s[i]) != id(s[j])
  }

  /** An update by id: every record carrying `x`'s id becomes `x`. */
  function Replace<T>(s: seq<T>, id: T -> string, x: T): (r: seq<T>)
    ensures |r| == |s|
    ensures forall i :: 0 <= i < |s| ==> r[i] == if id(s[i]) == id(x) then x else s[i]
  {
    seq(|s|, i requires 0 <= i < |s| => if id(s[i]) == id(x) then x else s[i])
  }

  // ---------------------------------------------------------------------

  /** An empty search shows every record, so the total is the total of the
      store. */
  lemma EmptySearchKeepsAll<T>(s: seq<T>, field: T -> string, f: T -> real)
    ensures Search(s, field, "") == s
    ensures SearchTotal(s, field, "", f) == Sum(s, f)
  {
    forall i | 0 <= i < |s| ensures FieldMatches(field, "")(s[i]) {
      EmptySearchMatches(field(s[i]));
    }
    FilterAll(s, FieldMatches(field, ""));
  }

  /** The search ignores the case of the term. */
  lemma SearchIgnoresTermCase<T>(s: seq<T>, field: T -> string, term: string)
    ensures Search(s, field, term) == Search(s, field, ToLower(term))
  {
    forall i | 0 <= i < |s|
      ensures FieldMatches(field, term)(s[i]) == FieldMatches(field, ToLower(term))(s[i])
    {
      SearchIgnoresCase(field(s[i]), term);
    }
    FilterExt(s, FieldMatches(field, term), FieldMatches(field, ToLower(term)));
  }

  /** With non-negative amounts, the total shown lies between 0 and the
      total of the store. */
  lemma SearchTotalBounds<T>(s: seq<T>, field: T -> string, term: string, f: T -> real)
    requires forall i :: 0 <= i < |s| ==> f(s[i]) >= 0.0
    ensures 0.0 <= SearchTotal(s, field, term, f) <= Sum(s, f)
  {
    SumFilterBound(s, FieldMatches(field, term), f);
  }

  /** A record added to the store is shown, at the end, exactly when the
      search matches it, and then adds its amount to the total. */
  lemma SearchAppend<T>(s: seq<T>, x: T, field: T -> string, term: string, f: T -> real)
    ensures Search(s + [x], field, term)
         == Search(s, field, term) + (if MatchesSearch(field(x), term) then [x] else [])
    ensures SearchTotal(s + [x], field, term, f)
         == SearchTotal(s, field, term, f) + (if MatchesSearch(field(x), term) then f(x) else 0.0)
  {
    FilterSnoc(s, x, FieldMatches(field, term));
    if MatchesSearch(field(x), term) {
      SumSnoc(Search(s, field, term), x, f);
    } else {
      assert Search(s + [x], field, term) == Search(s, field, term);
    }
  }

  /** The search, its count and its total do not depend on the order the
      store comes in: a reordered store shows the same records, as often,
      with the same total. After an insert the pages refetch the list in the
      query's order, a reordering of the store with the new row added. */
  lemma SearchReorder<T>(a: seq<T>, b: seq<T>, field: T -> string, term: string, f: T -> real)
    requires multiset(a) == multiset(b)
    ensures multiset(Search(a, field, term)) == multiset(Search(b, field, term))
    ensures |Search(a, field, term)| == |Search(b, field, term)|
    ensures SearchTotal(a, field, term, f) == SearchTotal(b, field, term, f)
    ensures Sum(a, f) == Sum(b, f)
  {
    var p := FieldMatches(field, term);
    forall x ensures multiset(Filter(a, p))[x] == multiset(Filter(b, p))[x] {
      FilterMultiset(a, p, x);
      FilterMultiset(b, p, x);
    }
    assert multiset(Filter(a, p)) == multiset(Filter(b, p));
    assert |multiset(Filter(a, p))| == |Filter(a, p)|;
    assert |multiset(Filter(b, p))| == |Filter(b, p)|;
    SumPermutation(Filter(a, p), Filter(b, p), f);
    SumPermutation(a, b, f);
  }

  /** With ids unique, replacing the record at `i` changes the store's
      total by the difference of the two amounts and keeps ids unique. */
  lemma ReplaceTotal<T>(s: seq<T>, id: T -> string, x: T, i: int, f: T -> real)
    requires UniqueIds(s, id)
    requires 0 <= i < |s| && id(s[i]) == id(x)
    ensures Replace(s, id, x) == s[i := x]
    ensures Sum(Replace(s, id, x), f) == Sum(s, f) - f(s[i]) + f(x)
    ensures UniqueIds(Replace(s, id, x), id)
  {
    var r := Replace(s, id, x);
    forall j | 0 <= j < |s| ensures r[j] == s[i := x][j] {
      if j != i {
        assert id(s[j]) != id(s[i]);
      }
    }
    SumUpdate(s, i, x, f);
  }

  /** Replacing a record by itself changes nothing. */
  lemma ReplaceSame<T>(s: seq<T>, id: T -> string, i: int)
    requires UniqueIds(s, id)
    requires 0 <= i < |s|
    ensures Replace(s, id, s[i]) == s
  {
    ReplaceTotal(s, id, s[i], i, (x: T) => 0.0);
  }

  /** An id no record carries leaves the store as it was. */
  lemma ReplaceMissing<T>(s: seq<T>, id: T -> string, x: T)
    requires forall i :: 0 <= i < |s| ==> id(s[i]) != id(x)
    ensures Replace(s, id, x) == s
  {
  }
}

=== FILE: mensais.dfy ===
/** The monthly-expenses page: the month list, the three filters, the
    totals above the table, the status column, the form guard and the
    "generate next month" button.

    The page reads `despesas_mensais` through the fetch of `Despesas`; every
    figure here is computed from the rows it got, in their order. */
module Mensais {
  import opened Common
  import opened Text
  import opened Sorting
  import opened Calendar
  import opened Despesas

  function MesOf(e: Expense): string { e.mesReferencia }
  function Valor(e: Expense): real { e.valor }
  function Self(s: string): string { s }

  /** `mesesDisponiveis`: the months of a `Set`, sorted with the default
      `sort()`, which compares the strings' UTF-16 code units. The list
      holds every month that occurs and nothing else, each once, in strictly
      increasing order of their code units. */
  function AvailableMonths(ds: seq<Expense>): (r: seq<string>)
    ensures forall m :: m in r <==> exists i :: 0 <= i < |ds| && MesOf(ds[i]) == m
    ensures Distinct(r)
    ensures forall i, j :: 0 <= i < j < |r| ==> StrLess(r[i], r[j]) && UnitsLess(Utf16(r[i]), Utf16(r[j]))
  {
    SortedMonths(Map(ds, MesOf));
    MapMembers(ds, MesOf);
    SortBy(Dedup(Map(ds, MesOf)), Self, StrAscending())
  }

  /** Sorting the distinct months keeps them, once each, in rising order. */
  lemma SortedMonths(ms: seq<string>)
    ensures var r := SortBy(Dedup(ms), Self, StrAscending());
      && (forall m :: m in r <==> m in ms)
      && Distinct(r)
      && (forall i, j :: 0 <= i < j < |r| ==> StrLess(r[i], r[j]) && UnitsLess(Utf16(r[i]), Utf16(r[j])))
  {
    var u := Dedup(ms);
    var r := SortBy(u, Self, StrAscending());
    SortByMembers(u, Self, StrAscending());
    DedupMembers(ms);
    DistinctPermutation(u, r);
    StrAscendingIsTotalPreorder();
    SortBySorted(u, Self, StrAscending());
    StrictlyAscending(r);
  }

  /** A list of distinct strings sorted by `StrLe` rises strictly, both as
      strings and as code-unit sequences. */
  lemma StrictlyAscending(r: seq<string>)
    requires Distinct(r) && SortedBy(r, Self, StrAscending())
    ensures forall i, j :: 0 <= i < j < |r| ==> StrLess(r[i], r[j]) && UnitsLess(Utf16(r[i]), Utf16(r[j]))
  {
    forall i, j | 0 <= i < j < |r| ensures StrLess(r[i], r[j]) && UnitsLess(Utf16(r[i]), Utf16(r[j])) {
      assert StrAscending()(Self(r[i]), Self(r[j]));
      StrLessIsUnitOrder(r[i], r[j]);
    }
  }

  // ---------------------------------------------------------------------
  // Filters

  /** The month filter: `""` is "all months". */
  predicate MatchesMonth(e: Expense, mes: string) {
    mes == "" || e.mesReferencia == mes
  }

  /** The status filter: `"todos"`, `"pago"` or `"pendente"`; any other
      value lets nothing through. */
  predicate MatchesStatus(e: Expense, status: string) {
    || status == "todos"
    || (status == "pago" && IsPaid(e))
    || (status == "pendente" && !IsPaid(e))
  }

  /** The search box: description or category. */
  predicate MatchesText(e: Expense, term: string) {
    MatchesSearch(e.descricao, term) || MatchesSearch(e.categoria, term)
  }

  function Passes(mes: string, status: string, term: string): Expense -> bool {
    e => MatchesMonth(e, mes) && MatchesStatus(e, status) && MatchesText(e, term)
  }

  /** `despesasFiltradas`: the rows passing all three filters, each as
      often as it is stored, in stored order. */
  function FilterExpenses(ds: seq<Expense>, mes: string, status: string, term: string): (r: seq<Expense>)
    ensures IsSubsequence(r, ds)
    ensures forall e :: e in r <==>
      e in ds && MatchesMonth(e, mes) && MatchesStatus(e, status) && MatchesText(e, term)
    ensures forall e :: multiset(r)[e] ==
              if MatchesMonth(e, mes) && MatchesStatus(e, status) && MatchesText(e, term) then multiset(ds)[e] else 0
  {
    FilterIsSubsequence(ds, Passes(mes, status, term));
    assert forall e :: multiset(Filter(ds, Passes(mes, status, term)))[e] ==
             if Passes(mes, status, term)(e) then multiset(ds)[e] else 0 by {
      forall e ensures multiset(Filter(ds, Passes(mes, status, term)))[e] ==
        if Passes(mes, status, term)(e) then multiset(ds)[e] else 0 {
        FilterMultiset(ds, Passes(mes, status, term), e);
      }
    }
    Filter(ds, Passes(mes, status, term))
  }

  // ---------------------------------------------------------------------
  // Totals

  datatype Totals = Totals(previsto: real, pago: real, pendente: real, percentual: real)

  predicate Paid(e: Expense) { IsPaid(e) }

  /** `totais`: the planned total, the paid part, the rest, and the paid
      share in percent (0 when nothing is planned). The rest is what the
      unpaid rows add up to, so paid and pending make up the plan. */
  function ComputeTotals(ds: seq<Expense>): (r: Totals)
    ensures r.previsto == Sum(ds, Valor)
    ensures r.pago == Sum(Filter(ds, Paid), Valor)
    ensures r.pendente == Sum(Filter(ds, Unpaid), Valor)
    ensures r.pago + r.pendente == r.previsto
    ensures IsPercentOf(r.percentual, r.pago, r.previsto)
  {
    var previsto := Sum(ds, Valor);
    var pago := Sum(Filter(ds, Paid), Valor);
    UnpaidSplit(ds);
    Totals(previsto, pago, previsto - pago, Percent(pago, previsto))
  }

  /** `share` is `part` in percent of `whole`, or 0 when `whole` is not
      positive. */
  predicate IsPercentOf(share: real, part: real, whole: real) {
    if whole > 0.0 then share * whole == 100.0 * part else share == 0.0
  }

  /** The paid share in percent, 0 when nothing is planned. */
  function Percent(part: real, whole: real): (r: real)
    ensures IsPercentOf(r, part, whole)
  {
    if whole > 0.0 then
      assert (part / whole) * whole == part;
      (part / whole) * 100.0
    else 0.0
  }

  // ---------------------------------------------------------------------
  // Status column and row action

  /** The status badge. */
  function StatusLabel(e: Expense): (r: string)
    ensures r == "Pago" <==> IsPaid(e)
    ensures r == "Pendente" <==> !IsPaid(e)
  {
    if IsPaid(e) then "Pago" else "Pendente"
  }

  /** The mark-paid button is shown only for unpaid rows. */
  predicate CanMarkPaid(e: Expense) {
    !IsPaid(e)
  }

  // ---------------------------------------------------------------------
  // Form

  datatype Form = Form(descricao: string, categoria: string, valor: string, dataVencimento: string, mesReferencia: string)

  function EmptyForm(): Form {
    Form("", "", "", "", "")
  }

  /** `handleSubmit`: the fields sent to the insert or update, or `None` when
      a field is empty and nothing is sent. `parsed` is `parseFloat(valor)`. */
  function Submission(f: Form, parsed: real): (r: Option<Draft>)
    ensures r.Some? <==>
      f.descricao != "" && f.categoria != "" && f.valor != "" && f.dataVencimento != "" && f.mesReferencia != ""
    ensures r.Some? ==>
      && r.value.descricao == f.descricao && r.value.categoria == f.categoria
      && r.value.valor == parsed && r.value.dataVencimento == f.dataVencimento
      && r.value.mesReferencia == f.mesReferencia
  {
    if f.descricao != "" && f.categoria != "" && f.valor != "" && f.dataVencimento != "" && f.mesReferencia != ""
    then Some(Draft(f.descricao, f.categoria, parsed, f.dataVencimento, f.mesReferencia))
    else None
  }

  /** `handleEdit`: the form pre-filled from a row; `valorText` is
      `valor.toString()`. */
  function EditForm(e: Expense, valorText: string): Form {
    Form(e.descricao, e.categoria, valorText, e.dataVencimento, e.mesReferencia)
  }

  // ---------------------------------------------------------------------
  // Next month's reference

  /** `MM/YYYY`: the month padded to two digits, "/", and the year. */
  function MonthReference(y: int, m: nat): string {
    PadNumber(m, 2) + "/" + IntToString(y)
  }

  /** The reference reads back, through the generation's split and
      parseInt, as the year and the 0-based month index. */
  lemma MonthReferenceReadsBack(y: int, m: nat)
    ensures ReferenceArgs(MonthReference(y, m)) == (Some(y), Some(m - 1))
  {
    ReferenceArgsOf(m, y);
  }

  /** `handleGerarNovoMes` as written: `setMonth(getMonth() + 1)` on today,
      which keeps today's day of month. An Invalid Date prints as NaN. The
      text reads back, through the generation's parsing, as the month
      `setMonth` lands in, and as no month at all for an Invalid Date. */
  function NextMonthReferenceAsWritten(today: Date): (r: string)
    requires ValidDate(today)
    ensures SetMonth(today, today.month).Some? ==>
      ReferenceArgs(r) == (Some(SetMonth(today, today.month).value.year), Some(SetMonth(today, today.month).value.month - 1))
    ensures SetMonth(today, today.month).None? ==> ReferenceArgs(r) == (None, None)
  {
    match SetMonth(today, today.month)
    case None =>
      NaNReference();
      "NaN/NaN"
    case Some(d) =>
      ReferenceArgsOf(d.month, d.year);
      MonthReference(d.year, d.month)
  }

  /** "NaN/NaN" parses as neither a year nor a month. */
  lemma NaNReference()
    ensures ReferenceArgs("NaN/NaN") == (None, None)
  {
    SplitTwo("NaN", "NaN", '/');
    assert "NaN" + "/" + "NaN" == "NaN/NaN";
    assert TrimStart("NaN") == "NaN";
    assert DigitPrefix("NaN", 10) == [];
  }

  /** The month after today's, whatever today's day of month: the text
      reads back, through the generation's parsing, as that month's year
      and 0-based month index. */
  function NextMonthReference(today: Date): (r: string)
    requires ValidDate(today)
    ensures ReferenceArgs(r) == (Some(NextMonth(today.year, today.month).0), Some(NextMonth(today.year, today.month).1 - 1))
  {
    var (y, m) := NextMonth(today.year, today.month);
    ReferenceArgsOf(m, y);
    MonthReference(y, m)
  }

  // =====================================================================
  // Properties

  /** String order is not chronological: January 2025 is listed before
      December 2024. */
  lemma AvailableMonthsExample(a: Expense, b: Expense)
    requires a.mesReferencia == "12/2024" && b.mesReferencia == "01/2025"
    ensures AvailableMonths([a, b]) == ["01/2025", "12/2024"]
  {
    var dec, jan := "12/2024", "01/2025";
    assert Dedup(Map([a, b], MesOf)) == [dec, jan] by {
      var ms := Map([a, b], MesOf);
      MapIndex([a, b], MesOf, 0);
      MapIndex([a, b], MesOf, 1);
      assert ms == [dec, jan];
      DedupTwo(ms, dec, jan);
    }
    assert !StrAscending()(dec, jan) by {
      assert jan[0] < dec[0];
      assert StrLess(jan, dec);
      StrLessAsymmetric(jan, dec);
    }
    SortByTwo(dec, jan, Self, StrAscending());
  }

  /** Free-text months sort by code unit, not by code point: an emoji
      (a surrogate pair) is listed before a full-width "!" (U+FF01). */
  lemma AvailableMonthsUnitOrder(a: Expense, b: Expense)
    requires a.mesReferencia == "\U{FF01}" && b.mesReferencia == "\U{1F600}"
    ensures AvailableMonths([a, b]) == ["\U{1F600}", "\U{FF01}"]
  {
    var bang, smile := "\U{FF01}", "\U{1F600}";
    assert Dedup(Map([a, b], MesOf)) == [bang, smile] by {
      var ms := Map([a, b], MesOf);
      MapIndex([a, b], MesOf, 0);
      MapIndex([a, b], MesOf, 1);
      assert ms == [bang, smile];
      DedupTwo(ms, bang, smile);
    }
    assert !StrAscending()(bang, smile) by {
      SurrogatesBeforeHighBmp();
    }
    SortByTwo(bang, smile, Self, StrAscending());
  }

  lemma DedupTwo(ms: seq<string>, x: string, y: string)
    requires ms == [x, y] && x != y
    ensures Dedup(ms) == [x, y]
  {
    assert DropLast(ms) == [x] && Last(ms) == y;
    assert DropLast([x]) == [] && Last([x]) == x;
    assert Dedup([x]) == [x];
  }

  /** With all three filters at their defaults the list is unchanged. */
  lemma FilterDefaults(ds: seq<Expense>)
    ensures FilterExpenses(ds, "", "todos", "") == ds
  {
    forall i | 0 <= i < |ds| ensures Passes("", "todos", "")(ds[i]) {
      EmptySearchMatches(ds[i].descricao);
    }
    FilterAll(ds, Passes("", "todos", ""));
  }

  /** A status value outside the three options empties the list. */
  lemma UnknownStatusEmpties(ds: seq<Expense>, mes: string, status: string, term: string)
    requires status != "todos" && status != "pago" && status != "pendente"
    ensures FilterExpenses(ds, mes, status, term) == []
  {
    FilterNone(ds, Passes(mes, status, term));
  }

  /** The paid and the pending selection split the unfiltered-by-status list:
      each row lands in exactly one of them. */
  lemma StatusFiltersSplit(ds: seq<Expense>, mes: string, term: string, e: Expense)
    requires e in FilterExpenses(ds, mes, "todos", term)
    ensures e in FilterExpenses(ds, mes, "pago", term) <==> e !in FilterExpenses(ds, mes, "pendente", term)
  {
  }

  predicate Unpaid(e: Expense) { !IsPaid(e) }


  lemma UnpaidSplit(ds: seq<Expense>)
    ensures Sum(ds, Valor) - Sum(Filter(ds, Paid), Valor) == Sum(Filter(ds, Unpaid), Valor)
  {
    SumSplit(ds, Paid, Unpaid, Valor);
  }

  /** With non-negative amounts the paid total lies between 0 and the planned
      total, and the paid share between 0 and 100 percent. */
  lemma TotalsBounds(ds: seq<Expense>)
    requires forall i :: 0 <= i < |ds| ==> ds[i].valor >= 0.0
    ensures var t := ComputeTotals(ds);
      && 0.0 <= t.pago <= t.previsto
      && 0.0 <= t.pendente
      && 0.0 <= t.percentual <= 100.0
  {
    SumFilterBound(ds, Paid, Valor);
    ShareBounds(ComputeTotals(ds).percentual, ComputeTotals(ds).pago, ComputeTotals(ds).previsto);
  }

  lemma ShareBounds(share: real, part: real, whole: real)
    requires 0.0 <= part <= whole
    requires IsPercentOf(share, part, whole)
    ensures 0.0 <= share <= 100.0
  {
    if whole > 0.0 {
      assert (share - 100.0) * whole == 100.0 * (part - whole);
    }
  }

  /** With nothing planned the share is 0, not a division by zero. */
  lemma NoPlannedExpenses()
    ensures ComputeTotals([]) == Totals(0.0, 0.0, 0.0, 0.0)
  {
  }

  /** The mark-paid button appears exactly on the rows marked "Pendente",
      and marking a row paid turns its badge to "Pago" and removes the
      button. */
  lemma MarkPaidRow(e: Expense, today: Date)
    requires ValidDate(today)
    ensures CanMarkPaid(e) <==> StatusLabel(e) == "Pendente"
    ensures StatusLabel(MarkPaid(e, today)) == "Pago"
    ensures !CanMarkPaid(MarkPaid(e, today))
  {
  }

  /** A freshly reset form never submits. */
  lemma EmptyFormBlocked(parsed: real)
    ensures Submission(EmptyForm(), parsed) == None
  {
  }

  /** Saving a pre-filled form unchanged sends back the row's own fields. */
  lemma EditRoundTrip(e: Expense, valorText: string)
    requires e.descricao != "" && e.categoria != "" && e.dataVencimento != "" && e.mesReferencia != ""
    requires valorText != ""
    ensures Submission(EditForm(e, valorText), e.valor)
         == Some(Draft(e.descricao, e.categoria, e.valor, e.dataVencimento, e.mesReferencia))
  {
  }

  // ---------------------------------------------------------------------
  // Next month's reference

  /** December's successor is January of the next year. */
  lemma DecemberRollsOver(today: Date)
    requires ValidDate(today) && today.month == 12
    ensures NextMonthReference(today) == "01/" + IntToString(today.year + 1)
  {
    assert PadNumber(1, 2) == "01";
  }

  /** Where `setMonth` lands: the next month when today's day exists there,
      otherwise the day overflows into the month after. */
  lemma SetMonthLanding(today: Date)
    requires ValidDate(today) && 100 <= today.year <= 9998
    ensures var (ny, nm) := NextMonth(today.year, today.month);
      && (today.day <= DaysInMonth(ny, nm) ==> SetMonth(today, today.month) == Some(Date(ny, nm, today.day)))
      && (today.day > DaysInMonth(ny, nm) ==>
            1 <= today.month <= 10
            && SetMonth(today, today.month) == Some(Date(today.year, today.month + 2, today.day - DaysInMonth(ny, nm))))
  {
    var (y, m, d) := (today.year, today.month, today.day);
    var (ny, nm) := NextMonth(y, m);
    var landed := MakeDay(y, m, d);
    MakeDayMonthAfter(y, m, d);
    if d <= DaysInMonth(ny, nm) {
      NormalizeValid(Date(ny, nm, d));
      assert landed == Date(ny, nm, d);
    } else {
      assert 1 <= m <= 10;
      MakeDayOverflow(y, m + 1, d);
      MakeDayInYear(y, m + 1, d);
      assert landed == Date(y, m + 2, d - DaysInMonth(ny, nm));
    }
    FourDigitYearsInRange(landed);
    SetMonthIsMakeDay(today, m);
  }

  /** The written computation gives the month after today's exactly when
      today's day of month exists in that month. */
  lemma AsWrittenCorrectIff(today: Date)
    requires ValidDate(today) && 100 <= today.year <= 9998
    ensures NextMonthReferenceAsWritten(today) == NextMonthReference(today)
        <==> today.day <= DaysInMonth(NextMonth(today.year, today.month).0, NextMonth(today.year, today.month).1)
  {
    var (ny, nm) := NextMonth(today.year, today.month);
    SetMonthLanding(today);
    if today.day > DaysInMonth(ny, nm) {
      var skipped := MonthReference(today.year, today.month + 2);
      assert NextMonthReferenceAsWritten(today) == skipped;
      ReferenceArgsOf(today.month + 2, today.year);
      ReferenceArgsOf(nm, ny);
      assert skipped != NextMonthReference(today);
    }
  }

  lemma Year2025Text()
    ensures IntToString(2025) == "2025"
    ensures PadNumber(2, 2) == "02" && PadNumber(3, 2) == "03"
  {
    assert DigitString(2) == "2";
    assert DigitString(20) == "20";
    assert DigitString(202) == "202";
    assert DigitString(2025) == "2025";
  }

  lemma February2025Texts()
    ensures MonthReference(2025, 2) == "02/2025" && MonthReference(2025, 3) == "03/2025"
  {
    Year2025Text();
    assert MonthReference(2025, 2) == "02" + "/" + "2025";
    assert MonthReference(2025, 3) == "03" + "/" + "2025";
  }

  /** On 31 January 2025 the button generates March instead of February. */
  lemma JanuaryEndSkipsFebruary()
    ensures NextMonthReferenceAsWritten(Date(2025, 1, 31)) == "03/2025"
    ensures NextMonthReference(Date(2025, 1, 31)) == "02/2025"
  {
    var today := Date(2025, 1, 31);
    SetMonthLanding(today);
    assert DaysInMonth(2025, 2) == 28;
    assert SetMonth(today, 1) == Some(Date(2025, 3, 3));
    assert NextMonthReferenceAsWritten(today) == MonthReference(2025, 3);
    assert NextMonthReference(today) == MonthReference(2025, 2);
    February2025Texts();
  }
}

=== FILE: modelo.dfy ===
/** The templates page (`DespesasModelo`): the search, the estimated monthly
    total of the active templates, the form guard and the edit round trip. */
module Modelo {
  import opened Common
  import opened Text
  import opened Despesas

  function TemplateValor(t: Template): real { t.valor }
  function DraftValor(d: Draft): real { d.valor }
  predicate Ativo(t: Template) { t.ativo }

  /** The search box: description or category. */
  predicate MatchesTemplate(t: Template, term: string) {
    MatchesSearch(t.descricao, term) || MatchesSearch(t.categoria, term)
  }

  function MatchesTerm(term: string): Template -> bool {
    t => MatchesTemplate(t, term)
  }

  /** `despesasFiltradas`: the templates whose description or category
      matches, each as often as it is stored, in stored order. */
  function SearchTemplates(ts: seq<Template>, term: string): (r: seq<Template>)
    ensures IsSubsequence(r, ts)
    ensures forall t :: t in r <==> t in ts && MatchesTemplate(t, term)
    ensures forall t :: multiset(r)[t] == if MatchesTemplate(t, term) then multiset(ts)[t] else 0
  {
    FilterIsSubsequence(ts, MatchesTerm(term));
    assert forall t :: multiset(Filter(ts, MatchesTerm(term)))[t] ==
             if MatchesTerm(term)(t) then multiset(ts)[t] else 0 by {
      forall t ensures multiset(Filter(ts, MatchesTerm(term)))[t] ==
        if MatchesTerm(term)(t) then multiset(ts)[t] else 0 {
        FilterMultiset(ts, MatchesTerm(term), t);
      }
    }
    Filter(ts, MatchesTerm(term))
  }

  /** The templates the search shows and that are active. */
  function ActiveMatch(term: string): Template -> bool {
    t => MatchesTemplate(t, term) && Ativo(t)
  }

  /** `totalDespesasAtivas`: the active templates among the search results,
      added up. */
  function ActiveTotal(ts: seq<Template>, term: string): (r: real)
    ensures r == Sum(Filter(ts, ActiveMatch(term)), TemplateValor)
  {
    FilterConj(ts, MatchesTerm(term), Ativo, ActiveMatch(term));
    Sum(Filter(SearchTemplates(ts, term), Ativo), TemplateValor)
  }

  /** The "N despesas ativas" line: how many active templates the search
      shows. */
  function ActiveCount(ts: seq<Template>, term: string): (n: nat)
    ensures n <= |SearchTemplates(ts, term)|
    ensures n == |set i | 0 <= i < |ts| && ts[i].ativo && MatchesTemplate(ts[i], term)|
  {
    ActivePositions(ts, term);
    |Filter(SearchTemplates(ts, term), Ativo)|
  }

  lemma ActivePositions(ts: seq<Template>, term: string)
    ensures |Filter(Filter(ts, MatchesTerm(term)), Ativo)|
         == |set i | 0 <= i < |ts| && ts[i].ativo && MatchesTemplate(ts[i], term)|
  {
    FilterConj(ts, MatchesTerm(term), Ativo, ActiveMatch(term));
    FilterCount(ts, ActiveMatch(term));
    assert Positions(ts, ActiveMatch(term))
        == set i | 0 <= i < |ts| && ts[i].ativo && MatchesTemplate(ts[i], term);
  }

  // ---------------------------------------------------------------------
  // Form

  datatype TemplateForm = TemplateForm(
    descricao: string, categoria: string, valor: string, diaVencimento: string, ativo: bool)

  /** The fields sent to the insert or update. `None` for the due day is the
      NaN `parseInt` gives for text that is not a number. */
  datatype TemplateData = TemplateData(
    descricao: string, categoria: string, valor: real, diaVencimento: Option<int>, ativo: bool)

  /** `resetForm`. */
  function ResetForm(): TemplateForm {
    TemplateForm("", "", "", "", true)
  }

  /** `handleEdit`: `valorText` is `valor.toString()`; the due day is an
      integer and prints as its decimal form. */
  function EditForm(t: Template, valorText: string): TemplateForm {
    TemplateForm(t.descricao, t.categoria, valorText, IntToString(t.diaVencimento), t.ativo)
  }

  /** `handleSubmit`: nothing is sent unless the four text fields are
      filled; `parsed` is `parseFloat(valor)`. */
  function Submission(f: TemplateForm, parsed: real): (r: Option<TemplateData>)
    ensures r.Some? <==> f.descricao != "" && f.categoria != "" && f.valor != "" && f.diaVencimento != ""
    ensures r.Some? ==>
      && r.value.descricao == f.descricao && r.value.categoria == f.categoria
      && r.value.valor == parsed && r.value.ativo == f.ativo
      && r.value.diaVencimento == ParseInt(f.diaVencimento)
  {
    if f.descricao != "" && f.categoria != "" && f.valor != "" && f.diaVencimento != ""
    then Some(TemplateData(f.descricao, f.categoria, parsed, ParseInt(f.diaVencimento), f.ativo))
    else None
  }

  // =====================================================================
  // Properties

  /** An empty search shows every template. */
  lemma EmptySearchKeepsAll(ts: seq<Template>)
    ensures SearchTemplates(ts, "") == ts
  {
    forall i | 0 <= i < |ts| ensures MatchesTerm("")(ts[i]) {
      EmptySearchMatches(ts[i].descricao);
    }
    FilterAll(ts, MatchesTerm(""));
  }

  /** An inactive template adds nothing to the estimate or the count. */
  lemma InactiveAddsNothing(ts: seq<Template>, t: Template, term: string)
    requires !t.ativo
    ensures ActiveTotal(ts + [t], term) == ActiveTotal(ts, term)
    ensures ActiveCount(ts + [t], term) == ActiveCount(ts, term)
  {
    var shown := Filter(ts, MatchesTerm(term));
    var shown' := Filter(ts + [t], MatchesTerm(term));
    FilterSnoc(ts, t, MatchesTerm(term));
    assert Filter(shown', Ativo) == Filter(shown, Ativo) by {
      if MatchesTerm(term)(t) {
        assert shown' == shown + [t];
        FilterSnoc(shown, t, Ativo);
        assert !Ativo(t);
      } else {
        assert shown' == shown;
      }
    }
  }

  /** An added template raises the estimate by its amount, and the active
      count by one, exactly when it is active and the search shows it. */
  lemma TemplateAdds(ts: seq<Template>, t: Template, term: string)
    ensures ActiveTotal(ts + [t], term)
         == ActiveTotal(ts, term) + (if t.ativo && MatchesTemplate(t, term) then t.valor else 0.0)
    ensures ActiveCount(ts + [t], term)
         == ActiveCount(ts, term) + (if t.ativo && MatchesTemplate(t, term) then 1 else 0)
  {
    var shown, shown' := SearchTemplates(ts, term), SearchTemplates(ts + [t], term);
    assert shown == Filter(ts, MatchesTerm(term));
    assert shown' == Filter(ts + [t], MatchesTerm(term));
    var active, active' := Filter(shown, Ativo), Filter(shown', Ativo);
    assert ActiveTotal(ts, term) == Sum(active, TemplateValor);
    assert ActiveTotal(ts + [t], term) == Sum(active', TemplateValor);
    assert MatchesTerm(term)(t) == MatchesTemplate(t, term);
    FilterSnoc(ts, t, MatchesTerm(term));
    if MatchesTemplate(t, term) {
      assert shown' == shown + [t];
      FilterSnoc(shown, t, Ativo);
      if t.ativo {
        assert active' == active + [t];
        SumSnoc(active, t, TemplateValor);
      } else {
        assert active' == active;
      }
    } else {
      assert shown' == shown;
    }
  }

  /** With non-negative amounts the estimate is never negative. */
  lemma ActiveTotalNonNegative(ts: seq<Template>, term: string)
    requires forall i :: 0 <= i < |ts| ==> ts[i].valor >= 0.0
    ensures ActiveTotal(ts, term) >= 0.0
  {
    var shown := SearchTemplates(ts, term);
    forall i | 0 <= i < |shown| ensures TemplateValor(shown[i]) >= 0.0 {
      assert shown[i] in ts;
    }
    SumFilterBound(shown, Ativo, TemplateValor);
  }

  /** Without a search, the estimate is what generating a month stores:
      the batch's amounts add up to the active total. */
  lemma EstimateIsGeneratedTotal(ts: seq<Template>, ref: string)
    requires GenerateMonth(ts, ref).Batch?
    ensures Sum(GenerateMonth(ts, ref).drafts, DraftValor) == ActiveTotal(ts, "")
  {
    var drafts := GenerateMonth(ts, ref).drafts;
    var active := ActiveTemplates(ts);
    EmptySearchKeepsAll(ts);
    FilterExt(ts, Ativo, (t: Template) => t.ativo);
    assert Filter(SearchTemplates(ts, ""), Ativo) == active;
    forall i | 0 <= i < |drafts| ensures DraftValor(drafts[i]) == TemplateValor(active[i]) {
      assert StampedFrom(drafts[i], active[i], ref);
    }
    SumCongruent(drafts, DraftValor, active, TemplateValor);
  }

  /** A freshly reset form is active and never submits. */
  lemma ResetFormBlocked(parsed: real)
    ensures ResetForm().ativo
    ensures Submission(ResetForm(), parsed) == None
  {
  }

  /** Saving a pre-filled form unchanged sends back the template's fields,
      the due day included: its decimal text parses back to it. */
  lemma EditRoundTrip(t: Template, valorText: string)
    requires t.descricao != "" && t.categoria != "" && valorText != ""
    ensures Submission(EditForm(t, valorText), t.valor)
         == Some(TemplateData(t.descricao, t.categoria, t.valor, Some(t.diaVencimento), t.ativo))
  {
    IntToStringRoundTrip(t.diaVencimento);
    assert |IntToString(t.diaVencimento)| > 0;
  }
}

=== FILE: receitas.dfy ===
/** The revenues page (`Receitas`): the client list searched by name, its
    total and count, and the form that adds a client or updates the one
    being edited. The store is the loaded list of clients; an insert appends
    the row the database returns, with the id it assigns (`freshId`). */
module Receitas {
  import opened Common
  import opened Text
  import opened Listing
  import opened SupabaseData

  function ClienteNome(c: Cliente): string { c.nome }
  function ClienteId(c: Cliente): string { c.id }

  /** `filteredClientes`. */
  function Filtered(cs: seq<Cliente>, term: string): seq<Cliente> {
    Search(cs, ClienteNome, term)
  }

  /** "Total de Receitas": the revenue of the clients shown. Without a
      search it is the revenue total; with non-negative amounts it never
      exceeds it. */
  function TotalReceitas(cs: seq<Cliente>, term: string): (r: real)
    ensures term == "" ==> r == Sum(cs, ClienteValor)
    ensures (forall i :: 0 <= i < |cs| ==> cs[i].valor >= 0.0) ==> 0.0 <= r <= Sum(cs, ClienteValor)
  {
    EmptySearchKeepsAll(cs, ClienteNome, ClienteValor);
    if forall i :: 0 <= i < |cs| ==> cs[i].valor >= 0.0 then
      SearchTotalBounds(cs, ClienteNome, term, ClienteValor);
      SearchTotal(cs, ClienteNome, term, ClienteValor)
    else
      SearchTotal(cs, ClienteNome, term, ClienteValor)
  }

  /** "Número de Clientes": how many clients the search shows. */
  function NumeroClientes(cs: seq<Cliente>, term: string): (n: nat)
    ensures n <= |cs|
    ensures n == |set i | 0 <= i < |cs| && MatchesSearch(cs[i].nome, term)|
  {
    FilterCount(cs, FieldMatches(ClienteNome, term));
    assert Positions(cs, FieldMatches(ClienteNome, term))
        == set i | 0 <= i < |cs| && MatchesSearch(cs[i].nome, term) by {
      forall i | 0 <= i < |cs| ensures FieldMatches(ClienteNome, term)(cs[i]) == MatchesSearch(cs[i].nome, term) {
        assert ClienteNome(cs[i]) == cs[i].nome;
      }
    }
    |Filtered(cs, term)|
  }

  datatype Form = Form(nome: string, valor: string, dataPagamento: string)

  /** The page state the form acts on. */
  datatype Page = Page(store: seq<Cliente>, form: Form, editing: Option<Cliente>)

  function EmptyForm(): Form { Form("", "", "") }

  predicate Filled(f: Form) {
    f.nome != "" && f.valor != "" && f.dataPagamento != ""
  }

  /** `handleEdit`: `valorText` is `valor.toString()`. */
  function Edit(p: Page, c: Cliente, valorText: string): Page {
    p.(form := Form(c.nome, valorText, c.dataPagamento), editing := Some(c))
  }

  /** `handleSubmit`, on success: with a client being edited the row with
      its id is updated, otherwise one row is inserted; then `resetForm`
      empties the form and ends the edit. `parsed` is
      `parseFloat(form.valor)`. */
  function Submit(p: Page, parsed: real, freshId: string): (r: Page)
    ensures !Filled(p.form) ==> r == p
    ensures Filled(p.form) ==> r.form == EmptyForm() && r.editing.None?
    ensures |r.store| == |p.store| + (if Filled(p.form) && p.editing.None? then 1 else 0)
  {
    if !Filled(p.form) then p
    else
      var f := p.form;
      var store :=
        if p.editing.Some? then Replace(p.store, ClienteId, Cliente(p.editing.value.id, f.nome, parsed, f.dataPagamento))
        else p.store + [Cliente(freshId, f.nome, parsed, f.dataPagamento)];
      Page(store, EmptyForm(), None)
  }

  // =====================================================================
  // Properties

  /** Without a search every client is listed, and the total is the
      revenue total. */
  lemma EmptySearchShowsAll(cs: seq<Cliente>)
    ensures NumeroClientes(cs, "") == |cs|
    ensures TotalReceitas(cs, "") == Sum(cs, ClienteValor)
  {
    EmptySearchKeepsAll(cs, ClienteNome, ClienteValor);
  }

  /** A new client adds one row at the end of the store, and its amount to
      the total shown when the search matches its name. */
  lemma SubmitNew(p: Page, parsed: real, freshId: string, term: string)
    requires Filled(p.form) && p.editing.None?
    ensures var r := Submit(p, parsed, freshId);
      && r.store[..|p.store|] == p.store
      && Last(r.store) == Cliente(freshId, p.form.nome, parsed, p.form.dataPagamento)
      && TotalReceitas(r.store, term)
         == TotalReceitas(p.store, term) + (if MatchesSearch(p.form.nome, term) then parsed else 0.0)
      && NumeroClientes(r.store, term)
         == NumeroClientes(p.store, term) + (if MatchesSearch(p.form.nome, term) then 1 else 0)
  {
    var x := Cliente(freshId, p.form.nome, parsed, p.form.dataPagamento);
    SearchAppend(p.store, x, ClienteNome, term, ClienteValor);
  }

  /** Saving an edit keeps the row in place under its id, with the form's
      fields; the revenue total changes by the difference of the amounts,
      and ids stay unique. */
  lemma SubmitEdit(p: Page, parsed: real, freshId: string, i: int)
    requires Filled(p.form)
    requires UniqueIds(p.store, ClienteId)
    requires 0 <= i < |p.store| && p.editing == Some(p.store[i])
    ensures var r := Submit(p, parsed, freshId);
      && r.store == p.store[i := Cliente(p.store[i].id, p.form.nome, parsed, p.form.dataPagamento)]
      && Sum(r.store, ClienteValor) == Sum(p.store, ClienteValor) - p.store[i].valor + parsed
      && UniqueIds(r.store, ClienteId)
  {
    var x := Cliente(p.store[i].id, p.form.nome, parsed, p.form.dataPagamento);
    ReplaceTotal(p.store, ClienteId, x, i, ClienteValor);
  }

  /** Opening a client for edit and saving the form untouched leaves the
      store as it was, when its amount's text parses back to it. */
  lemma EditRoundTrip(p: Page, i: int, valorText: string, freshId: string)
    requires UniqueIds(p.store, ClienteId)
    requires 0 <= i < |p.store|
    requires p.store[i].nome != "" && p.store[i].dataPagamento != "" && valorText != ""
    ensures Submit(Edit(p, p.store[i], valorText), p.store[i].valor, freshId).store == p.store
  {
    ReplaceSame(p.store, ClienteId, i);
  }
}

=== FILE: resumo.dfy ===
/** The financial overview page (`ResumoFinanceiro`): the figures it derives
    from the in-memory hook's summary. Every ratio is guarded by positive
    revenue and shows 0 otherwise. */
module Resumo {
  import opened Common
  import opened Summary
  import FinancialData

  /** "Custos Totais": fixed plus variable costs; payroll is not a cost here. */
  function CustosTotais(s: Summary): (r: real)
    ensures s.lucroLiquido + s.custosFixosTotal + s.custosVariaveisTotal == s.receitaTotal
        ==> r == s.receitaTotal - s.lucroLiquido
  {
    s.custosFixosTotal + s.custosVariaveisTotal
  }

  /** "ROI" and "Margem Líquida" (the same expression): profit as a share of
      revenue, in percent. */
  function NetMargin(s: Summary): (r: real)
    ensures s.receitaTotal > 0.0 ==> r * s.receitaTotal == 100.0 * s.lucroLiquido
    ensures s.receitaTotal <= 0.0 ==> r == 0.0
  {
    if s.receitaTotal > 0.0 then (s.lucroLiquido / s.receitaTotal) * 100.0 else 0.0
  }

  /** "Participação dos Custos Fixos": fixed costs as a share of revenue. */
  function FixedShare(s: Summary): (r: real)
    ensures s.receitaTotal > 0.0 ==> r * s.receitaTotal == 100.0 * s.custosFixosTotal
    ensures s.receitaTotal <= 0.0 ==> r == 0.0
  {
    if s.receitaTotal > 0.0 then (s.custosFixosTotal / s.receitaTotal) * 100.0 else 0.0
  }

  /** "Status Financeiro". */
  function Status(s: Summary): (r: string)
    ensures r == "LUCRO" <==> s.lucroLiquido > 0.0
    ensures r == "PREJU\U{00CD}ZO" <==> s.lucroLiquido <= 0.0
  {
    if s.lucroLiquido > 0.0 then "LUCRO" else "PREJU\U{00CD}ZO"
  }

  datatype Bar = Bar(name: string, valor: real)

  function BarValor(b: Bar): real { b.valor }

  /** `chartData`: four bars in a fixed order, revenue first and payroll
      last; the two cost bars add up to "Custos Totais" and all four to
      revenue plus the costs plus payroll. */
  function ChartData(s: Summary): (r: seq<Bar>)
    ensures |r| == 4
    ensures r[0] == Bar("Receitas", s.receitaTotal)
    ensures r[1] == Bar("Custos Fixos", s.custosFixosTotal)
    ensures r[2] == Bar("Custos Vari\U{00E1}veis", s.custosVariaveisTotal)
    ensures r[3] == Bar("Folha de Pagamento", s.folhaPagamentoTotal)
    ensures r[1].valor + r[2].valor == CustosTotais(s)
    ensures Sum(r, BarValor) == s.receitaTotal + CustosTotais(s) + s.folhaPagamentoTotal
  {
    var c := [ Bar("Receitas", s.receitaTotal),
               Bar("Custos Fixos", s.custosFixosTotal),
               Bar("Custos Vari\U{00E1}veis", s.custosVariaveisTotal),
               Bar("Folha de Pagamento", s.folhaPagamentoTotal) ];
    SumFour(c, BarValor);
    c
  }

  lemma SumFour<T>(c: seq<T>, f: T -> real)
    requires |c| == 4
    ensures Sum(c, f) == f(c[0]) + f(c[1]) + f(c[2]) + f(c[3])
  {
    SumSingleton(c[0], f);
    assert c[..2] == [c[0]] + [c[1]];
    SumSnoc([c[0]], c[1], f);
    assert c[..3] == c[..2] + [c[2]];
    SumSnoc(c[..2], c[2], f);
    assert c == c[..3] + [c[3]];
    SumSnoc(c[..3], c[3], f);
  }

  // ---------------------------------------------------------------------

  /** Costs and profit add up to revenue, and payroll changes neither the
      cost figure nor the status. */
  lemma CostsAndProfit(receita: real, fixos: real, variaveis: real, folha1: real, folha2: real)
    ensures var s := Summarize(receita, fixos, variaveis, folha1);
      CustosTotais(s) + s.lucroLiquido == s.receitaTotal
    ensures CustosTotais(Summarize(receita, fixos, variaveis, folha1))
         == CustosTotais(Summarize(receita, fixos, variaveis, folha2))
    ensures Status(Summarize(receita, fixos, variaveis, folha1))
         == Status(Summarize(receita, fixos, variaveis, folha2))
  {
  }

  /** With revenue, the net margin times revenue is a hundred times the
      profit, so its sign is the profit's: positive exactly under "LUCRO". */
  lemma NetMarginMeaning(s: Summary)
    requires s.receitaTotal > 0.0
    ensures NetMargin(s) * s.receitaTotal == 100.0 * s.lucroLiquido
    ensures NetMargin(s) > 0.0 <==> Status(s) == "LUCRO"
  {
    var m := NetMargin(s);
    if m > 0.0 {
      assert m * s.receitaTotal > 0.0;
    }
    if s.lucroLiquido > 0.0 {
      assert s.lucroLiquido / s.receitaTotal > 0.0;
    }
  }

  /** The fixed-cost share and the net margin add up to the contribution
      margin: what variable costs leave of revenue goes to fixed costs or to
      profit. */
  lemma SharesAddUp(receita: real, fixos: real, variaveis: real, folha: real)
    requires receita > 0.0
    ensures var s := Summarize(receita, fixos, variaveis, folha);
      FixedShare(s) + NetMargin(s) == s.margemContribuicao
  {
    var s := Summarize(receita, fixos, variaveis, folha);
    assert FixedShare(s) * receita == 100.0 * fixos;
    assert NetMargin(s) * receita == 100.0 * (receita - (fixos + variaveis));
    assert s.margemContribuicao * receita == 100.0 * (receita - variaveis);
    assert (FixedShare(s) + NetMargin(s)) * receita == s.margemContribuicao * receita;
  }

  /** Without revenue every ratio shows 0, and the status is a loss unless
      costs are negative. */
  lemma NoRevenueRatios(fixos: real, variaveis: real, folha: real)
    requires fixos + variaveis >= 0.0
    ensures var s := Summarize(0.0, fixos, variaveis, folha);
      NetMargin(s) == 0.0 && FixedShare(s) == 0.0 && Status(s) != "LUCRO"
  {
  }

  /** The page on the seeded data: costs 13100, a profit, a net margin of
      2600/157 percent and a fixed-cost share of 10500/157 percent. */
  lemma SeededPage()
    ensures var s := FinancialData.CalculateSummary(FinancialData.Seed());
      && CustosTotais(s) == 13100.0
      && Status(s) == "LUCRO"
      && NetMargin(s) == 2600.0 / 157.0
      && FixedShare(s) == 10500.0 / 157.0
  {
    FinancialData.SeededSummary();
  }
}

=== FILE: sorting.dfy ===
/** A stable sort by key, the model of `Array.prototype.sort` with a
    consistent comparator.

    Section 23.1.3 of ECMA-262 (since its 2019 edition) requires the sort to be
    stable: elements the comparator calls equal keep their relative order. A
    comparator `(a, b) => b.valor - a.valor` is modelled as a key function plus
    a total preorder `le` on keys (`le(x, y)` meaning "x may come before y").
    The result is characterised by three facts proved below: it is ordered, it
    is a permutation of the input, and each class of equivalent keys keeps its
    input order. Those three determine the result uniquely. */
module Sorting {
  import opened Common
  import opened Text

  ghost predicate TotalPreorder<K(!new)>(le: (K, K) -> bool) {
    && (forall a, b :: le(a, b) || le(b, a))
    && (forall a, b, c :: le(a, b) && le(b, c) ==> le(a, c))
  }

  ghost predicate SortedBy<T, K>(s: seq<T>, key: T -> K, le: (K, K) -> bool) {
    forall i, j :: 0 <= i < j < |s| ==> le(key(s[i]), key(s[j]))
  }

  /** The elements whose key the preorder calls equal to `k`. */
  function InClass<T, K>(key: T -> K, le: (K, K) -> bool, k: K): T -> bool {
    y => le(key(y), k) && le(k, key(y))
  }

  /** Places `x` after every element of `t` whose key may precede it. */
  function Insert<T, K>(t: seq<T>, x: T, key: T -> K, le: (K, K) -> bool): seq<T>
    decreases |t|
  {
    if |t| == 0 || le(key(Last(t)), key(x)) then t + [x]
    else Insert(DropLast(t), x, key, le) + [Last(t)]
  }

  /** Insertion sort, taking the input from the front. The result is a
      permutation of the input. */
  function SortBy<T, K>(s: seq<T>, key: T -> K, le: (K, K) -> bool): (r: seq<T>)
    ensures multiset(r) == multiset(s)
    ensures |r| == |s|
    decreases |s|
  {
    if |s| == 0 then []
    else
      var t := SortBy(DropLast(s), key, le);
      InsertMultiset(t, Last(s), key, le);
      assert s == DropLast(s) + [Last(s)];
      Insert(t, Last(s), key, le)
  }

  // ---------------------------------------------------------------------

  lemma {:induction false} InsertMultiset<T, K>(t: seq<T>, x: T, key: T -> K, le: (K, K) -> bool)
    ensures multiset(Insert(t, x, key, le)) == multiset(t) + multiset{x}
    ensures |Insert(t, x, key, le)| == |t| + 1
    decreases |t|
  {
    if |t| > 0 && !le(key(Last(t)), key(x)) {
      InsertMultiset(DropLast(t), x, key, le);
      assert t == DropLast(t) + [Last(t)];
    }
  }

  lemma {:induction false} InsertSorted<T, K(!new)>(t: seq<T>, x: T, key: T -> K, le: (K, K) -> bool)
    requires TotalPreorder(le)
    requires SortedBy(t, key, le)
    ensures SortedBy(Insert(t, x, key, le), key, le)
    decreases |t|
  {
    if |t| == 0 {
    } else if le(key(Last(t)), key(x)) {
      var r := t + [x];
      forall i, j | 0 <= i < j < |r| ensures le(key(r[i]), key(r[j])) {
        if j == |t| && i < |t| - 1 {
          assert le(key(t[i]), key(Last(t)));
        }
      }
    } else {
      var l := Last(t);
      var t' := DropLast(t);
      InsertSorted(t', x, key, le);
      InsertMultiset(t', x, key, le);
      var r' := Insert(t', x, key, le);
      forall y | y in r' ensures le(key(y), key(l)) {
        assert y in multiset(r');
        if y != x {
          assert y in multiset(t');
          var i :| 0 <= i < |t'| && t'[i] == y;
          assert t[i] == y && t[|t| - 1] == l;
        }
      }
      var r := r' + [l];
      forall i, j | 0 <= i < j < |r| ensures le(key(r[i]), key(r[j])) {
        if j == |r'| {
          assert r[i] in r';
        }
      }
    }
  }

  /** Inserting `x` keeps each class of equivalent keys in order, with `x`
      after the members already present. */
  lemma {:induction false} InsertStable<T, K(!new)>(t: seq<T>, x: T, key: T -> K, le: (K, K) -> bool, k: K)
    requires TotalPreorder(le)
    ensures Filter(Insert(t, x, key, le), InClass(key, le, k))
         == Filter(t, InClass(key, le, k)) + Filter([x], InClass(key, le, k))
    decreases |t|
  {
    var p := InClass(key, le, k);
    if |t| == 0 || le(key(Last(t)), key(x)) {
      FilterAppend(t, [x], p);
    } else {
      var l := Last(t);
      var t' := DropLast(t);
      InsertStable(t', x, key, le, k);
      FilterAppend(Insert(t', x, key, le), [l], p);
      FilterAppend(t', [l], p);
      assert t == t' + [l];
      assert !(p(x) && p(l));
      assert Filter([x], p) + Filter([l], p) == Filter([l], p) + Filter([x], p) by {
        assert Filter([x], p) == Filter([], p) + (if p(x) then [x] else []);
        assert Filter([l], p) == Filter([], p) + (if p(l) then [l] else []);
      }
    }
  }

  /** The sort result is ordered by `le` on keys. */
  lemma {:induction false} SortBySorted<T, K(!new)>(s: seq<T>, key: T -> K, le: (K, K) -> bool)
    requires TotalPreorder(le)
    ensures SortedBy(SortBy(s, key, le), key, le)
    decreases |s|
  {
    if |s| > 0 {
      SortBySorted(DropLast(s), key, le);
      InsertSorted(SortBy(DropLast(s), key, le), Last(s), key, le);
    }
  }

  /** The sort result holds exactly the input's elements. */
  lemma SortByMembers<T, K>(s: seq<T>, key: T -> K, le: (K, K) -> bool)
    ensures forall x :: x in SortBy(s, key, le) <==> x in s
  {
    forall x ensures x in SortBy(s, key, le) <==> x in s {
      assert x in SortBy(s, key, le) <==> x in multiset(SortBy(s, key, le));
      assert x in s <==> x in multiset(s);
    }
  }

  /** A property every input element has, every output element has. */
  lemma SortByKeeps<T, K>(s: seq<T>, key: T -> K, le: (K, K) -> bool, p: T -> bool)
    requires forall i :: 0 <= i < |s| ==> p(s[i])
    ensures forall i :: 0 <= i < |SortBy(s, key, le)| ==> p(SortBy(s, key, le)[i])
  {
    var r := SortBy(s, key, le);
    forall i | 0 <= i < |r| ensures p(r[i]) {
      assert r[i] in multiset(s);
      var j :| 0 <= j < |s| && s[j] == r[i];
    }
  }

  /** Stability: within each class of equal keys the input order survives. */
  lemma {:induction false} SortByStable<T, K(!new)>(s: seq<T>, key: T -> K, le: (K, K) -> bool, k: K)
    requires TotalPreorder(le)
    ensures Filter(SortBy(s, key, le), InClass(key, le, k)) == Filter(s, InClass(key, le, k))
    decreases |s|
  {
    if |s| > 0 {
      var p := InClass(key, le, k);
      var front, x := DropLast(s), Last(s);
      var t := SortBy(front, key, le);
      assert s == front + [x];
      assert Filter(SortBy(s, key, le), p) == Filter(t, p) + Filter([x], p) by {
        InsertStable(t, x, key, le, k);
      }
      assert Filter(t, p) == Filter(front, p) by {
        SortByStable(front, key, le, k);
      }
      FilterAppend(front, [x], p);
    }
  }

  /** Two elements are swapped exactly when the first may not precede the
      second. */
  lemma SortByTwo<T, K>(x: T, y: T, key: T -> K, le: (K, K) -> bool)
    ensures SortBy([x, y], key, le) == if le(key(x), key(y)) then [x, y] else [y, x]
  {
    assert DropLast([x]) == [] && Last([x]) == x;
    assert SortBy([x], key, le) == [x];
    assert DropLast([x, y]) == [x] && Last([x, y]) == y;
    assert SortBy([x, y], key, le) == Insert([x], y, key, le);
  }

  // ---------------------------------------------------------------------
  // The orders the dashboard sorts by.

  /** `(a, b) => b - a` on amounts: descending. */
  function Descending(): (real, real) -> bool {
    (a: real, b: real) => a >= b
  }

  /** `(a, b) => a - b` on numbers: ascending. */
  function Ascending(): (real, real) -> bool {
    (a: real, b: real) => a <= b
  }

  lemma DescendingIsTotalPreorder()
    ensures TotalPreorder(Descending())
  {
  }

  lemma AscendingIsTotalPreorder()
    ensures TotalPreorder(Ascending())
  {
  }

  /** Ascending string order, as the database orders text and dates. */
  function StrAscending(): (string, string) -> bool {
    (a: string, b: string) => StrLe(a, b)
  }

  /** Descending string order (`ascending: false`). */
  function StrDescending(): (string, string) -> bool {
    (a: string, b: string) => StrLe(b, a)
  }

  lemma StrAscendingIsTotalPreorder()
    ensures TotalPreorder(StrAscending())
  {
    forall a, b ensures StrLe(a, b) || StrLe(b, a) {
      StrLessTrichotomy(a, b);
    }
    forall a, b, c | StrLe(a, b) && StrLe(b, c) ensures StrLe(a, c) {
      if StrLess(a, b) && StrLess(b, c) {
        StrLessTransitive(a, b, c);
      }
    }
  }

  lemma StrDescendingIsTotalPreorder()
    ensures TotalPreorder(StrDescending())
  {
    StrAscendingIsTotalPreorder();
    assert forall a, b :: StrDescending()(a, b) == StrAscending()(b, a);
  }

  // ---------------------------------------------------------------------
  // Sorting, then keeping the first few

  /** `.sort(cmp).slice(0, n)`: the first min(n, |s|) elements of the
      sorted list. */
  function Top<T, K>(s: seq<T>, key: T -> K, le: (K, K) -> bool, n: nat): (r: seq<T>)
    ensures |r| == if |s| < n then |s| else n
    ensures r == SortBy(s, key, le)[..|r|]
  {
    SortBy(s, key, le)[..if |s| < n then |s| else n]
  }

  /** The kept elements are in order and come from the input. */
  lemma TopOrdered<T, K(!new)>(s: seq<T>, key: T -> K, le: (K, K) -> bool, n: nat)
    requires TotalPreorder(le)
    ensures SortedBy(Top(s, key, le, n), key, le)
    ensures multiset(Top(s, key, le, n)) <= multiset(s)
  {
    var sorted := SortBy(s, key, le);
    var r := Top(s, key, le, n);
    SortBySorted(s, key, le);
    assert sorted == r + sorted[|r|..];
    assert multiset(sorted) == multiset(r) + multiset(sorted[|r|..]);
  }

  /** Nothing left out may precede anything kept. */
  lemma TopDominates<T, K(!new)>(s: seq<T>, key: T -> K, le: (K, K) -> bool, n: nat, x: T)
    requires TotalPreorder(le)
    requires x in multiset(s) - multiset(Top(s, key, le, n))
    ensures forall i :: 0 <= i < |Top(s, key, le, n)| ==> le(key(Top(s, key, le, n)[i]), key(x))
  {
    var sorted := SortBy(s, key, le);
    var r := Top(s, key, le, n);
    var j := LeftOut(s, key, le, n, x);
    SortBySorted(s, key, le);
    forall i | 0 <= i < |r| ensures le(key(r[i]), key(x)) {
      assert r[i] == sorted[i];
    }
  }

  /** Where a left-out element sits in the sorted sequence. */
  lemma LeftOut<T, K>(s: seq<T>, key: T -> K, le: (K, K) -> bool, n: nat, x: T) returns (j: int)
    requires x in multiset(s) - multiset(Top(s, key, le, n))
    ensures |Top(s, key, le, n)| <= j < |SortBy(s, key, le)| && SortBy(s, key, le)[j] == x
  {
    var sorted := SortBy(s, key, le);
    var r := Top(s, key, le, n);
    var rest := sorted[|r|..];
    assert sorted == r + rest;
    assert multiset(sorted) == multiset(r) + multiset(rest);
    assert x in multiset(rest);
    var k :| 0 <= k < |rest| && rest[k] == x;
    j := |r| + k;
  }

  /** Among elements with equal keys, the kept ones are the first in input
      order. */
  lemma TopStable<T, K(!new)>(s: seq<T>, key: T -> K, le: (K, K) -> bool, n: nat, k: K)
    requires TotalPreorder(le)
    ensures var kept := Filter(Top(s, key, le, n), InClass(key, le, k));
      var all := Filter(s, InClass(key, le, k));
      |kept| <= |all| && kept == all[..|kept|]
  {
    var sorted := SortBy(s, key, le);
    var r := Top(s, key, le, n);
    var p := InClass(key, le, k);
    SortByStable(s, key, le, k);
    assert r == sorted[..|r|];
    assert sorted == r + sorted[|r|..];
    FilterAppend(r, sorted[|r|..], p);
    var kept, rest := Filter(r, p), Filter(sorted[|r|..], p);
    assert Filter(s, p) == kept + rest;
    assert (kept + rest)[..|kept|] == kept;
  }
}

=== FILE: summary.dfy ===
/** The financial summary both data hooks compute from four totals.

    Revenue R, fixed costs F, variable costs V and payroll P give the
    contribution margin (the share of revenue left after variable costs, in
    percent), the break-even revenue (the revenue at which that margin pays
    for the fixed costs) and the net profit R - (F + V). Both divisions are
    guarded: a margin needs positive revenue and a break-even point needs a
    positive margin, and the guarded-off value is 0. Payroll is reported but
    enters none of the derived figures. */
module Summary {

  datatype Summary = Summary(
    receitaTotal: real,
    custosFixosTotal: real,
    custosVariaveisTotal: real,
    folhaPagamentoTotal: real,
    margemContribuicao: real,
    breakEven: real,
    lucroLiquido: real)

  /** The contribution margin in percent; 0 without revenue. Not clamped: it
      is negative when variable costs exceed revenue. */
  function Margin(receita: real, variaveis: real): (m: real)
    ensures receita > 0.0 ==> m * receita == 100.0 * (receita - variaveis)
    ensures receita <= 0.0 ==> m == 0.0
  {
    if receita > 0.0 then ((receita - variaveis) / receita) * 100.0 else 0.0
  }

  /** The break-even revenue: the fixed costs divided by the margin as a
      fraction; 0 unless the margin is positive. */
  function BreakEven(fixos: real, margem: real): (b: real)
    ensures margem > 0.0 ==> b * (margem / 100.0) == fixos
    ensures margem <= 0.0 ==> b == 0.0
  {
    if margem > 0.0 then fixos / (margem / 100.0) else 0.0
  }

  /** The seven figures from the four totals. */
  function Summarize(receita: real, fixos: real, variaveis: real, folha: real): (s: Summary)
    ensures s.receitaTotal == receita && s.custosFixosTotal == fixos
    ensures s.custosVariaveisTotal == variaveis && s.folhaPagamentoTotal == folha
    ensures s.lucroLiquido + s.custosFixosTotal + s.custosVariaveisTotal == s.receitaTotal
    ensures s.margemContribuicao == Margin(receita, variaveis)
    ensures s.breakEven == BreakEven(fixos, s.margemContribuicao)
  {
    var margem := Margin(receita, variaveis);
    Summary(receita, fixos, variaveis, folha, margem, BreakEven(fixos, margem), receita - (fixos + variaveis))
  }

  // ---------------------------------------------------------------------

  /** The margin's sign follows revenue against variable costs, and it never
      exceeds 100% when variable costs are non-negative. */
  lemma MarginSign(receita: real, variaveis: real)
    requires receita > 0.0
    ensures Margin(receita, variaveis) > 0.0 <==> variaveis < receita
    ensures Margin(receita, variaveis) < 0.0 <==> variaveis > receita
    ensures variaveis >= 0.0 ==> Margin(receita, variaveis) <= 100.0
  {
    var m := Margin(receita, variaveis);
    assert m * receita == 100.0 * (receita - variaveis);
    if m > 0.0 {
      assert m * receita > 0.0;
    }
    if m < 0.0 {
      assert m * receita < 0.0;
    }
    if variaveis >= 0.0 {
      assert (100.0 - m) * receita == 100.0 * variaveis;
    }
  }

  /** At the break-even revenue, with variable costs in the same proportion
      to revenue as now, the contribution exactly pays the fixed costs. */
  lemma BreakEvenCoversFixedCosts(receita: real, fixos: real, variaveis: real)
    requires receita > 0.0 && variaveis < receita
    ensures var b := BreakEven(fixos, Margin(receita, variaveis));
      b * (receita - variaveis) == fixos * receita
  {
    MarginSign(receita, variaveis);
    var m := Margin(receita, variaveis);
    var b := BreakEven(fixos, m);
    assert b * m == 100.0 * fixos;
    calc {
      b * (receita - variaveis) * 100.0;
      b * (m * receita);
      (b * m) * receita;
      100.0 * fixos * receita;
    }
  }

  /** Non-negative fixed costs give a non-negative break-even point. */
  lemma BreakEvenNonNegative(fixos: real, margem: real)
    requires fixos >= 0.0
    ensures BreakEven(fixos, margem) >= 0.0
  {
    if margem > 0.0 {
      assert margem / 100.0 > 0.0;
    }
  }

  /** Payroll changes only the payroll figure. */
  lemma PayrollIndependent(receita: real, fixos: real, variaveis: real, folha1: real, folha2: real)
    ensures Summarize(receita, fixos, variaveis, folha1).(folhaPagamentoTotal := folha2)
         == Summarize(receita, fixos, variaveis, folha2)
  {
  }

  /** Without revenue nothing is divided: margin and break-even are 0. */
  lemma NoRevenue(fixos: real, variaveis: real, folha: real)
    ensures Summarize(0.0, fixos, variaveis, folha).margemContribuicao == 0.0
    ensures Summarize(0.0, fixos, variaveis, folha).breakEven == 0.0
    ensures Summarize(0.0, fixos, variaveis, folha).lucroLiquido == -(fixos + variaveis)
  {
  }

  /** When variable costs exceed revenue the margin is negative and the
      break-even point falls back to 0. */
  lemma LossMakingMargin(receita: real, fixos: real, variaveis: real, folha: real)
    requires variaveis > receita > 0.0
    ensures Summarize(receita, fixos, variaveis, folha).margemContribuicao < 0.0
    ensures Summarize(receita, fixos, variaveis, folha).breakEven == 0.0
  {
    MarginSign(receita, variaveis);
  }

  /** R = 3000, F = 500, V = 300, P = 800: a 90% margin, break-even at
      5000/9 and a profit of 2200. */
  lemma WorkedExample()
    ensures Summarize(3000.0, 500.0, 300.0, 800.0)
         == Summary(3000.0, 500.0, 300.0, 800.0, 90.0, 5000.0 / 9.0, 2200.0)
  {
    assert Margin(3000.0, 300.0) == 90.0;
    assert BreakEven(500.0, 90.0) == 5000.0 / 9.0;
  }
}

=== FILE: supabase.dfy ===
/** The database-backed data hook's summary (`useFinancialSummary`).

    The four collections arrive from separate queries; one that has not
    loaded yet is `undefined` and defaults to the empty list (`None` here).
    Amounts pass through `Number(...)`, which is the identity on the numbers
    the rows carry. The seven formulas are the in-memory hook's, and
    `SameAsInMemory` proves the two summaries equal on equal amounts. */
module SupabaseData {
  import opened Common
  import opened Summary
  import FinancialData

  datatype Cliente = Cliente(id: string, nome: string, valor: real, dataPagamento: string)
  datatype CustoFixo = CustoFixo(id: string, nome: string, valor: real, data: string)
  /** A variable cost; `categoria` is the joined category row's name, absent
      when the join found none. */
  datatype CustoVariavel = CustoVariavel(id: string, categoriaId: string, categoria: Option<string>, valor: real, data: string)
  datatype Categoria = Categoria(id: string, nome: string)
  datatype Funcionario = Funcionario(id: string, nome: string, salario: real, dataVencimento: string)

  function ClienteValor(c: Cliente): real { c.valor }
  function CustoFixoValor(c: CustoFixo): real { c.valor }
  function CustoVariavelValor(c: CustoVariavel): real { c.valor }
  function Salario(f: Funcionario): real { f.salario }

  /** `const { data: xs = [] } = useXs()`. */
  function Loaded<T>(xs: Option<seq<T>>): (r: seq<T>)
    ensures xs.None? ==> r == []
    ensures xs.Some? ==> r == xs.value
  {
    if xs.Some? then xs.value else []
  }

  function FinancialSummary(
    clientes: Option<seq<Cliente>>,
    custosFixos: Option<seq<CustoFixo>>,
    custosVariaveis: Option<seq<CustoVariavel>>,
    funcionarios: Option<seq<Funcionario>>): (s: Summary)
    ensures s.receitaTotal == Sum(Loaded(clientes), ClienteValor)
    ensures s.custosFixosTotal == Sum(Loaded(custosFixos), CustoFixoValor)
    ensures s.custosVariaveisTotal == Sum(Loaded(custosVariaveis), CustoVariavelValor)
    ensures s.folhaPagamentoTotal == Sum(Loaded(funcionarios), Salario)
    ensures s.lucroLiquido == s.receitaTotal - (s.custosFixosTotal + s.custosVariaveisTotal)
  {
    Summarize(
      Sum(Loaded(clientes), ClienteValor),
      Sum(Loaded(custosFixos), CustoFixoValor),
      Sum(Loaded(custosVariaveis), CustoVariavelValor),
      Sum(Loaded(funcionarios), Salario))
  }

  // ---------------------------------------------------------------------

  /** Both hooks give the same summary when their lists carry the same
      amounts in the same order. */
  lemma SameAsInMemory(
    clientes: seq<Cliente>, custosFixos: seq<CustoFixo>,
    custosVariaveis: seq<CustoVariavel>, funcionarios: seq<Funcionario>,
    d: FinancialData.Data)
    requires |clientes| == |d.clientes|
    requires forall i :: 0 <= i < |clientes| ==> clientes[i].valor == d.clientes[i].valor
    requires |custosFixos| == |d.custosFixos|
    requires forall i :: 0 <= i < |custosFixos| ==> custosFixos[i].valor == d.custosFixos[i].valor
    requires |custosVariaveis| == |d.custosVariaveis|
    requires forall i :: 0 <= i < |custosVariaveis| ==> custosVariaveis[i].valor == d.custosVariaveis[i].valor
    requires |funcionarios| == |d.funcionarios|
    requires forall i :: 0 <= i < |funcionarios| ==> funcionarios[i].salario == d.funcionarios[i].salario
    ensures FinancialSummary(Some(clientes), Some(custosFixos), Some(custosVariaveis), Some(funcionarios))
         == FinancialData.CalculateSummary(d)
  {
    SumCongruent(clientes, ClienteValor, d.clientes, FinancialData.ClienteValor);
    SumCongruent(custosFixos, CustoFixoValor, d.custosFixos, FinancialData.CustoFixoValor);
    SumCongruent(custosVariaveis, CustoVariavelValor, d.custosVariaveis, FinancialData.CustoVariavelValor);
    SumCongruent(funcionarios, Salario, d.funcionarios, FinancialData.Salario);
  }

  /** Nothing loaded, or everything empty: all seven figures are 0. */
  lemma NothingLoaded()
    ensures FinancialSummary(None, None, None, None) == Summary(0.0, 0.0, 0.0, 0.0, 0.0, 0.0, 0.0)
    ensures FinancialSummary(Some([]), Some([]), Some([]), Some([])) == Summary(0.0, 0.0, 0.0, 0.0, 0.0, 0.0, 0.0)
  {
  }

  /** A variable cost appended to the loaded list raises the variable total
      by its amount and lowers the profit by it; the other totals stay. */
  lemma AppendCustoVariavel(
    clientes: Option<seq<Cliente>>, custosFixos: Option<seq<CustoFixo>>,
    custosVariaveis: seq<CustoVariavel>, funcionarios: Option<seq<Funcionario>>, c: CustoVariavel)
    ensures var before := FinancialSummary(clientes, custosFixos, Some(custosVariaveis), funcionarios);
      var after := FinancialSummary(clientes, custosFixos, Some(custosVariaveis + [c]), funcionarios);
      && after.custosVariaveisTotal == before.custosVariaveisTotal + c.valor
      && after.lucroLiquido == before.lucroLiquido - c.valor
      && after.receitaTotal == before.receitaTotal
      && after.custosFixosTotal == before.custosFixosTotal
      && after.folhaPagamentoTotal == before.folhaPagamentoTotal
  {
    SumSnoc(custosVariaveis, c, CustoVariavelValor);
  }

  /** A client appended to the loaded list raises revenue by its amount;
      the cost and payroll totals stay. */
  lemma AppendCliente(
    clientes: seq<Cliente>, custosFixos: Option<seq<CustoFixo>>,
    custosVariaveis: Option<seq<CustoVariavel>>, funcionarios: Option<seq<Funcionario>>, c: Cliente)
    ensures var before := FinancialSummary(Some(clientes), custosFixos, custosVariaveis, funcionarios);
      var after := FinancialSummary(Some(clientes + [c]), custosFixos, custosVariaveis, funcionarios);
      && after.receitaTotal == before.receitaTotal + c.valor
      && after.lucroLiquido == before.lucroLiquido + c.valor
      && after.custosFixosTotal == before.custosFixosTotal
      && after.custosVariaveisTotal == before.custosVariaveisTotal
      && after.folhaPagamentoTotal == before.folhaPagamentoTotal
  {
    SumSnoc(clientes, c, ClienteValor);
  }

  /** An employee appended to the loaded list changes only the payroll
      figure, by the salary. */
  lemma AppendFuncionario(
    clientes: Option<seq<Cliente>>, custosFixos: Option<seq<CustoFixo>>,
    custosVariaveis: Option<seq<CustoVariavel>>, funcionarios: seq<Funcionario>, f: Funcionario)
    ensures var before := FinancialSummary(clientes, custosFixos, custosVariaveis, Some(funcionarios));
      FinancialSummary(clientes, custosFixos, custosVariaveis, Some(funcionarios + [f]))
      == before.(folhaPagamentoTotal := before.folhaPagamentoTotal + f.salario)
  {
    SumSnoc(funcionarios, f, Salario);
    PayrollIndependent(
      Sum(Loaded(clientes), ClienteValor), Sum(Loaded(custosFixos), CustoFixoValor),
      Sum(Loaded(custosVariaveis), CustoVariavelValor),
      Sum(funcionarios, Salario), Sum(funcionarios, Salario) + f.salario);
  }
}

=== FILE: text.dfy ===
/** The string operations the pages rely on, with JavaScript semantics.

    - `toLowerCase` for the case-insensitive searches (ASCII and Latin-1
      letters; the rest of Unicode case mapping is not modelled);
    - `String.prototype.includes`;
    - the string order `<` that `Array.prototype.sort()` uses by default,
      which compares UTF-16 code units;
    - decimal formatting (`String(n)`, `padStart`) and the global
      `parseInt` of section 19.2.5 of ECMA-262, used to read a "MM/YYYY"
      reference month back into numbers. */
module Text {
  import opened Common

  // ---------------------------------------------------------------------
  // Case folding and search

  /** Upper-case letters of Basic Latin and Latin-1 Supplement (the
      multiplication sign U+00D7 sits inside that range but is no letter). */
  predicate IsUpper(c: char) {
    ('A' <= c <= 'Z') || ('\U{00C0}' <= c <= '\U{00DE}' && c != '\U{00D7}')
  }

  /** Lower-case of one character: both ranges map by adding 0x20. */
  function LowerChar(c: char): (r: char)
    ensures !IsUpper(r)
    ensures !IsUpper(c) ==> r == c
  {
    if IsUpper(c) then (c as int + 32) as char else c
  }

  function ToLower(s: string): (r: string)
    ensures |r| == |s|
    ensures forall i :: 0 <= i < |s| ==> r[i] == LowerChar(s[i])
  {
    seq(|s|, i requires 0 <= i < |s| => LowerChar(s[i]))
  }

  /** `needle` occurs in `hay` starting at position `i`. */
  ghost predicate OccursAt(hay: string, needle: string, i: int) {
    0 <= i && i + |needle| <= |hay| && hay[i..i + |needle|] == needle
  }

  /** `hay.includes(needle)`. */
  function Includes(hay: string, needle: string): bool
    decreases |hay|
  {
    if |needle| > |hay| then false
    else if hay[..|needle|] == needle then true
    else Includes(hay[1..], needle)
  }

  /** The scan above finds an occurrence exactly when one exists. */
  lemma {:induction false} IncludesSpec(hay: string, needle: string)
    ensures Includes(hay, needle) <==> exists i :: OccursAt(hay, needle, i)
    decreases |hay|
  {
    if |needle| > |hay| {
    } else if hay[..|needle|] == needle {
      assert OccursAt(hay, needle, 0);
    } else {
      IncludesSpec(hay[1..], needle);
      forall i | OccursAt(hay, needle, i) ensures OccursAt(hay[1..], needle, i - 1) {
        assert i != 0;
        assert hay[1..][i - 1..i - 1 + |needle|] == hay[i..i + |needle|];
      }
      if Includes(hay[1..], needle) {
        var i :| OccursAt(hay[1..], needle, i);
        assert hay[1..][i..i + |needle|] == hay[i + 1..i + 1 + |needle|];
        assert OccursAt(hay, needle, i + 1);
      }
    }
  }

  /** The empty string occurs in every string. */
  lemma IncludesEmpty(hay: string)
    ensures Includes(hay, "")
  {
    assert hay[..0] == "";
  }

  /** `field.toLowerCase().includes(term.toLowerCase())`: the search every
      list page applies. */
  predicate MatchesSearch(field: string, term: string) {
    Includes(ToLower(field), ToLower(term))
  }

  /** An empty search box keeps every record. */
  lemma EmptySearchMatches(field: string)
    ensures MatchesSearch(field, "")
  {
    assert ToLower("") == "";
    IncludesEmpty(ToLower(field));
  }

  /** The search ignores case: the term and its lower-case form select the
      same records. */
  lemma {:induction false} SearchIgnoresCase(field: string, term: string)
    ensures MatchesSearch(field, term) == MatchesSearch(field, ToLower(term))
  {
    assert ToLower(ToLower(term)) == ToLower(term);
  }

  // ---------------------------------------------------------------------
  // String order

  /** A JavaScript string is a sequence of UTF-16 code units: a character
      below U+10000 is one unit, any other a surrogate pair
      (UTF16EncodeCodePoint, section 11.1.1 of ECMA-262). */
  function CodeUnits(c: char): (r: seq<int>)
    ensures 1 <= |r| <= 2
    ensures c as int < 0x1_0000 <==> |r| == 1
    ensures forall i :: 0 <= i < |r| ==> 0 <= r[i] < 0x1_0000
  {
    var v := c as int;
    if v < 0x1_0000 then [v]
    else [(v - 0x1_0000) / 0x400 + 0xD800, (v - 0x1_0000) % 0x400 + 0xDC00]
  }

  /** The code units of a whole string. */
  function Utf16(s: string): (r: seq<int>)
    ensures |s| <= |r| <= 2 * |s|
    decreases |s|
  {
    if |s| == 0 then [] else CodeUnits(s[0]) + Utf16(s[1..])
  }

  /** How IsLessThan (section 7.2.13 of ECMA-262) orders two strings, and
      with it the default comparison of `Array.prototype.sort`:
      lexicographic on code units, a proper prefix first. */
  predicate UnitsLess(a: seq<int>, b: seq<int>)
    decreases |a|
  {
    if |a| == 0 then |b| > 0
    else if |b| == 0 then false
    else if a[0] < b[0] then true
    else a[0] == b[0] && UnitsLess(a[1..], b[1..])
  }

  /** Where a character's code units fall among all others': the code point
      itself, except that U+E000 to U+FFFF, whose single unit lies above
      every surrogate, rank after all the supplementary characters. */
  function UnitRank(c: char): int {
    if 0xE000 <= c as int < 0x1_0000 then c as int + 0x11_0000 else c as int
  }

  /** `a < b` on strings, one character at a time by `UnitRank`, a proper
      prefix first. `StrLessIsUnitOrder` shows it is the code-unit order. */
  predicate StrLess(a: string, b: string)
    decreases |a|
  {
    if |a| == 0 then |b| > 0
    else if |b| == 0 then false
    else if UnitRank(a[0]) < UnitRank(b[0]) then true
    else a[0] == b[0] && StrLess(a[1..], b[1..])
  }

  predicate StrLe(a: string, b: string) {
    a == b || StrLess(a, b)
  }

  lemma {:induction false} StrLessIrreflexive(a: string)
    ensures !StrLess(a, a)
    decreases |a|
  {
    if |a| > 0 {
      StrLessIrreflexive(a[1..]);
    }
  }

  /** Two strings are equal or one of them is smaller. */
  lemma {:induction false} StrLessTrichotomy(a: string, b: string)
    ensures a == b || StrLess(a, b) || StrLess(b, a)
    decreases |a|
  {
    if |a| > 0 && |b| > 0 && a[0] == b[0] {
      StrLessTrichotomy(a[1..], b[1..]);
      if a[1..] == b[1..] {
        assert a == [a[0]] + a[1..] && b == [b[0]] + b[1..];
      }
    }
  }

  lemma {:induction false} StrLessTransitive(a: string, b: string, c: string)
    requires StrLess(a, b) && StrLess(b, c)
    ensures StrLess(a, c)
    decreases |a|
  {
    if |a| > 0 && a[0] == b[0] && b[0] == c[0] {
      StrLessTransitive(a[1..], b[1..], c[1..]);
    }
  }

  lemma {:induction false} StrLessAsymmetric(a: string, b: string)
    requires StrLess(a, b)
    ensures !StrLess(b, a)
  {
    if StrLess(b, a) {
      StrLessTransitive(a, b, a);
      StrLessIrreflexive(a);
    }
  }

  /** A shared prefix of code units does not decide the order. */
  lemma {:induction false} UnitsLessPrefix(p: seq<int>, x: seq<int>, y: seq<int>)
    ensures UnitsLess(p + x, p + y) <==> UnitsLess(x, y)
    decreases |p|
  {
    if |p| > 0 {
      assert (p + x)[1..] == p[1..] + x;
      assert (p + y)[1..] == p[1..] + y;
      UnitsLessPrefix(p[1..], x, y);
    } else {
      assert p + x == x && p + y == y;
    }
  }

  /** Two different characters: the order of their code units, whatever
      follows them, is the order of their ranks. */
  lemma FirstUnitsDecide(c: char, d: char, x: seq<int>, y: seq<int>)
    requires c != d
    ensures UnitsLess(CodeUnits(c) + x, CodeUnits(d) + y) <==> UnitRank(c) < UnitRank(d)
  {
    var u := CodeUnits(c) + x;
    var v := CodeUnits(d) + y;
    assert u[0] == CodeUnits(c)[0] && v[0] == CodeUnits(d)[0];
    var cv, dv := c as int, d as int;
    if cv >= 0x1_0000 && dv >= 0x1_0000 && u[0] == v[0] {
      assert u[1..] == [CodeUnits(c)[1]] + x;
      assert v[1..] == [CodeUnits(d)[1]] + y;
      assert (cv - 0x1_0000) / 0x400 == (dv - 0x1_0000) / 0x400;
      assert (cv - 0x1_0000) % 0x400 != (dv - 0x1_0000) % 0x400;
    }
  }

  /** The character-wise order is JavaScript's code-unit order. */
  lemma {:induction false} StrLessIsUnitOrder(a: string, b: string)
    ensures StrLess(a, b) <==> UnitsLess(Utf16(a), Utf16(b))
    decreases |a|
  {
    if |a| > 0 && |b| > 0 {
      assert Utf16(a) == CodeUnits(a[0]) + Utf16(a[1..]);
      assert Utf16(b) == CodeUnits(b[0]) + Utf16(b[1..]);
      if a[0] == b[0] {
        UnitsLessPrefix(CodeUnits(a[0]), Utf16(a[1..]), Utf16(b[1..]));
        StrLessIsUnitOrder(a[1..], b[1..]);
      } else {
        FirstUnitsDecide(a[0], b[0], Utf16(a[1..]), Utf16(b[1..]));
      }
    }
  }

  /** A supplementary character sorts before U+FF01: its first code unit,
      a high surrogate, is smaller, though its code point is larger. */
  lemma SurrogatesBeforeHighBmp()
    ensures StrLess("\U{1F600}", "\U{FF01}") && !StrLess("\U{FF01}", "\U{1F600}")
    ensures UnitsLess(Utf16("\U{1F600}"), Utf16("\U{FF01}"))
  {
    StrLessIsUnitOrder("\U{1F600}", "\U{FF01}");
  }

  /** Behind prefixes of one length, the prefixes decide the order, and the
      rest only when the prefixes are equal. */
  lemma {:induction false} StrLessConcat(p: string, q: string, s: string, t: string)
    requires |p| == |q|
    ensures StrLess(p + s, q + t) <==> StrLess(p, q) || (p == q && StrLess(s, t))
    decreases |p|
  {
    if |p| == 0 {
      assert p + s == s && q + t == t;
    } else {
      assert (p + s)[0] == p[0] && (q + t)[0] == q[0];
      assert (p + s)[1..] == p[1..] + s && (q + t)[1..] == q[1..] + t;
      StrLessConcat(p[1..], q[1..], s, t);
      assert p == [p[0]] + p[1..] && q == [q[0]] + q[1..];
    }
  }

  // ---------------------------------------------------------------------
  // Splitting

  /** `s.split(sep)` for a one-character separator: the pieces between the
      separators, in order; there is always at least one. */
  function Split(s: string, sep: char): (r: seq<string>)
    ensures |r| >= 1
    ensures forall i :: 0 <= i < |r| ==> sep !in r[i]
    decreases |s|
  {
    if |s| == 0 then [""]
    else
      var rest := Split(s[1..], sep);
      if s[0] == sep then [""] + rest else [[s[0]] + rest[0]] + rest[1..]
  }

  /** `parts.join(sep)`. */
  function Join(parts: seq<string>, sep: char): string
    decreases |parts|
  {
    if |parts| == 0 then ""
    else if |parts| == 1 then parts[0]
    else parts[0] + [sep] + Join(parts[1..], sep)
  }

  lemma JoinPrepend(c: char, parts: seq<string>, sep: char)
    requires |parts| >= 1
    ensures Join([[c] + parts[0]] + parts[1..], sep) == [c] + Join(parts, sep)
  {
    var q := [[c] + parts[0]] + parts[1..];
    assert q[1..] == parts[1..];
  }

  /** Joining the pieces gives back the string. */
  lemma {:induction false} SplitJoin(s: string, sep: char)
    ensures Join(Split(s, sep), sep) == s
    decreases |s|
  {
    if |s| > 0 {
      var rest := Split(s[1..], sep);
      SplitJoin(s[1..], sep);
      if s[0] == sep {
        assert ([""] + rest)[1..] == rest;
      } else {
        JoinPrepend(s[0], rest, sep);
      }
      assert s == [s[0]] + s[1..];
    }
  }

  lemma {:induction false} SplitNone(s: string, sep: char)
    requires sep !in s
    ensures Split(s, sep) == [s]
    decreases |s|
  {
    if |s| > 0 {
      SplitNone(s[1..], sep);
      assert s == [s[0]] + s[1..];
    }
  }

  /** Two pieces joined by the separator split back into those two pieces. */
  lemma {:induction false} SplitTwo(a: string, b: string, sep: char)
    requires sep !in a && sep !in b
    ensures Split(a + [sep] + b, sep) == [a, b]
    decreases |a|
  {
    var s := a + [sep] + b;
    if |a| == 0 {
      SplitNone(b, sep);
      assert s[1..] == b;
    } else {
      SplitTwo(a[1..], b, sep);
      assert s[1..] == a[1..] + [sep] + b;
      assert a == [a[0]] + a[1..];
    }
  }

  // ---------------------------------------------------------------------
  // Decimal formatting

  predicate IsDigit(c: char) {
    '0' <= c <= '9'
  }

  predicate AllDigits(s: string) {
    forall i :: 0 <= i < |s| ==> IsDigit(s[i])
  }

  function DigitChar(d: nat): char
    requires d < 10
  {
    ('0' as int + d) as char
  }

  /** `String(n)` for a non-negative integer: its shortest decimal form. */
  function DigitString(n: nat): (r: string)
    ensures |r| >= 1 && AllDigits(r)
    ensures n > 0 ==> r[0] != '0'
    decreases n
  {
    if n < 10 then [DigitChar(n)] else DigitString(n / 10) + [DigitChar(n % 10)]
  }

  /** `String(n)` for any integer. */
  function IntToString(n: int): string {
    if n < 0 then "-" + DigitString(-n) else DigitString(n)
  }

  /** `s.padStart(width, '0')`. */
  function PadZeros(s: string, width: nat): (r: string)
    ensures |r| == if |s| < width then width else |s|
    decreases width - |s|
  {
    if |s| < width then PadZeros("0" + s, width) else s
  }

  /** `String(n).padStart(width, '0')` for a non-negative integer. */
  function PadNumber(n: nat, width: nat): string {
    PadZeros(DigitString(n), width)
  }

  /** A canonical array index (section 6.1.7 of ECMA-262): the decimal form
      of an integer from 0 to 2^32 - 2, with no sign and no leading zero.
      Plain objects list such keys before all others. */
  predicate IsArrayIndex(k: string) {
    && |k| > 0 && AllDigits(k)
    && (k == "0" || k[0] != '0')
    && DigitsValue(k, 10) < 4_294_967_295
  }

  // ---------------------------------------------------------------------
  // parseInt

  /** StrWhiteSpaceChar of ECMA-262: white space and line terminators. */
  predicate IsJsWhiteSpace(c: char) {
    || c == '\t' || c == '\n' || c == '\U{000B}' || c == '\U{000C}' || c == '\r'
    || c == ' ' || c == '\U{00A0}' || c == '\U{1680}'
    || ('\U{2000}' <= c <= '\U{200A}')
    || c == '\U{2028}' || c == '\U{2029}' || c == '\U{202F}' || c == '\U{205F}'
    || c == '\U{3000}' || c == '\U{FEFF}'
  }

  function TrimStart(s: string): (r: string)
    ensures |r| > 0 ==> !IsJsWhiteSpace(r[0])
    decreases |s|
  {
    if |s| > 0 && IsJsWhiteSpace(s[0]) then TrimStart(s[1..]) else s
  }

  /** The value of a digit in radix 16, or 16 for a non-digit. */
  function HexValue(c: char): (v: nat)
    ensures v <= 16
  {
    if '0' <= c <= '9' then c as int - '0' as int
    else if 'a' <= c <= 'f' then c as int - 'a' as int + 10
    else if 'A' <= c <= 'F' then c as int - 'A' as int + 10
    else 16
  }

  /** The longest prefix of `s` made of digits of the given radix. */
  function DigitPrefix(s: string, radix: nat): (r: string)
    requires radix == 10 || radix == 16
    ensures |r| <= |s| && r == s[..|r|]
    ensures forall i :: 0 <= i < |r| ==> HexValue(r[i]) < radix
    ensures |r| < |s| ==> HexValue(s[|r|]) >= radix
    decreases |s|
  {
    if |s| > 0 && HexValue(s[0]) < radix then [s[0]] + DigitPrefix(s[1..], radix) else []
  }

  /** The number a digit string denotes in the given radix. */
  function DigitsValue(s: string, radix: nat): nat
    requires radix == 10 || radix == 16
    decreases |s|
  {
    if |s| == 0 then 0 else DigitsValue(DropLast(s), radix) * radix + HexValue(Last(s))
  }

  /** The digits after the sign: hexadecimal after a "0x"/"0X" prefix,
      decimal otherwise, up to the first non-digit; `None` when there is no
      digit at all. */
  function ParseUnsigned(u: string): Option<nat> {
    var hex := |u| >= 2 && u[0] == '0' && (u[1] == 'x' || u[1] == 'X');
    var radix := if hex then 16 else 10;
    var z := DigitPrefix(if hex then u[2..] else u, radix);
    if |z| == 0 then None else Some(DigitsValue(z, radix))
  }

  /** `parseInt(s)` with no radix: skip leading white space, take one sign,
      then the digits; `None` stands for NaN. */
  function ParseInt(s: string): Option<int> {
    ParseSigned(TrimStart(s))
  }

  /** An optional sign, then the digits. */
  function ParseSigned(t: string): Option<int> {
    var negative := |t| > 0 && t[0] == '-';
    var u := if |t| > 0 && (t[0] == '-' || t[0] == '+') then t[1..] else t;
    match ParseUnsigned(u)
    case None => None
    case Some(v) => Some(if negative then -(v as int) else v as int)
  }

  // ---------------------------------------------------------------------
  // Formatting and parsing agree

  function Pow10(k: nat): (r: nat)
    ensures r >= 1
  {
    if k == 0 then 1 else 10 * Pow10(k - 1)
  }

  /** A digit string of length k denotes a number below 10^k. */
  lemma {:induction false} DigitsValueBound(s: string)
    requires AllDigits(s)
    ensures DigitsValue(s, 10) < Pow10(|s|)
    decreases |s|
  {
    if |s| > 0 {
      var t := DropLast(s);
      assert AllDigits(t) by {
        assert forall i :: 0 <= i < |t| ==> t[i] == s[i];
      }
      DigitsValueBound(t);
      assert HexValue(Last(s)) < 10;
      assert DigitsValue(t, 10) + 1 <= Pow10(|t|);
      assert (DigitsValue(t, 10) + 1) * 10 <= Pow10(|t|) * 10;
    }
  }

  /** The first digit weighs 10^(k-1). */
  lemma {:induction false} DigitsValueFront(s: string)
    requires |s| > 0 && AllDigits(s)
    ensures DigitsValue(s, 10) == HexValue(s[0]) * Pow10(|s| - 1) + DigitsValue(s[1..], 10)
    decreases |s|
  {
    if |s| == 1 {
      assert DropLast(s) == [] && Last(s) == s[0] && s[1..] == [];
    } else {
      var t := DropLast(s);
      assert AllDigits(t) by {
        assert forall i :: 0 <= i < |t| ==> t[i] == s[i];
      }
      DigitsValueFront(t);
      assert t[0] == s[0];
      assert DropLast(s[1..]) == t[1..] && Last(s[1..]) == Last(s);
      var h, p := HexValue(s[0]), Pow10(|t| - 1);
      var a, l := DigitsValue(t[1..], 10), HexValue(Last(s));
      assert DigitsValue(s, 10) == (h * p + a) * 10 + l;
      assert DigitsValue(s[1..], 10) == a * 10 + l;
      assert Pow10(|s| - 1) == p * 10;
      ShiftDigit(h, p, a, l);
    }
  }

  lemma ShiftDigit(h: int, p: int, a: int, l: int)
    ensures (h * p + a) * 10 + l == h * (p * 10) + (a * 10 + l)
  {
  }

  lemma AllDigitsTail(u: string)
    requires |u| > 0 && AllDigits(u)
    ensures AllDigits(u[1..]) && IsDigit(u[0])
  {
    assert forall i :: 0 <= i < |u| - 1 ==> u[1..][i] == u[i + 1];
  }

  /** Of two digit strings of one length, the one with the smaller first
      digit has the smaller value. */
  lemma FirstDigitDecides(u: string, v: string)
    requires |u| == |v| > 0 && AllDigits(u) && AllDigits(v)
    requires HexValue(u[0]) < HexValue(v[0])
    ensures DigitsValue(u, 10) < DigitsValue(v, 10)
  {
    AllDigitsTail(u);
    AllDigitsTail(v);
    DigitsValueFront(u);
    DigitsValueFront(v);
    DigitsValueBound(u[1..]);
    PlaceValue(HexValue(u[0]), HexValue(v[0]), Pow10(|u| - 1), DigitsValue(u[1..], 10), DigitsValue(v[1..], 10));
  }

  lemma {:induction false} PlaceValue(hu: nat, hv: nat, p: nat, ru: nat, rv: nat)
    requires hu < hv && ru < p
    ensures hu * p + ru < hv * p + rv
    decreases hv
  {
    if hv > hu + 1 {
      PlaceValue(hu, hv - 1, p, ru, rv);
    }
    assert hv * p == (hv - 1) * p + p;
  }

  /** Digit strings of one length compare as text as their values do. */
  lemma {:induction false} DigitOrder(u: string, v: string)
    requires |u| == |v| && AllDigits(u) && AllDigits(v)
    ensures StrLess(u, v) <==> DigitsValue(u, 10) < DigitsValue(v, 10)
    decreases |u|
  {
    if |u| > 0 {
      AllDigitsTail(u);
      AllDigitsTail(v);
      if u[0] == v[0] {
        DigitsValueFront(u);
        DigitsValueFront(v);
        DigitOrder(u[1..], v[1..]);
      } else if u[0] < v[0] {
        FirstDigitDecides(u, v);
      } else {
        FirstDigitDecides(v, u);
      }
    }
  }

  /** `String(n)` of a number below 10^k has at most k digits. */
  lemma {:induction false} DigitStringShort(n: nat, k: nat)
    requires k >= 1 && n < Pow10(k)
    ensures |DigitString(n)| <= k
    decreases k
  {
    if n >= 10 {
      assert k >= 2;
      DigitStringShort(n / 10, k - 1);
    }
  }

  /** Padding a number below 10^w to width w gives exactly w digits, whose
      value is the number. */
  lemma PadNumberFixed(n: nat, w: nat)
    requires w >= 1 && n < Pow10(w)
    ensures |PadNumber(n, w)| == w && AllDigits(PadNumber(n, w))
    ensures DigitsValue(PadNumber(n, w), 10) == n
  {
    DigitStringShort(n, w);
    DigitStringValue(n);
    PadZerosValue(DigitString(n), w);
  }

  /** Numbers padded to one width compare as text as they do as numbers. */
  lemma PadNumberOrder(x: nat, y: nat, w: nat)
    requires w >= 1 && x < Pow10(w) && y < Pow10(w)
    ensures StrLess(PadNumber(x, w), PadNumber(y, w)) <==> x < y
    ensures PadNumber(x, w) == PadNumber(y, w) <==> x == y
  {
    PadNumberFixed(x, w);
    PadNumberFixed(y, w);
    DigitOrder(PadNumber(x, w), PadNumber(y, w));
  }

  lemma {:induction false} DigitStringValue(n: nat)
    ensures DigitsValue(DigitString(n), 10) == n
    decreases n
  {
    if n >= 10 {
      DigitStringValue(n / 10);
      var d := DigitString(n / 10) + [DigitChar(n % 10)];
      assert DropLast(d) == DigitString(n / 10);
    }
  }

  lemma {:induction false} LeadingZeroValue(s: string)
    ensures DigitsValue("0" + s, 10) == DigitsValue(s, 10)
    decreases |s|
  {
    if |s| > 0 {
      LeadingZeroValue(DropLast(s));
      assert DropLast("0" + s) == "0" + DropLast(s);
    } else {
      assert DropLast("0" + s) == "";
    }
  }

  lemma {:induction false} PadZerosValue(s: string, width: nat)
    requires AllDigits(s)
    ensures AllDigits(PadZeros(s, width))
    ensures DigitsValue(PadZeros(s, width), 10) == DigitsValue(s, 10)
    decreases width - |s|
  {
    if |s| < width {
      LeadingZeroValue(s);
      PadZerosValue("0" + s, width);
    }
  }

  lemma {:induction false} DigitPrefixAll(s: string)
    requires AllDigits(s)
    ensures DigitPrefix(s, 10) == s
    decreases |s|
  {
    if |s| > 0 {
      DigitPrefixAll(s[1..]);
    }
  }

  /** A non-empty decimal digit string reads back as its value. */
  lemma ParseUnsignedDigits(s: string)
    requires |s| > 0 && AllDigits(s)
    ensures ParseUnsigned(s) == Some(DigitsValue(s, 10))
  {
    DigitPrefixAll(s);
    assert |s| < 2 || IsDigit(s[1]);
    ParseUnsignedDecimal(s);
  }

  /** Text with no hexadecimal prefix, all of it decimal digits, reads as
      its decimal value. */
  lemma ParseUnsignedDecimal(u: string)
    requires |u| > 0 && DigitPrefix(u, 10) == u
    requires |u| < 2 || (u[1] != 'x' && u[1] != 'X')
    ensures ParseUnsigned(u) == Some(DigitsValue(u, 10))
  {
  }

  /** White space is skipped only at the front: text starting with
      anything else is left as it is. */
  lemma TrimStartNone(t: string)
    requires |t| > 0 && !IsJsWhiteSpace(t[0])
    ensures TrimStart(t) == t
  {
  }

  lemma ParseDigits(s: string)
    requires |s| > 0 && AllDigits(s)
    ensures ParseInt(s) == Some(DigitsValue(s, 10) as int)
  {
    assert IsDigit(s[0]);
    TrimStartNone(s);
    ParseUnsignedDigits(s);
    ParseSignedUnsigned(s, DigitsValue(s, 10));
  }

  /** Text that starts with neither sign reads as unsigned. */
  lemma ParseSignedUnsigned(u: string, v: nat)
    requires |u| > 0 && u[0] != '-' && u[0] != '+'
    requires ParseUnsigned(u) == Some(v)
    ensures ParseSigned(u) == Some(v as int)
  {
  }

  /** A minus sign followed by a number reads as its negation. */
  lemma ParseSignedMinus(u: string, v: nat)
    requires ParseUnsigned(u) == Some(v)
    ensures ParseInt("-" + u) == Some(-(v as int))
  {
    var t := "-" + u;
    TrimStartNone(t);
    assert t[1..] == u;
  }

  /** `parseInt(String(n)) == n` for every integer. */
  lemma IntToStringRoundTrip(n: int)
    ensures ParseInt(IntToString(n)) == Some(n)
  {
    if n < 0 {
      var d := DigitString(-n);
      assert ParseUnsigned(d) == Some(-n) by {
        DigitStringValue(-n);
        ParseUnsignedDigits(d);
      }
      ParseSignedMinus(d, -n);
    } else {
      DigitStringValue(n);
      ParseDigits(DigitString(n));
    }
  }

  /** `parseInt(String(n).padStart(w, '0')) == n`: zero padding does not
      disturb the value. */
  lemma PadNumberRoundTrip(n: nat, width: nat)
    ensures ParseInt(PadNumber(n, width)) == Some(n)
  {
    DigitStringValue(n);
    PadZerosValue(DigitString(n), width);
    ParseDigits(PadNumber(n, width));
  }
}
